=== FILE: README.md ===
# City building lifecycle and economy, modelled in Dafny

This project models the rules of the city part of a browser strategy game: how
buildings are placed, gated, upgraded and timed, how the city produces
resources, and how the barracks trains troops. Each rule is written as a pure
Dafny function over an explicit state record. The clock is an explicit `now`
argument. The project also covers the static catalogs and curves those rules
read, and the integer helpers of the procedural road renderer.

The repository carries divergent copies of the same subsystem. Each copy is its
own module, and their rules are not merged:

- `TimedBuildings` (`docs/js/systems/cityBuildings.js`) is the main store.
  - Its state holds a plot → instance map and a building-id → instance map that share instance objects. The model keeps them in a small heap: `objs`, with references in both maps.
  - Build and upgrade timers are end timestamps.
  - At most two timers may run at once. This queue is derived by counting, not kept as a counter.
  - The store has place, upgrade, `tick`, `finishAllTimersNow`, `ensureTownhall` and hydrate-from-save.
  - `TimedBuildingsProps` proves what these operations keep: the store's structure, levels in 1..20, upgrade targets, never both timers at once, and at most two running timers. It also proves that `tick` is idempotent, that levels never fall, and how upgrade and tick combine.
- `InstantBuildings` (`docs/js/systems/citybuildings.js`) is the untimed store.
  - A non-town-hall building upgrades only while the town hall is strictly above it.
  - `InstantBuildingsProps` proves that no upgrade lets a building outrun the town hall. It also shows that placement, which has no gate, can.
- `BuildingMath` (`docs/js/systems/buildingmath.js`) holds the third gate, the quadratic cost formula, the time formula and the linear production curve. It is bound to the catalog helpers in `EmpireCatalog` (`empire-game/app/js/data/buildingcatalog.js`).
- `CityEconomySummed` (`docs/js/systems/cityEconomy.js`) sums the levels of all completed instances per building id. `CityEconomyLevels` (`docs/js/systems/cityeconomy.js`) reads one recorded level per type. The two share the rate functions and the accumulation step of `EconomyRates`.
- `Training` (`docs/js/systems/trainingsystems.js`) covers slots, start, cancel, completion and the snapshot. It reads `TroopsCatalog` (`docs/js/data/troopsCatalog.js`) through a cost table parameter. `AsWritten` is the program's own cost record: food, wood, stone and a NaN `iron`, so no ore is charged. `Corrected` is the intended cost with ore (see "## Findings").
- The catalogs are:
  - `TimedCatalog` (`docs/js/data/buildingCatalog.js`);
  - `InstantCatalog` (`docs/js/data/buildingcatalog.js`);
  - `CostCurves` (`docs/js/data/costCurves.js`);
  - `UpgradeTimes` (`docs/js/data/upgradeTimes.js`);
  - `Assets` (the tier key of `docs/js/systems/assets.js`).
- `TimedDurations` models the anchor tables behind `secondsForTargetLevel` in `cityBuildings.js`.
- `RoadTiles` (`docs/js/proceduralCityRenderer.js`) covers:
  - the 32-bit hash, as `bv32`;
  - the plot filter and the tile coordinate;
  - Bresenham's line, as a method with loop invariants;
  - neighbour-mask classification and road thickening.
- `Resources`, `JsMap` (an insertion-ordered map, as JavaScript objects iterate) and `Common` are shared helpers.

Costs, levels and timestamps are `int`. Rates, balances and refund fractions are exact `real`s.

## Model

| member | source | states |
|---|---|---|
| Assets.TierKeyForLevel | docs/js/systems/assets.js:12-18 | The key is one of the five tier keys, and each key is returned exactly on its level band; 0 and negative levels give L1 |
| Assets.TierKeyMonotone | docs/js/systems/assets.js:12-18 | A higher level never gets a lower tier key |
| Assets.TierKeyIsHighestReached | docs/js/systems/assets.js:12-18 | The chosen key is the highest tier whose floor the level reaches |
| Assets.TryKeys | docs/js/systems/assets.js:25-26 | The sprite try-order is exactly the desired key, then L1; both are L1 below level 5 |
| UpgradeTimes.UpgradeTimeByLevel | docs/js/data/upgradeTimes.js:4-27 | The table is defined for exactly the levels 1..19 |
| UpgradeTimes.StrictlyIncreasing | docs/js/data/upgradeTimes.js:4-27 | The base time rises strictly from each level to any later one |
| UpgradeTimes.LastStepTwoDays | docs/js/data/upgradeTimes.js:26 | The level-19 base time is two days (example) |
| UpgradeTimes.Multipliers | docs/js/data/upgradeTimes.js:29-39 | Exactly the nine listed buildings have a multiplier; each is positive, and the town hall's is 1.0 |
| EmpireCatalog.ToInt32 | empire-game/app/js/data/buildingcatalog.js:15 | `x \| 0` lands in the signed 32-bit range, agrees with `x` modulo 2^32 and is the identity inside the range |
| EmpireCatalog.ClampLevel | empire-game/app/js/data/buildingcatalog.js:14-16 | The clamped level is at least 1 and at most `max`; an in-range level is kept, and one at or above `max` becomes `max` |
| EmpireCatalog.TierForLevel | empire-game/app/js/data/buildingcatalog.js:18-25 | The tier is an element of TIERS, at most the clamped level, and the largest such element |
| EmpireCatalog.FallbackTierKeys | empire-game/app/js/data/buildingcatalog.js:33-40 | The keys start with the sprite key of the level, list every tier from the current one down to 1 in order, and end with `type_L1` |
| EmpireCatalog.TiersDownFrom | empire-game/app/js/data/buildingcatalog.js:38 | The sliced and reversed tier list holds the tiers at indices idx, idx-1, ..., 0 |
| EmpireCatalog.TiersAscending | empire-game/app/js/data/buildingcatalog.js:12 | TIERS is strictly ascending, so the fallback keys strictly descend |
| EmpireCatalog.Catalog | empire-game/app/js/data/buildingcatalog.js:47-81 | Exactly the five building types have entries, each with maxLevel 20 |
| BuildingMath.ProducedResource | docs/js/systems/buildingmath.js:17-26 | Exactly farm, lumber, quarry and mine produce a resource |
| BuildingMath.ProducedMatchesCatalog | docs/js/systems/buildingmath.js:17-26 | The produced resource agrees with the catalog's `produces` field |
| BuildingMath.ProductionPerSecond | docs/js/systems/buildingmath.js:28-38 | Production is never negative, and a non-producer produces 0 |
| BuildingMath.ProductionAtLevelOne | docs/js/systems/buildingmath.js:28-38 | At level 1 a producer yields exactly its base rate |
| BuildingMath.ProductionMonotone | docs/js/systems/buildingmath.js:28-38 | Production never falls as the level rises |
| BuildingMath.ProductionCappedAtTwenty | docs/js/systems/buildingmath.js:28-38 | From level 20 on, production stays at 2.52 times the base rate |
| BuildingMath.UpgradeCost | docs/js/systems/buildingmath.js:45-85 | All five resources are listed, none negative |
| BuildingMath.UpgradeCostMonotone | docs/js/systems/buildingmath.js:45-73 | Every cost component is non-decreasing in the current level |
| BuildingMath.UpgradeCostFlatFromNineteen | docs/js/systems/buildingmath.js:46 | From current level 19 on, the cost no longer changes |
| BuildingMath.UpgradeCostWrapsAtInt32Max | docs/js/systems/buildingmath.js:46 | `\| 0` wraps: the largest 32-bit level costs the same as level 0 |
| BuildingMath.TownhallCostShares | docs/js/systems/buildingmath.js:76-82 | The town hall pays 1.0/0.8/0.8/0.45/0.45 of the scaled value, floored |
| BuildingMath.ProducerBias | docs/js/systems/buildingmath.js:61-73 | A producer pays the floor of 1.35 times its floored share of the resource it produces, and the plain share of the others |
| BuildingMath.FarmToLevelTwo | docs/js/systems/buildingmath.js:45-85 | A farm going from level 1 to 2 costs 26 gold, 15 wood, 11 stone, 6 ore and 8 food (worked example of the cost formula) |
| BuildingMath.UpgradeTimeSeconds | docs/js/systems/buildingmath.js:87-101 | The time is always at least 5 seconds |
| BuildingMath.UpgradeTimeMonotone | docs/js/systems/buildingmath.js:87-101 | The time is at least the type's base time and never falls as the level rises |
| BuildingMath.UpgradeTimeExamples | docs/js/systems/buildingmath.js:87-101 | A farm from level 1 takes 16 s; the town hall from level 0 takes 45 s |
| BuildingMath.CanUpgradeBuilding | docs/js/systems/buildingmath.js:108-117 | False for an unknown type and at max level; otherwise the town hall may always go up, and other types only while the next level is at most the town-hall level |
| BuildingMath.TownhallNeverCapped | docs/js/systems/buildingmath.js:108-117 | Below level 20 the town hall may upgrade whatever the town-hall level (sanity fact) |
| EconomyRates.Rate | docs/js/systems/cityEconomy.js:32-60 | A rate is never negative, and it is 0 exactly at level 0 or below |
| EconomyRates.RateStep | docs/js/systems/cityEconomy.js:32-60 | Above 0, each level adds exactly the curve's coefficient |
| EconomyRates.RateMonotone | docs/js/systems/cityEconomy.js:32-60 | Every rate is non-decreasing in its level |
| EconomyRates.Accumulate | docs/js/systems/cityEconomy.js:106-119 | A missing or non-positive dt changes nothing |
| EconomyRates.AccumulateNeverDecreases | docs/js/systems/cityEconomy.js:106-119 | With non-negative rates, no balance decreases |
| EconomyRates.AccumulateExact | docs/js/systems/cityEconomy.js:106-119 | For dt > 0 each balance grows by exactly rate times dt |
| EconomyRates.AccumulateSplits | docs/js/systems/cityEconomy.js:106-119 | Two steps of dt1 and dt2 equal one step of dt1 + dt2 |
| CityEconomySummed.LevelOf | docs/js/systems/cityEconomy.js:80 | The level an instance contributes lies in 1..20 and is its own level when that is in range |
| CityEconomySummed.SumLevelsFromPlaced | docs/js/systems/cityEconomy.js:67-84 | The loop's map has a key exactly for the ids with a contributing instance, each holding that id's level sum |
| CityEconomySummed.SummedLevelsMeaning | docs/js/systems/cityEconomy.js:67-84 | The summed map's keys are exactly the contributing ids, each mapped to its level sum |
| CityEconomySummed.LevelSumBounds | docs/js/systems/cityEconomy.js:67-84 | A level sum lies between the number of contributors and 20 times it; it is positive exactly when some instance contributes |
| CityEconomySummed.Production | docs/js/systems/cityEconomy.js:86-104 | All rates are non-negative; food uses the farm sum and gold the town-hall sum clamped to 0..20 |
| CityEconomySummed.ProductionIsLinear | docs/js/systems/cityEconomy.js:67-104 | Over the plot map each rate is its coefficient times the reference level sum. The sums are capped at 999, the town hall's at 20. Food is 1.5 per farm level, wood 1.2 per lumber level, stone 1.0 per quarry level and ore 0.8 per mine level. Gold is 0.2 per town-hall level plus 0.5 per house level |
| CityEconomySummed.ProductionMonotone | docs/js/systems/cityEconomy.js:86-104 | Raising summed levels never lowers any rate |
| CityEconomySummed.NothingBuiltProducesNothing | docs/js/systems/cityEconomy.js:86-104 | With no levels every rate is 0 |
| CityEconomySummed.UpgradingStillProduces | docs/js/systems/cityEconomy.js:63-65 | Starting or clearing an upgrade timer leaves every level sum unchanged (sanity fact) |
| CityEconomySummed.ConstructingProducesNothing | docs/js/systems/cityEconomy.js:76-77 | An instance under construction adds nothing to any sum |
| CityEconomySummed.UpdateEconomy | docs/js/systems/cityEconomy.js:106-119 | A missing or non-positive dt changes nothing; no balance decreases |
| CityEconomySummed.UpdateEconomyExact | docs/js/systems/cityEconomy.js:106-119 | For dt > 0 each balance grows by its summed-level rate times dt |
| CityEconomySummed.UpdateEconomyByLoop | docs/js/systems/cityEconomy.js:67-119 | With the levels summed by the `SumLevelsFromPlaced` loop over the placed records, the step gives the same ledger as `UpdateEconomy` |
| CityEconomyLevels.LevelOf | docs/js/systems/cityeconomy.js:15-18 | The level lies in 0..20, is 0 for a missing id and is the recorded level when that is in range |
| CityEconomyLevels.Production | docs/js/systems/cityeconomy.js:55-72 | Every rate is non-negative |
| CityEconomyLevels.ProductionIsLinear | docs/js/systems/cityeconomy.js:21-72 | Food, wood, stone and ore are 1.5, 1.2, 1.0 and 0.8 times the level; gold is 0.2 times the town-hall level plus 0.5 times the house level |
| CityEconomyLevels.RatesAtTwenty | docs/js/systems/cityeconomy.js:24-51 | With everything at 20 the rates are 30, 24, 20, 16 and 14 gold |
| CityEconomyLevels.NothingBuiltProducesNothing | docs/js/systems/cityeconomy.js:55-72 | With no levels every rate is 0 |
| CityEconomyLevels.ProductionMonotone | docs/js/systems/cityeconomy.js:55-72 | Raising levels never lowers any rate |
| CityEconomyLevels.UpdateEconomy | docs/js/systems/cityeconomy.js:74-90 | A missing or non-positive dt changes nothing; no balance decreases |
| CityEconomyLevels.UpdateEconomyExact | docs/js/systems/cityeconomy.js:74-90 | For dt > 0 each balance grows by exactly rate times dt |
| CostCurves.NormalizeProfile | docs/js/data/costCurves.js:38-47 | The weights lie in [0,1] and sum to 1; an all-zero profile becomes all gold, and a zero weight stays zero |
| CostCurves.ListedProfilesNormalised | docs/js/data/costCurves.js:22-47 | Each of the nine listed profiles has weights in [0,1] summing to exactly 1, so normalising returns it unchanged |
| CostCurves.NormalizedOreStaysZero | docs/js/data/costCurves.js:38-47 | A profile with no ore weight keeps none after normalising |
| CostCurves.TableLevel | docs/js/data/costCurves.js:53 | The table level lies in 1..19 |
| CostCurves.TableLevelMonotone | docs/js/data/costCurves.js:53 | The table level never falls as fromLevel rises |
| CostCurves.TimeMult | docs/js/data/costCurves.js:56 | The multiplier is positive; unlisted buildings get 0.75 |
| CostCurves.UpgradeCostFor | docs/js/data/costCurves.js:52-77 | No listed component is 0, and each resource costs the floor of total value times its weight |
| CostCurves.SplitCost | docs/js/data/costCurves.js:63-74 | Each component is the floored share, and zero shares are dropped |
| CostCurves.CostWithinTotal | docs/js/data/costCurves.js:63-69 | The components sum to at most the total value |
| CostCurves.ZeroWeightHasNoKey | docs/js/data/costCurves.js:71-74 | A resource with zero weight has no key in the cost |
| CostCurves.NoOreWeight | docs/js/data/costCurves.js:24-29 | The farm, lumber and house profiles give ore no weight |
| CostCurves.NoOreForFarmLumberHouse | docs/js/data/costCurves.js:24-29 | Farm, lumber and house upgrade costs never list ore |
| CostCurves.TimeSecondsMonotone | docs/js/data/costCurves.js:52-58 | The base time never falls as fromLevel rises |
| CostCurves.CostMonotone | docs/js/data/costCurves.js:52-69 | For a monotone total-value curve, every component is non-decreasing in fromLevel |
| InstantCatalog.Lookup | docs/js/data/buildingcatalog.js:13-138 | Exactly the known ids have an entry, under their own id |
| InstantCatalog.UpgradeCost | docs/js/data/buildingcatalog.js:21-136 | Exactly the known ids have an upgrade cost |
| InstantCatalog.UpgradeCostShape | docs/js/data/buildingcatalog.js:21-136 | Town-hall stone is 0 below level 5 and 80 times the level from 5; every other component is a non-negative coefficient times the level |
| InstantCatalog.UpgradeCostMonotone | docs/js/data/buildingcatalog.js:21-136 | Every upgrade-cost component is non-decreasing in the level |
| InstantCatalog.PlacementStone | docs/js/data/buildingcatalog.js:18-129 | Only academy and commandcenter placements need stone; all others need only wood and gold |
| InstantCatalog.BarracksNoStone | docs/js/data/buildingcatalog.js:87-92 | Barracks placement and upgrade costs never include stone |
| InstantCatalog.FlagsAndGates | docs/js/data/buildingcatalog.js:81-123 | Exactly barracks, academy and commandcenter are unique, and no entry has a minimum town-hall level |
| TimedCatalog.Lookup | docs/js/data/buildingCatalog.js:14-142 | Exactly the known ids have an entry, under their own id |
| TimedCatalog.UpgradeCost | docs/js/data/buildingCatalog.js:21-140 | Exactly the known ids have an upgrade cost |
| TimedCatalog.UpgradeCostMonotone | docs/js/data/buildingCatalog.js:21-140 | Every upgrade-cost component is non-decreasing in the level |
| TimedCatalog.TownhallStone | docs/js/data/buildingCatalog.js:20-25 | Town-hall upgrades need no stone below level 5 and 80 times the level from 5 |
| TimedCatalog.TownhallPlacementFree | docs/js/data/buildingCatalog.js:19 | Placing the town hall costs nothing |
| TimedCatalog.FarmPlacementCost | docs/js/data/buildingCatalog.js:37 | Placing a farm costs 60 wood and 10 gold |
| TimedCatalog.UniqueFlags | docs/js/data/buildingCatalog.js:58-134 | Exactly barracks, academy and commandcenter are unique |
| TimedCatalog.MinTownhallLevels | docs/js/data/buildingCatalog.js:31-134 | The minimum town-hall levels are the field values: farm 1, lumber 1, barracks 2, quarry 5, house 1, mine 6, academy 8, commandcenter 5 |
| TimedCatalog.CostsNonNegative | docs/js/data/buildingCatalog.js:14-142 | No placement or upgrade cost is negative |
| TimedDurations.MaxSecondsAt20 | docs/js/systems/cityBuildings.js:94-99 | Every level-20 maximum lies between 4 and 14 days, and only the town hall's is 14 |
| TimedDurations.ExactAnchor | docs/js/systems/cityBuildings.js:107 | An exact anchor is found exactly when the level is an anchor level, and gives that anchor's seconds |
| TimedDurations.InterpWithin | docs/js/systems/cityBuildings.js:105-125 | For an interpolation that stays between its end points, the result stays within the anchors' bounds |
| TimedDurations.NextSeconds | docs/js/systems/cityBuildings.js:153-162 | Each scaled anchor is at least 5 seconds and strictly above the previous one |
| TimedDurations.ScaleFrom | docs/js/systems/cityBuildings.js:149-163 | Scaling keeps one anchor per town-hall anchor |
| TimedDurations.AnchorsShape | docs/js/systems/cityBuildings.js:127-163 | Each building's anchors strictly ascend from (1, 5 s) to (20, its level-20 maximum) |
| TimedDurations.CapAtTwenty | docs/js/systems/cityBuildings.js:101-165 | A target level of 20 or more takes exactly the level-20 maximum |
| TimedDurations.FloorAtOne | docs/js/systems/cityBuildings.js:101-142 | A target level of 1 or less takes 5 seconds |
| TimedDurations.DurationBounds | docs/js/systems/cityBuildings.js:101-166 | Every duration lies between 5 seconds and the building's level-20 maximum |
| TimedBuildings.GetQueueInfo | docs/js/systems/cityBuildings.js:214-225 | The limit is 2, `full` holds exactly when no further timer may start, and `active` is the number of running build and upgrade timers |
| TimedBuildings.CountIsActiveTimers | docs/js/systems/cityBuildings.js:200-208 | The scan's count equals the size of the set of running (plot, timer) pairs |
| TimedBuildings.UnlockAt | docs/js/systems/cityBuildings.js:24-33 | A building is unlocked at a level exactly when the unlock table lists that level |
| TimedBuildings.UnlockedBuildingsUpTo | docs/js/systems/cityBuildings.js:177-184 | The list holds exactly the buildings unlocked at or below the level |
| TimedBuildings.GetByBuildingId | docs/js/systems/cityBuildings.js:265-268 | An instance is returned exactly when one is registered and complete |
| TimedBuildings.CanBuildBuilding | docs/js/systems/cityBuildings.js:296-313 | Building is allowed exactly for a known, not yet registered id whose minimum town-hall level is met, with a free queue slot when timers are on |
| TimedBuildings.RequiredSetCheck | docs/js/systems/cityBuildings.js:342-349 | The check passes exactly when every required building exists, is complete and has caught up with the town hall |
| TimedBuildings.CanUpgradePlot | docs/js/systems/cityBuildings.js:315-362 | An upgrade is allowed exactly for a complete building below 20, with a free queue slot when timers are on, and, for the town hall, every unlock and catch-up requirement met |
| TimedBuildings.GetStatus | docs/js/systems/cityBuildings.js:279-294 | An empty plot has no status; each remaining time is positive exactly while its timer runs, and a target level shows only while upgrading |
| TimedBuildings.StatusBlocksUpgrade | docs/js/systems/cityBuildings.js:315-321 | A status showing construction or an upgrade means the upgrade gate refuses for that reason |
| TimedBuildings.ClampLevel | docs/js/systems/cityBuildings.js:389 | The level lies in 1..20 and an in-range level is kept |
| TimedBuildings.RecordLevel | docs/js/systems/cityBuildings.js:414-415 | The recorded level of the id is set, and the town-hall level follows only for the town hall |
| TimedBuildings.Install | docs/js/systems/cityBuildings.js:411-415 | A new object is registered under both its plot and its id. Its level is recorded in the level map, and as the town-hall level when it is the town hall. Resources and the timer switch are unchanged |
| TimedBuildings.NewInstance | docs/js/systems/cityBuildings.js:386-407 | A new instance has the clamped level and no upgrade; a timed one starts its build timer now for the target level's duration, and an untimed one has no timer |
| TimedBuildings.PlaceBuildingOnPlot | docs/js/systems/cityBuildings.js:364-426 | An occupied plot is refused; on success the gate and affordability held unless free, the cost is spent unless free, and the new instance is appended under both keys |
| TimedBuildings.UpgradePlot | docs/js/systems/cityBuildings.js:428-471 | On success the gate held and the cost was affordable and is spent; with timers off the level rises by one, with timers on an upgrade timer to the next level starts |
| TimedBuildings.FindTownhallPlot | docs/js/systems/cityBuildings.js:172 | A plot is found exactly when some plot id names the town hall |
| TimedBuildings.PickTownhallPlotId | docs/js/systems/cityBuildings.js:171-175 | The pick is a town-hall plot when there is one, else a listed plot or the default `plot_0` |
| TimedBuildings.EnsureTownhall | docs/js/systems/cityBuildings.js:473-502 | Nothing changes when a town hall is registered; otherwise a level-1 town hall is seeded on the picked plot; either way a town hall is registered afterwards |
| TimedBuildings.HydrateOne | docs/js/systems/cityBuildings.js:507-526 | A record for an occupied plot or an unknown id is skipped; otherwise one instance is appended with its clamped level |
| TimedBuildings.Advance | docs/js/systems/cityBuildings.js:533-553 | An expired upgrade sets the level to its target, or one higher when none is set, and never lowers it; a quiet instance is unchanged |
| TimedBuildings.SweepFrom | docs/js/systems/cityBuildings.js:529-587 | A sweep changes only instance objects, leaves quiet ones alone, reports no change only when nothing changed, and leaves every swept plot quiet |
| TimedBuildings.SweepChangedIffFires | docs/js/systems/cityBuildings.js:529-587 | For both sweeps, `changed` is true exactly when some swept plot held a timer that the sweep fires |
| TimedBuildings.SweepLevels | docs/js/systems/cityBuildings.js:546-549 | A sweep keeps every recorded level key. Each level entry it changes is the level of an instance of that building that it has quieted. A changed town-hall level always equals the town-hall entry |
| TimedBuildings.TickChangedIffDue | docs/js/systems/cityBuildings.js:529-557 | `tick` reports a change exactly when some placed plot has a build or upgrade timer due now |
| TimedBuildingsProps.CountLater | docs/js/systems/cityBuildings.js:200-208 | The number of running timers never grows as time passes |
| TimedBuildingsProps.TickIdempotent | docs/js/systems/cityBuildings.js:529-557 | A second tick at the same time reports no change and returns the same store |
| TimedBuildingsProps.TickEffect | docs/js/systems/cityBuildings.js:529-557 | After a tick no expired timestamp remains, no level has fallen, and the running-timer count is unchanged |
| TimedBuildingsProps.FinishAllIdempotent | docs/js/systems/cityBuildings.js:559-587 | A second finishAllTimersNow changes nothing |
| TimedBuildingsProps.FinishAllEmptiesQueue | docs/js/systems/cityBuildings.js:559-587 | After finishAllTimersNow no timer runs |
| TimedBuildingsProps.PlacePreserves | docs/js/systems/cityBuildings.js:364-426 | Placement keeps the store invariant, which includes levels in 1..20 and at most two running timers |
| TimedBuildingsProps.UpgradePreserves | docs/js/systems/cityBuildings.js:428-471 | Upgrading keeps the store invariant |
| TimedBuildingsProps.UpgradeCount | docs/js/systems/cityBuildings.js:459-462 | A successful upgrade never pushes the running-timer count above 2 |
| TimedBuildingsProps.UpgradedInstance | docs/js/systems/cityBuildings.js:464-468 | The upgraded instance is sane, never both constructing and upgrading, and holds at most one timer (none with timers off) |
| TimedBuildingsProps.EnsureTownhallPreserves | docs/js/systems/cityBuildings.js:473-502 | Seeding the town hall keeps the store invariant |
| TimedBuildingsProps.TickPreserves | docs/js/systems/cityBuildings.js:529-557 | Tick keeps the store invariant |
| TimedBuildingsProps.FinishAllPreserves | docs/js/systems/cityBuildings.js:559-587 | finishAllTimersNow keeps the store invariant |
| TimedBuildingsProps.InvLater | docs/js/systems/cityBuildings.js:78-83 | The store invariant still holds at any later time |
| TimedBuildingsProps.PlaceMakesUnique | docs/js/systems/cityBuildings.js:296-313 | Once a type is placed, building it again is refused as already built |
| TimedBuildingsProps.NoTownhallCap | docs/js/systems/cityBuildings.js:315-362 | For a non-town-hall building the upgrade gate ignores the town-hall level |
| TimedBuildingsProps.UpgradeThenTick | docs/js/systems/cityBuildings.js:540-546 | A tick after a timed upgrade expires leaves the level exactly one higher, as an untimed upgrade does |
| TimedBuildingsProps.UpgradeShowsInStatus | docs/js/systems/cityBuildings.js:464-468 | Right after a timed upgrade the status shows it upgrading to the next level with its full duration, at least 5 s, to run |
| TimedBuildingsProps.TickFires | docs/js/systems/cityBuildings.js:533-553 | A plot whose timer has expired holds the advanced instance after a tick |
| TimedBuildingsProps.PlacedTimerRuns | docs/js/systems/cityBuildings.js:402-407 | A timed placement starts a build timer running now, lasting between 5 s and the level-20 maximum |
| TimedBuildingsProps.CityTownhallPlot | docs/js/plots.city.js:8-26 | With the city's plot list the town hall goes on the `townhall` plot |
| TimedBuildingsProps.PickFallsBack | docs/js/systems/cityBuildings.js:171-175 | With no town-hall plot the first plot is picked |
| TimedBuildingsProps.EnsureTownhallIdempotent | docs/js/systems/cityBuildings.js:473-474 | A second ensureTownhall changes nothing |
| TimedBuildingsProps.HydrateWellFormed | docs/js/systems/cityBuildings.js:504-527 | Hydration leaves a well-formed store with every level in 1..20 |
| TimedBuildingsProps.HydrateThenTickPastMax | docs/js/systems/cityBuildings.js:504-557 | A saved upgrade target is not checked: a level-20 farm saved with an expired upgrade towards 50 comes back at level 50 after a tick |
| Common.UnlockIn | docs/js/systems/citybuildings.js:9-18 | A building is unlocked at a target level exactly when the table lists that level |
| InstantBuildings.BuildMinTownhall | docs/js/systems/citybuildings.js:33-42 | The minimum is at least 1, and 1 for unlisted ids |
| InstantBuildings.GetByBuildingId | docs/js/systems/citybuildings.js:65-67 | An instance is found exactly when one with that id is placed |
| InstantBuildings.TownhallLevel | docs/js/systems/citybuildings.js:69-72 | The town-hall level is 0 without a town hall, else its level |
| InstantBuildings.CanBuildBuilding | docs/js/systems/citybuildings.js:74-91 | The town hall is always refused; others are allowed exactly when not placed and the town-hall level meets the minimum |
| InstantBuildings.PlaceBuildingOnPlot | docs/js/systems/citybuildings.js:107-127 | An unknown id fails; otherwise the plot gets the building at the clamped level, replacing any former one, and other plots are kept |
| InstantBuildings.EnsureTownhall | docs/js/systems/citybuildings.js:129-133 | Nothing changes when a town hall exists anywhere; otherwise a level-1 town hall is put on the plot |
| InstantBuildings.CanUpgradePlot | docs/js/systems/citybuildings.js:143-186 | An upgrade is allowed exactly for a placed building below 20: others need the town hall strictly above them, and the town hall needs the target level's unlock placed and every other building at its level |
| InstantBuildings.UpgradePlot | docs/js/systems/citybuildings.js:188-197 | The store changes only when the gate allows, and then the level becomes `(level or 1) + 1`: one more for every level the store invariant allows, and 2 from level 0 |
| InstantBuildingsProps.UpgradeRaisesTownhall | docs/js/systems/citybuildings.js:188-197 | An upgrade never lowers the town-hall level |
| InstantBuildingsProps.UpgradeKeepsInv | docs/js/systems/citybuildings.js:155-159 | Upgrading keeps levels in 1..20 and no building above the town hall |
| InstantBuildingsProps.EnsureTownhallKeepsInv | docs/js/systems/citybuildings.js:129-133 | Seeding the town hall keeps the invariant and leaves a town hall in place |
| InstantBuildingsProps.BuildThenPlaceKeepsInv | docs/js/systems/citybuildings.js:74-127 | A gated build at level 1 on a free plot keeps the invariant |
| InstantBuildingsProps.PlaceCanOutrunTownhall | docs/js/systems/citybuildings.js:107-127 | Placement has no gate: a level-5 farm can be put beside a level-1 town hall |
| InstantBuildingsProps.TownhallNeedsFarmForLevelTwo | docs/js/systems/citybuildings.js:162-172 | A lone level-1 town hall cannot go to level 2 until a farm is placed |
| Resources.Spend | docs/js/systems/cityBuildings.js:68-76 | Spending lowers each balance by exactly the listed cost, absent components counting 0 |
| Resources.AffordIffSpendStaysNonNegative | docs/js/systems/cityBuildings.js:56-76 | A cost is affordable exactly when spending it leaves no balance negative |
| Resources.SpendAffordableKeepsNonNegative | docs/js/systems/trainingsystems.js:17-33 | Spending an affordable cost leaves every balance non-negative |
| Resources.CreditUndoesSpend | docs/js/systems/trainingsystems.js:26-33 | Crediting back what was spent restores the ledger |
| Training.BarracksTrainingSlots | docs/js/systems/trainingsystems.js:55-60 | 1, 2, 3 or 4 slots for barracks levels below 5, 5-9, 10-14 and from 15 |
| Training.SlotsMonotone | docs/js/systems/trainingsystems.js:55-60 | The slot count never falls as the barracks level rises |
| Training.CanTrainTierLevels | docs/js/systems/trainingsystems.js:62-65 | A tier may be trained exactly from its unlock level; an unknown tier needs 999 |
| Training.ShrinkTrailing | docs/js/systems/trainingsystems.js:73-77 | Only trailing empty slots are removed, never below the target |
| Training.SyncSlots | docs/js/systems/trainingsystems.js:67-78 | The list grows to the target with empty slots or shrinks only its trailing empty slots; every job stays at its index |
| Training.SyncSlotsIdempotent | docs/js/systems/trainingsystems.js:67-78 | Syncing twice equals syncing once |
| Training.SyncKeepsJobs | docs/js/systems/trainingsystems.js:67-78 | An active job is never removed or moved by a sync |
| Training.TotalCost | docs/js/systems/trainingsystems.js:107-113 | Each resource costs the unit cost times the amount |
| Training.DurationMs | docs/js/systems/trainingsystems.js:119 | A known train time gives seconds times 1000 times the amount |
| Training.StartFailureOf | docs/js/systems/trainingsystems.js:92-115 | Each failure reason holds exactly in its own case, in the source's order, and none holds exactly when the slot is free, the troop known, the amount positive, the tier unlocked and the cost affordable |
| Training.NewJob | docs/js/systems/trainingsystems.js:118-122 | The job records troop, amount, start, the total cost, and an end time of start plus seconds times 1000 times the amount |
| Training.StartTrainingInSlot | docs/js/systems/trainingsystems.js:86-124 | A failed start only syncs the slots and names its reason; a start succeeds exactly when every check passes, then spends the total cost of the chosen cost table and fills just that slot |
| Training.StartedJobDuration | docs/js/systems/trainingsystems.js:118-122 | A started job ends seconds times 1000 times the amount after it starts, at least 8 s per unit |
| Training.StartKeepsNonNegative | docs/js/systems/trainingsystems.js:115-116 | Starting never makes a non-negative balance negative |
| Training.StartChargesOre | docs/js/systems/trainingsystems.js:107-116 | With the corrected cost table, a started job lowers the ore balance by at least 5 per unit trained |
| Training.StartAsWrittenKeepsOre | docs/js/systems/trainingsystems.js:107-116 | With the program's own cost table, a start never changes the ore balance, and any non-negative ore balance gives the same outcome |
| Training.TablesDisagreeWithoutOre | docs/js/systems/trainingsystems.js:107-116 | With 1000 food, wood and stone and no ore, one `infantry_T1` starts as written but fails for lack of resources with the corrected cost (example) |
| Training.Refund | docs/js/systems/trainingsystems.js:135-141 | Each refunded resource is the floor of the paid amount times the fraction |
| Training.CancelTraining | docs/js/systems/trainingsystems.js:126-151 | An idle or invalid slot fails with no change; otherwise the slot is freed and the refund is credited |
| Training.RefundBounded | docs/js/systems/trainingsystems.js:135-141 | For a fraction in [0,1] the refund lies between 0 and what was paid |
| Training.StartThenFullCancelRestores | docs/js/systems/trainingsystems.js:126-151 | A full refund right after a start restores the balances and the synced slots |
| Training.HalfRefundFloors | docs/js/systems/trainingsystems.js:126-141 | For every cost and resource, the default half refund is the paid amount halved and rounded down |
| Training.Complete | docs/js/systems/trainingsystems.js:154-171 | Exactly the done jobs are freed, slot by slot, and no troop id disappears |
| Training.CompleteCredits | docs/js/systems/trainingsystems.js:154-171 | Each troop count grows by exactly the amounts of its done jobs |
| Training.ProcessTrainingQueues | docs/js/systems/trainingsystems.js:154-171 | Resources are untouched; the synced slots are kept except the done ones, and no done job remains |
| Training.ProcessNeverLosesTroops | docs/js/systems/trainingsystems.js:154-171 | Troop counts never decrease |
| Training.ProcessTwiceKeepsTroopsAndJobs | docs/js/systems/trainingsystems.js:154-171 | At a fixed time a second pass changes no troop count and keeps every job at its index |
| Training.SecondPassCanShrinkSlots | docs/js/systems/trainingsystems.js:154-171 | The slot list itself is not idempotent: a second pass can drop a slot the first pass freed |
| Training.View | docs/js/systems/trainingsystems.js:181-199 | A training slot shows remaining time at least 0 and total at least 1, and the remaining time is 0 exactly when the job is done |
| Training.Snapshot | docs/js/systems/trainingsystems.js:175-208 | The snapshot has one view per slot and the current troop counts |
| Training.ZeroRemainingMeansCompleted | docs/js/systems/trainingsystems.js:166-188 | A slot showing 0 remaining time is freed and credited by the next pass |
| TroopsCatalog.ParseTier | docs/js/data/troopsCatalog.js:3 | Parsing a tier name is the inverse of naming a tier |
| TroopsCatalog.TierUnlock | docs/js/data/troopsCatalog.js:12-17 | The unlock level is at least 1, and 999 for unknown tiers |
| TroopsCatalog.TierTablesAscend | docs/js/data/troopsCatalog.js:5-29 | A higher tier never has a lower stat, cost or time multiplier, or unlock level |
| TroopsCatalog.MakeStats | docs/js/data/troopsCatalog.js:75-85 | Speed is never scaled; the other stats never fall below their base |
| TroopsCatalog.StatsScaleExactly | docs/js/data/troopsCatalog.js:75-85 | hp, atk, def and carry are the base times the tier multiplier |
| TroopsCatalog.RoundCost | docs/js/data/troopsCatalog.js:35-37 | The rounded cost is at least 1 and within one half of its input |
| TroopsCatalog.CostAsWritten | docs/js/data/troopsCatalog.js:39-58 | The food, wood and stone costs are at least 1 |
| TroopsCatalog.IronIsNaNAndOreIsMissing | docs/js/data/troopsCatalog.js:39-58 | As written the iron cost is NaN and no ore is charged |
| TroopsCatalog.MakeCost | docs/js/data/troopsCatalog.js:39-58 | The corrected cost lists food, wood, stone and ore, each at least 1 |
| TroopsCatalog.MakeCostCorrectsIron | docs/js/data/troopsCatalog.js:39-58 | The corrected cost keeps the written food, wood and stone, and charges ore of at least the base ore |
| TroopsCatalog.ZeroBaseCostsOne | docs/js/data/troopsCatalog.js:35-57 | For every troop type with a zero stone base and every tier, the stone cost is 1, as written and corrected |
| TroopsCatalog.TroopCost | docs/js/data/troopsCatalog.js:39-58 | As written an entry's readable cost is food, wood and stone with no ore; corrected it also lists ore; each amount is at least 1 |
| TroopsCatalog.TablesDifferOnlyInOre | docs/js/data/troopsCatalog.js:39-58 | The two cost tables agree on every resource but ore, which only the corrected one charges |
| TroopsCatalog.TrainSeconds | docs/js/data/troopsCatalog.js:60-73 | The training time is at least the type's base time, which is at least 8 s |
| TroopsCatalog.TrainSecondsAscend | docs/js/data/troopsCatalog.js:60-73 | A higher tier never trains faster |
| TroopsCatalog.ParseTroopIdRoundTrip | docs/js/data/troopsCatalog.js:31-33 | Parsing a troop id recovers its type and tier |
| TroopsCatalog.TroopIdInjective | docs/js/data/troopsCatalog.js:31-33 | Different (type, tier) pairs have different ids, so the table has one entry per pair |
| TroopsCatalog.MakeTroop | docs/js/data/troopsCatalog.js:87-104 | An entry carries its id, type, tier, scaled stats, training time and the cost of the chosen table |
| TroopsCatalog.GetTroop | docs/js/data/troopsCatalog.js:87-108 | A found troop has the requested id and is the catalog entry of its type and tier |
| TroopsCatalog.GetTroopFindsEvery | docs/js/data/troopsCatalog.js:87-108 | Every (type, tier) pair is found under its id |
| TroopsCatalog.GetTroopRejectsOthers | docs/js/data/troopsCatalog.js:87-108 | Any other id gives no troop |
| RoadTiles.Hash2 | docs/js/proceduralCityRenderer.js:42-48 | The hash is an unsigned 32-bit value |
| RoadTiles.UnmixMix | docs/js/proceduralCityRenderer.js:44-46 | The xorshift rounds are undone by their inverse |
| RoadTiles.MixUnmix | docs/js/proceduralCityRenderer.js:44-46 | The inverse of the xorshift rounds is undone by them |
| RoadTiles.HashBitsInjective | docs/js/proceduralCityRenderer.js:42-48 | Two 32-bit inputs hash alike exactly when they are equal |
| RoadTiles.HashBitsOnto | docs/js/proceduralCityRenderer.js:42-48 | Every 32-bit value is the hash of a computed input |
| RoadTiles.Rand01 | docs/js/proceduralCityRenderer.js:49-51 | The value lies in [0, 0.99999] and has five decimals |
| RoadTiles.Rand01Periodic | docs/js/proceduralCityRenderer.js:49-51 | Hash and random value repeat with period 2^32 |
| RoadTiles.BuildablePlotFilter | docs/js/proceduralCityRenderer.js:60-67 | A missing plot, a plot marked not buildable, one marked as town hall or one named `TownHall` is excluded; any other plot is kept |
| RoadTiles.ToTileCoord | docs/js/proceduralCityRenderer.js:145-147 | The tile is the one whose square holds the point |
| RoadTiles.BresenhamLine | docs/js/proceduralCityRenderer.js:149-167 | The line starts at `a`, ends at `b` and meets `b` only at its end; each step is an 8-neighbour move toward `b` inside the bounding box; its length lies between the Chebyshev and Manhattan distances plus one |
| RoadTiles.ErrorTermSteps | docs/js/proceduralCityRenderer.js:162-164 | Until `b` is reached the error term moves x or y or both, never overshooting |
| RoadTiles.NeighborsMask | docs/js/proceduralCityRenderer.js:169-175 | Each direction bit is set exactly when that neighbour is a road |
| RoadTiles.RoadTileMatchesNeighbours | docs/js/proceduralCityRenderer.js:177-209 | No neighbours give no tile; a two-neighbour tile opens exactly toward its neighbours; any tile opens toward every neighbour; three or more give a cross |
| RoadTiles.RoadTypeRotates | docs/js/proceduralCityRenderer.js:185-207 | Turning the neighbours a quarter turn turns the chosen tile a quarter turn |
| RoadTiles.Thicken | docs/js/proceduralCityRenderer.js:403-410 | Thickening keeps every road and adds each road's east and south neighbours |
| RoadTiles.ThickenAddsOnlyNeighbours | docs/js/proceduralCityRenderer.js:403-410 | Every added tile is the east or south neighbour of a road |
| RoadTiles.ThickenIsLeast | docs/js/proceduralCityRenderer.js:403-410 | The result is the least set holding the roads and their east and south neighbours |

## Left out

- Sprite loading and the asynchronous sprite refresh are left out: `refreshSprite`, `loadBuildingSprite`, image fallbacks and `getAllPlaced`'s filter on loaded images. Place and upgrade are synchronous here.
- The DOM, canvas, camera, UI, `grass.js`, `app.js` and the drawing code of the road renderer are left out. So are the hub and road-set construction that feed the tile helpers.
- `Date.now()` becomes the `now` argument, and the global `state` singleton becomes explicit state records.
- TimedDurations.InterpWithin: the log/exp interpolation between anchors of `secondsForTargetLevel` is a function parameter. Bounds rest on the stated assumption that it stays between its two anchors (`Bracketed`). Only the anchors, the cap at 20 and the floor at 1 are exact.
- CostCurves.UpgradeCostFor: `totalValueFromTimeSeconds`, with its `Math.pow`, is a function parameter. The monotonicity lemma assumes it is monotone.
- BuildingMath.UpgradeTimeSeconds: `Math.pow(1.08, n)` is the exact rational power, not the floating-point one.
- Floating-point rounding is not modelled. Rates, shares, refunds and multipliers are exact rationals. `Math.floor` of a float product and `toFixed` can differ from them at integer boundaries.
- BuildingMath.ProductionMonotone: stated only within the signed 32-bit range, because `level | 0` wraps outside it.
- BuildingMath.UpgradeCostMonotone: stated only within the signed 32-bit range, because `currentLevel | 0` wraps. `UpgradeCostWrapsAtInt32Max` shows the break.
- BuildingMath.UpgradeTimeMonotone: stated only within the signed 32-bit range, for the same wrap-around.
- Training.StartTrainingInSlot: slot index and amount are integers, so the non-integer rejections are not modelled.
- Training.StartTrainingInSlot: the program's own behaviour is the `AsWritten` cost table, which charges no ore. The `Corrected` table is the intended ore cost, which the program does not charge.
- TroopsCatalog.GetTroop: with the `AsWritten` table an entry's cost keeps only food, wood and stone. The NaN `iron` field is not stored in the entry, because no modelled code reads it. `TroopsCatalog.CostAsWritten` holds it.
- Training.ProcessTrainingQueues: the barracks level is a parameter, because the source reads it from the placed buildings.
- CityEconomyLevels.UpdateEconomy: `dt` is `Option<real>`, so only a missing or zero `dt` is modelled as `None`. A non-numeric truthy `dt` such as `"abc"` is not modelled: there `Math.max(0, dt)` is NaN, `NaN <= 0` is false, and every balance becomes NaN.
- EconomyRates.Accumulate: a non-numeric `dt` is `None`.
- Catalog lookups by prototype keys such as `"toString"` are not modelled. Every lookup is a closed table.
- Troop types are a closed datatype, so the source's defaults for an unknown troop type cannot arise.
- Plot ids are strings, and the source's `String()` coercion of other values is not modelled.
- Road tiles are integer pairs, not `"x,y"` string keys.
- RoadTiles.Hash2: only integer indices are modelled.
- The `getBuildQueueInfo` alias is not modelled separately from `getQueueInfoSafe`.
- `resetAllPlaced` is not modelled separately. `HydrateFromSave` starts from cleared maps, which is what it does first.
- The plot coordinates and sizes in `docs/js/plots.city.js` are left out. Only the plot ids are used.
- Building-level cancel, speedup and refunds do not exist in the source and are not modelled.

## Findings

| source | as written | input that shows it | evidently intended | confidence | as-written member | corrected member |
|---|---|---|---|---|---|---|
| docs/js/data/troopsCatalog.js:39-58 | The troop cost computes `iron` from `base.iron`, which no base cost has, so it is NaN. The record also has no `ore` key, which is the resource the economy holds. | `infantry_T1`: iron is NaN and training charges no ore | Charge `ore = roundCost(base.ore * COST_MULT[tier])` | not executed | TroopsCatalog.CostAsWritten, Training.StartAsWrittenKeepsOre, Training.TablesDisagreeWithoutOre | TroopsCatalog.MakeCost, Training.StartChargesOre |

=== FILE: assets.dfy ===
/** The tier choice and key order of docs/js/systems/assets.js; the image
    loading itself is asynchronous I/O and is not part of this model. */
module Assets {

  /** The five tier keys, lowest first. */
  const TierKeys: seq<string> := ["L1", "L5", "L10", "L15", "L20"]

  /** The position of a key in `TierKeys`. */
  function Rank(key: string): (r: int)
    ensures key in TierKeys ==> 0 <= r < |TierKeys| && TierKeys[r] == key
  {
    match key
    case "L1" => 0
    case "L5" => 1
    case "L10" => 2
    case "L15" => 3
    case "L20" => 4
    case _ => -1
  }

  /** `tierKeyForLevel(level)`. */
  function TierKeyForLevel(level: int): (k: string)
    ensures k in TierKeys
    ensures k == "L20" <==> level >= 20
    ensures k == "L15" <==> 15 <= level < 20
    ensures k == "L10" <==> 10 <= level < 15
    ensures k == "L5" <==> 5 <= level < 10
    ensures k == "L1" <==> level < 5
  {
    if level >= 20 then "L20"
    else if level >= 15 then "L15"
    else if level >= 10 then "L10"
    else if level >= 5 then "L5"
    else "L1"
  }

  /** The lowest level that earns a key. */
  function TierFloor(key: string): int {
    match key
    case "L5" => 5
    case "L10" => 10
    case "L15" => 15
    case "L20" => 20
    case _ => 1
  }

  /** A higher level never gets a lower key. */
  lemma TierKeyMonotone(a: int, b: int)
    requires a <= b
    ensures Rank(TierKeyForLevel(a)) <= Rank(TierKeyForLevel(b))
  {
  }

  /** The key chosen is the highest one whose floor the level reaches (from
      level 1 on; below that it is still "L1"). */
  lemma TierKeyIsHighestReached(level: int, k: int)
    requires 0 <= k < |TierKeys| && TierFloor(TierKeys[k]) <= level
    ensures k <= Rank(TierKeyForLevel(level))
    ensures TierFloor(TierKeyForLevel(level)) <= level || level < 1
  {
  }

  /** The order in which `loadBuildingSprite` tries keys: the desired tier,
      then "L1". */
  function TryKeys(level: int): (keys: seq<string>)
    ensures |keys| == 2 && keys[1] == "L1"
    ensures keys[0] == TierKeyForLevel(level)
    ensures level < 5 ==> keys[0] == keys[1]
  {
    [TierKeyForLevel(level), "L1"]
  }
}

=== FILE: building_math.dfy ===
/** The production, cost, time and gating formulas of
    docs/js/systems/buildingmath.js, over the empire-game catalog it imports.

    Rates and shares are exact reals: the source's `toFixed(3)` is exact on
    these values (every product has at most three decimals), and its
    `Math.floor` of float products is taken on the exact product. */
module BuildingMath {
  import opened Common
  import opened Resources
  import EmpireCatalog

  /** `getProducedResource(type)`. */
  function ProducedResource(buildingType: string): (r: Option<Resource>)
    ensures r.Some? <==> buildingType in {"farm", "lumber", "quarry", "mine"}
    ensures r.Some? ==> r.value in {Food, Wood, Stone, Ore}
  {
    match buildingType
    case "farm" => Some(Food)
    case "lumber" => Some(Wood)
    case "quarry" => Some(Stone)
    case "mine" => Some(Ore)
    case _ => None
  }

  /** The produced resource agrees with the catalog's `produces` field. */
  lemma ProducedMatchesCatalog(buildingType: string)
    requires EmpireCatalog.Catalog(buildingType).Some?
    ensures ProducedResource(buildingType) == EmpireCatalog.Catalog(buildingType).value.produces
  {
  }

  /** `BASE_PROD[res] ?? 0`. */
  function BaseProd(r: Resource): (b: real)
    ensures b >= 0.0
  {
    match r
    case Food => 1.2
    case Wood => 1.0
    case Stone => 0.9
    case Ore => 0.75
    case Gold => 0.0
  }

  /** The level growth factor `1 + 0.08 * (lv - 1)`. */
  function Growth(lv: int): real {
    1.0 + 0.08 * (lv - 1) as real
  }

  /** `getProductionPerSecond(type, level)`. */
  function ProductionPerSecond(buildingType: string, level: int): (p: real)
    ensures ProducedResource(buildingType).None? ==> p == 0.0
    ensures p >= 0.0
  {
    match ProducedResource(buildingType)
    case None => 0.0
    case Some(res) =>
      var lv := EmpireCatalog.ClampLevel(level, 20);
      BaseProd(res) * Growth(lv)
  }

  /** At level 1 a producer yields its base rate. */
  lemma ProductionAtLevelOne(buildingType: string, r: Resource)
    requires ProducedResource(buildingType) == Some(r)
    ensures ProductionPerSecond(buildingType, 1) == BaseProd(r)
  {
  }

  /** Production never falls as the level rises (within the 32-bit range the
      level is truncated to). */
  lemma ProductionMonotone(buildingType: string, a: int, b: int)
    requires -EmpireCatalog.TwoTo31 <= a <= b < EmpireCatalog.TwoTo31
    ensures ProductionPerSecond(buildingType, a) <= ProductionPerSecond(buildingType, b)
  {
    var la, lb := EmpireCatalog.ClampLevel(a, 20), EmpireCatalog.ClampLevel(b, 20);
    assert la <= lb;
    assert Growth(la) <= Growth(lb);
  }

  /** Above level 20 production stays at its level-20 value, 2.52 times the
      base. */
  lemma ProductionCappedAtTwenty(buildingType: string, level: int, r: Resource)
    requires ProducedResource(buildingType) == Some(r)
    requires 20 <= level < EmpireCatalog.TwoTo31
    ensures ProductionPerSecond(buildingType, level) == ProductionPerSecond(buildingType, 20)
    ensures ProductionPerSecond(buildingType, level) == BaseProd(r) * 2.52
  {
  }

  /** The per-type multiplier of the cost curve. */
  function TypeMult(buildingType: string): (m: real)
    ensures m >= 1.0
  {
    match buildingType
    case "farm" => 1.0
    case "lumber" => 1.05
    case "quarry" => 1.1
    case "mine" => 1.15
    case "townhall" => 1.25
    case _ => 1.0
  }

  /** `clampLevel((currentLevel | 0) + 1, 20)`. */
  function NextLevel(currentLevel: int): (n: int)
    ensures 1 <= n <= 20
  {
    EmpireCatalog.ClampLevel(EmpireCatalog.ToInt32(currentLevel) + 1, 20)
  }

  /** `Math.floor((20 + next * next * 6) * typeMult)`. */
  function Scaled(buildingType: string, next: int): (s: int)
    requires 1 <= next <= 20
    ensures s >= 26
  {
    ((20 + next * next * 6) as real * TypeMult(buildingType)).Floor
  }

  /** The base share of each resource in the cost mix. */
  function Share(r: Resource): real {
    match r
    case Gold => 0.6
    case Wood => 0.35
    case Stone => 0.25
    case Ore => 0.15
    case Food => 0.15
  }

  /** The town hall's heavier shares. */
  function TownhallShare(r: Resource): real {
    match r
    case Gold => 1.0
    case Wood => 0.8
    case Stone => 0.8
    case Ore => 0.45
    case Food => 0.45
  }

  /** One component of `getUpgradeCost`: the base share, biased by 1.35 for
      the produced resource, and replaced by the town-hall share for the
      town hall. */
  function Component(buildingType: string, scaled: int, r: Resource): (v: int)
    requires scaled >= 0
    ensures v >= 0
  {
    if buildingType == "townhall" then (scaled as real * TownhallShare(r)).Floor
    else SharedComponent(scaled, Share(r), ProducedResource(buildingType) == Some(r))
  }

  /** The floored share, raised by the further 35% when `boosted`. */
  function SharedComponent(scaled: int, share: real, boosted: bool): (v: int)
    requires scaled >= 0 && share >= 0.0
    ensures v >= 0
  {
    var plain := FloorScale(scaled, share);
    if boosted then FloorScale(plain, 1.35) else plain
  }

  /** `Math.floor(x * k)` for a non-negative integer `x` and factor `k`. */
  function FloorScale(x: int, k: real): (v: int)
    requires x >= 0 && k >= 0.0
    ensures v >= 0
  {
    ScaleMonotone(0.0, x as real, k);
    FloorMonotone(0.0, x as real * k);
    (x as real * k).Floor
  }

  /** `getUpgradeCost(type, currentLevel)`: all five resources are listed. */
  function UpgradeCost(buildingType: string, currentLevel: int): (c: Cost)
    ensures forall r: Resource :: r in c
    ensures forall r :: r in c ==> c[r] >= 0
  {
    var s := Scaled(buildingType, NextLevel(currentLevel));
    AllListed();
    map r: Resource | r in AllResources :: Component(buildingType, s, r)
  }

  /** Each floored cost component grows with the scaled total. */
  lemma ComponentMonotone(buildingType: string, s: int, t: int, r: Resource)
    requires 0 <= s <= t
    ensures Component(buildingType, s, r) <= Component(buildingType, t, r)
  {
    if buildingType == "townhall" {
      FlooredScaleMonotone(s as real, t as real, TownhallShare(r));
    } else {
      SharedComponentMonotone(s, t, Share(r), ProducedResource(buildingType) == Some(r));
    }
  }

  lemma SharedComponentMonotone(s: int, t: int, share: real, boosted: bool)
    requires 0 <= s <= t && share >= 0.0
    ensures SharedComponent(s, share, boosted) <= SharedComponent(t, share, boosted)
  {
    FloorScaleMonotone(s, t, share);
    if boosted {
      FloorScaleMonotone(FloorScale(s, share), FloorScale(t, share), 1.35);
    }
  }

  lemma FloorScaleMonotone(x: int, y: int, k: real)
    requires 0 <= x <= y && k >= 0.0
    ensures FloorScale(x, k) <= FloorScale(y, k)
  {
    FlooredScaleMonotone(x as real, y as real, k);
  }

  /** Flooring after scaling by a non-negative factor keeps the order. */
  lemma FlooredScaleMonotone(x: real, y: real, k: real)
    requires x <= y && k >= 0.0
    ensures (x * k).Floor <= (y * k).Floor
  {
    ScaleMonotone(x, y, k);
    FloorMonotone(x * k, y * k);
  }

  /** Every cost component is non-decreasing in the current level, within
      the 32-bit range where `currentLevel | 0` does not wrap. */
  lemma UpgradeCostMonotone(buildingType: string, a: int, b: int, r: Resource)
    requires -EmpireCatalog.TwoTo31 <= a <= b < EmpireCatalog.TwoTo31 - 1
    ensures UpgradeCost(buildingType, a)[r] <= UpgradeCost(buildingType, b)[r]
  {
    var na, nb := NextLevel(a), NextLevel(b);
    NextLevelMonotone(a, b);
    ScaledMonotone(buildingType, na, nb);
    ComponentMonotone(buildingType, Scaled(buildingType, na), Scaled(buildingType, nb), r);
  }

  /** Within the 32-bit range the next level never falls as the current
      level rises. */
  lemma NextLevelMonotone(a: int, b: int)
    requires -EmpireCatalog.TwoTo31 <= a <= b < EmpireCatalog.TwoTo31 - 1
    ensures NextLevel(a) <= NextLevel(b)
  {
    assert EmpireCatalog.ToInt32(a) == a && EmpireCatalog.ToInt32(b) == b;
    assert EmpireCatalog.ToInt32(a + 1) == a + 1 && EmpireCatalog.ToInt32(b + 1) == b + 1;
  }

  lemma ScaledMonotone(buildingType: string, m: int, n: int)
    requires 1 <= m <= n <= 20
    ensures Scaled(buildingType, m) <= Scaled(buildingType, n)
  {
    assert m * m <= n * n by {
      assert m * m <= m * n <= n * n;
    }
    var k := TypeMult(buildingType);
    assert (20 + m * m * 6) as real <= (20 + n * n * 6) as real;
    ScaleMonotone((20 + m * m * 6) as real, (20 + n * n * 6) as real, k);
    FloorMonotone((20 + m * m * 6) as real * k, (20 + n * n * 6) as real * k);
  }

  /** From level 19 on the next level is capped at 20, so the cost stops
      growing. */
  lemma UpgradeCostFlatFromNineteen(buildingType: string, level: int)
    requires 19 <= level < EmpireCatalog.TwoTo31 - 1
    ensures UpgradeCost(buildingType, level) == UpgradeCost(buildingType, 19)
  {
    assert NextLevel(level) == NextLevel(19) == 20;
  }

  /** `currentLevel | 0` wraps: at the largest 32-bit level the next level
      is -2^31, clamped back to 1, so the cost is that of a first level. */
  lemma UpgradeCostWrapsAtInt32Max(buildingType: string)
    ensures UpgradeCost(buildingType, EmpireCatalog.TwoTo31 - 1) == UpgradeCost(buildingType, 0)
  {
    assert NextLevel(EmpireCatalog.TwoTo31 - 1) == 1 == NextLevel(0);
  }

  /** The town hall pays 1.0 / 0.8 / 0.8 / 0.45 / 0.45 of the scaled value in
      gold, wood, stone, ore and food. */
  lemma TownhallCostShares(level: int, r: Resource)
    ensures UpgradeCost("townhall", level)[r]
      == (Scaled("townhall", NextLevel(level)) as real * TownhallShare(r)).Floor
  {
  }

  /** A producer pays 1.35 times (floored) its plain share of the resource it
      produces, and the plain share of every other. */
  lemma ProducerBias(buildingType: string, level: int, r: Resource)
    requires ProducedResource(buildingType).Some?
    ensures var plain := (Scaled(buildingType, NextLevel(level)) as real * Share(r)).Floor;
      UpgradeCost(buildingType, level)[r]
        == if ProducedResource(buildingType) == Some(r) then (plain as real * 1.35).Floor else plain
  {
    var sc := Scaled(buildingType, NextLevel(level));
    assert buildingType != "townhall";
    assert UpgradeCost(buildingType, level)[r] == Component(buildingType, sc, r);
  }

  /** Concretely: a farm going to level 2 pays 44 scaled, so 26 gold, 15
      wood, 11 stone, 6 ore and 8 food. */
  lemma FarmToLevelTwo()
    ensures UpgradeCost("farm", 1) == map[Gold := 26, Wood := 15, Stone := 11, Ore := 6, Food := 8]
  {
    assert NextLevel(1) == 2;
    assert Scaled("farm", 2) == 44;
    assert Component("farm", 44, Gold) == 26;
    assert Component("farm", 44, Wood) == 15;
    assert Component("farm", 44, Stone) == 11;
    assert Component("farm", 44, Ore) == 6;
    assert Component("farm", 44, Food) == 8;
  }

  /** The base time of each type. */
  function BaseTime(buildingType: string): int {
    match buildingType
    case "farm" => 15
    case "lumber" => 18
    case "quarry" => 22
    case "mine" => 25
    case "townhall" => 45
    case _ => 20
  }

  /** `getUpgradeTimeSeconds(type, currentLevel)`, with `Math.pow(1.08, n)`
      computed exactly. */
  function UpgradeTimeSeconds(buildingType: string, currentLevel: int): (t: int)
    ensures t >= 5
  {
    ScaledTime(BaseTime(buildingType) as real * TimeGrowth(NextLevel(currentLevel) - 1))
  }

  /** `Math.max(5, Math.round(x))` for the scaled time `x`. */
  function ScaledTime(x: real): int {
    Max(5, Round(x))
  }

  /** 1.08 to the power `n`. */
  function TimeGrowth(n: nat): real {
    if n == 0 then 1.0 else 1.08 * TimeGrowth(n - 1)
  }

  /** The growth factor is at least 1 and rises with its exponent. */
  lemma {:induction false} TimeGrowthMonotone(m: nat, n: nat)
    requires m <= n
    ensures 1.0 <= TimeGrowth(m) <= TimeGrowth(n)
    decreases n
  {
    if m < n {
      TimeGrowthMonotone(m, n - 1);
      assert TimeGrowth(n) == 1.08 * TimeGrowth(n - 1);
    } else if n > 0 {
      TimeGrowthMonotone(0, n - 1);
      assert TimeGrowth(n) == 1.08 * TimeGrowth(n - 1);
    }
  }

  /** The time is at least the base time and never falls as the level
      rises (within the 32-bit range of `currentLevel | 0`). */
  lemma UpgradeTimeMonotone(buildingType: string, a: int, b: int)
    requires -EmpireCatalog.TwoTo31 <= a <= b < EmpireCatalog.TwoTo31 - 1
    ensures UpgradeTimeSeconds(buildingType, a) >= BaseTime(buildingType)
    ensures UpgradeTimeSeconds(buildingType, a) <= UpgradeTimeSeconds(buildingType, b)
  {
    NextLevelMonotone(a, b);
    var ea, eb := NextLevel(a) - 1, NextLevel(b) - 1;
    TimeGrowthMonotone(ea, eb);
    TimeFromFactors(BaseTime(buildingType), TimeGrowth(ea), TimeGrowth(eb));
  }

  /** Concretely: a farm going to level 2 takes round(15 * 1.08) = 16
      seconds, and the town hall at level 0 takes its base 45. */
  lemma UpgradeTimeExamples()
    ensures UpgradeTimeSeconds("farm", 1) == 16
    ensures UpgradeTimeSeconds("townhall", 0) == 45
  {
    assert NextLevel(1) == 2 && NextLevel(0) == 1;
    assert TimeGrowth(1) == 1.08;
    assert Round(16.2) == 16;
  }

  /** The time formula on a base of `n` seconds and growth factors
      `1 <= pa <= pb`. */
  lemma TimeFromFactors(n: int, pa: real, pb: real)
    requires n >= 0 && 1.0 <= pa <= pb
    ensures ScaledTime(n as real * pa) >= n
    ensures ScaledTime(n as real * pa) <= ScaledTime(n as real * pb)
  {
    RoundedScaleMonotone(n as real, pa, pb);
    RoundOfInteger(n);
  }

  lemma RoundOfInteger(n: int)
    ensures Round(n as real) == n
  {
  }

  /** Rounding a non-negative base scaled by growing factors of at least 1
      never falls below the rounded base and never falls as the factor
      grows. */
  lemma RoundedScaleMonotone(base: real, pa: real, pb: real)
    requires base >= 0.0 && 1.0 <= pa <= pb
    ensures Round(base) <= Round(base * pa) <= Round(base * pb)
  {
    var xa, xb := base * pa, base * pb;
    ScaleMonotone(pa, pb, base);
    ScaleMonotone(1.0, pa, base);
    assert base <= xa <= xb;
    FloorMonotone(base + 0.5, xa + 0.5);
    FloorMonotone(xa + 0.5, xb + 0.5);
  }

  /** `canUpgradeBuilding(type, currentLevel, townHallLevel)`. */
  function CanUpgradeBuilding(buildingType: string, currentLevel: int, townHallLevel: int): (ok: bool)
    ensures ok <==>
      && EmpireCatalog.Catalog(buildingType).Some?
      && currentLevel < EmpireCatalog.MaxLevel
      && (buildingType != "townhall" ==> currentLevel + 1 <= townHallLevel)
  {
    match EmpireCatalog.Catalog(buildingType)
    case None => false
    case Some(e) =>
      if currentLevel >= e.maxLevel then false
      else if buildingType != "townhall" && currentLevel + 1 > townHallLevel then false
      else true
  }

  /** The town hall is never capped by itself: below 20 it may always go up,
      whatever level is passed as the town-hall level. */
  lemma TownhallNeverCapped(currentLevel: int, th: int)
    requires currentLevel < 20
    ensures CanUpgradeBuilding("townhall", currentLevel, th)
  {
  }
}

=== FILE: common.dfy ===
/** Small helpers shared by every module: an optional value and the
    `Math.max(lo, Math.min(hi, x))` clamp the game code writes everywhere. */
module Common {

  /** A value that may be missing (`null`/`undefined` in the game code). */
  datatype Option<+T> = None | Some(value: T) {
    function GetOr(default: T): T {
      match this
      case Some(v) => v
      case None => default
    }
  }

  /** `TOWNHALL_UNLOCKS[key]`: both building stores keep that object as a
      list of (level, building) pairs, and this is the lookup they share. */
  function UnlockIn<K(==), V>(table: seq<(K, V)>, key: K): (b: Option<V>)
    ensures b.Some? <==> exists i :: 0 <= i < |table| && table[i].0 == key
    ensures b.Some? ==> (key, b.value) in table
  {
    if table == [] then None
    else if table[0].0 == key then Some(table[0].1)
    else
      var r := UnlockIn(table[1..], key);
      assert forall i :: 0 < i < |table| ==> table[i] == table[1..][i - 1];
      r
  }

  function Min(a: int, b: int): int {
    if a <= b then a else b
  }

  function Max(a: int, b: int): int {
    if a >= b then a else b
  }

  /** `Math.max(lo, Math.min(hi, x))`: note that `lo` wins when `lo > hi`. */
  function Clamp(x: int, lo: int, hi: int): (r: int)
    ensures lo <= hi ==> lo <= r <= hi
    ensures lo <= x <= hi ==> r == x
    ensures x <= lo ==> r == lo
    ensures lo <= hi <= x ==> r == hi
  {
    Max(lo, Min(hi, x))
  }

  function RMin(a: real, b: real): real {
    if a <= b then a else b
  }

  function RMax(a: real, b: real): real {
    if a >= b then a else b
  }

  /** The same clamp on real numbers. */
  function RClamp(x: real, lo: real, hi: real): (r: real)
    ensures lo <= hi ==> lo <= r <= hi
    ensures lo <= x <= hi ==> r == x
    ensures x <= lo ==> r == lo
  {
    RMax(lo, RMin(hi, x))
  }

  /** JavaScript `Math.round` on a non-NaN number: halves round up. */
  function Round(x: real): (r: int)
    ensures x - 0.5 < r as real <= x + 0.5
  {
    (x + 0.5).Floor
  }

  /** `Math.floor` never falls as its argument grows. */
  lemma FloorMonotone(x: real, y: real)
    requires x <= y
    ensures x.Floor <= y.Floor
  {
  }

  /** Scaling by a non-negative factor keeps the order. */
  lemma ScaleMonotone(x: real, y: real, m: real)
    requires x <= y && m >= 0.0
    ensures x * m <= y * m
  {
    assert (y - x) * m >= 0.0;
  }

  /** True when `sub` occurs somewhere inside `s` (`String.prototype.includes`). */
  predicate Contains(s: string, sub: string)
    decreases |s|
  {
    |sub| <= |s| && (s[..|sub|] == sub || (s != [] && Contains(s[1..], sub)))
  }

  /** ASCII `toLowerCase`; other characters are left alone. */
  function LowerChar(c: char): char {
    if 'A' <= c <= 'Z' then (c as int + 32) as char else c
  }

  function ToLower(s: string): (r: string)
    ensures |r| == |s|
    ensures forall i :: 0 <= i < |s| ==> r[i] == LowerChar(s[i])
  {
    if s == [] then [] else [LowerChar(s[0])] + ToLower(s[1..])
  }
}

=== FILE: cost_curves.dfy ===
/** Time-derived upgrade costs (docs/js/data/costCurves.js): a total value
    computed from the upgrade time is split over the five resources by a
    per-building profile, each share floored, and zero shares dropped. */
module CostCurves {
  import opened Common
  import opened Resources
  import UpgradeTimes

  /** Resource weights; a key missing from the source's profile object is 0. */
  datatype Profile = Profile(food: real, wood: real, stone: real, ore: real, gold: real)

  const NoProfile: Profile := Profile(0.0, 0.0, 0.0, 0.0, 0.0)

  function Weight(p: Profile, r: Resource): real {
    match r
    case Food => p.food
    case Wood => p.wood
    case Stone => p.stone
    case Ore => p.ore
    case Gold => p.gold
  }

  function WeightSum(p: Profile): real {
    p.food + p.wood + p.stone + p.ore + p.gold
  }

  /** `RESOURCE_PROFILES[id]`. */
  function ResourceProfile(id: string): Option<Profile> {
    match id
    case "townhall" => Some(Profile(0.05, 0.25, 0.25, 0.10, 0.35))
    case "farm" => Some(Profile(0.30, 0.55, 0.05, 0.00, 0.10))
    case "lumber" => Some(Profile(0.25, 0.60, 0.05, 0.00, 0.10))
    case "quarry" => Some(Profile(0.05, 0.20, 0.55, 0.05, 0.15))
    case "mine" => Some(Profile(0.05, 0.15, 0.25, 0.45, 0.10))
    case "barracks" => Some(Profile(0.10, 0.35, 0.20, 0.10, 0.25))
    case "house" => Some(Profile(0.10, 0.55, 0.10, 0.00, 0.25))
    case "academy" => Some(Profile(0.05, 0.20, 0.20, 0.15, 0.40))
    case "commandcenter" => Some(Profile(0.05, 0.20, 0.25, 0.15, 0.35))
    case _ => None
  }

  /** Every listed profile is already normalised: its weights lie in
      [0, 1] and sum to exactly 1, so `normalizeProfile` returns it as is. */
  lemma {:induction false} ListedProfilesNormalised(id: string)
    requires ResourceProfile(id).Some?
    ensures var p := ResourceProfile(id).value;
      UnitWeights(p) && WeightSum(p) == 1.0 && NormalizeProfile(p) == p
  {
    var p := ResourceProfile(id).value;
    assert UnitWeights(p) && WeightSum(p) == 1.0;
    assert Clamped(p) == p;
    assert Divided(p, 1.0) == p;
  }

  function Clamp01(x: real): real {
    RClamp(x, 0.0, 1.0)
  }

  /** `normalizeProfile`: clamp every weight into [0, 1] and divide by their
      sum; a profile whose clamped weights sum to 0 becomes all gold. */
  function NormalizeProfile(p: Profile): (q: Profile)
    ensures UnitWeights(q)
    ensures WeightSum(q) == 1.0
    ensures WeightSum(Clamped(p)) <= 0.0 ==> q == GoldOnly
    ensures WeightSum(Clamped(p)) > 0.0 ==> KeepsZeros(p, q)
  {
    ScaledToOne(Clamped(p))
  }

  const GoldOnly: Profile := Profile(0.0, 0.0, 0.0, 0.0, 1.0)

  /** Clamped weights divided by their sum, or all gold when they sum to 0. */
  function ScaledToOne(c: Profile): (q: Profile)
    requires UnitWeights(c)
    ensures UnitWeights(q)
    ensures WeightSum(q) == 1.0
    ensures WeightSum(c) <= 0.0 ==> q == GoldOnly
    ensures WeightSum(c) > 0.0 ==> KeepsZeros(c, q)
  {
    var sum := WeightSum(c);
    if sum <= 0.0 then GoldOnly
    else
      DividedFacts(c, sum);
      Divided(c, sum)
  }

  /** Every weight divided by `s`. */
  function Divided(c: Profile, s: real): Profile
    requires s > 0.0
  {
    Profile(c.food / s, c.wood / s, c.stone / s, c.ore / s, c.gold / s)
  }

  lemma DividedFacts(c: Profile, s: real)
    requires UnitWeights(c) && s == WeightSum(c) && s > 0.0
    ensures UnitWeights(Divided(c, s))
    ensures WeightSum(Divided(c, s)) == 1.0
    ensures KeepsZeros(c, Divided(c, s))
  {
    DivideBySum(c.food, c.wood, c.stone, c.ore, c.gold, s);
  }

  predicate UnitWeights(q: Profile) {
    && 0.0 <= q.food <= 1.0 && 0.0 <= q.wood <= 1.0 && 0.0 <= q.stone <= 1.0
    && 0.0 <= q.ore <= 1.0 && 0.0 <= q.gold <= 1.0
  }

  /** A weight that is not positive in `p` is zero in `q`. */
  predicate KeepsZeros(p: Profile, q: Profile) {
    && (p.food <= 0.0 ==> q.food == 0.0) && (p.wood <= 0.0 ==> q.wood == 0.0)
    && (p.stone <= 0.0 ==> q.stone == 0.0) && (p.ore <= 0.0 ==> q.ore == 0.0)
    && (p.gold <= 0.0 ==> q.gold == 0.0)
  }

  /** Every weight clamped into [0, 1]. */
  function Clamped(p: Profile): (c: Profile)
    ensures UnitWeights(c)
    ensures KeepsZeros(p, c)
  {
    Profile(Clamp01(p.food), Clamp01(p.wood), Clamp01(p.stone), Clamp01(p.ore), Clamp01(p.gold))
  }

  lemma DivideUnit(x: real, s: real)
    requires 0.0 <= x <= s && s > 0.0
    ensures 0.0 <= x / s <= 1.0
  {
  }

  lemma DivideAdd(x: real, y: real, s: real)
    requires s > 0.0
    ensures x / s + y / s == (x + y) / s
  {
  }

  lemma DivideSelf(s: real)
    requires s > 0.0
    ensures s / s == 1.0
  {
  }

  lemma DivideBySum(a: real, b: real, c: real, d: real, e: real, s: real)
    requires 0.0 <= a && 0.0 <= b && 0.0 <= c && 0.0 <= d && 0.0 <= e
    requires s == a + b + c + d + e && s > 0.0
    ensures a / s + b / s + c / s + d / s + e / s == 1.0
    ensures 0.0 <= a / s <= 1.0 && 0.0 <= b / s <= 1.0 && 0.0 <= c / s <= 1.0
    ensures 0.0 <= d / s <= 1.0 && 0.0 <= e / s <= 1.0
  {
    DivideAdd(a, b, s);
    DivideAdd(a + b, c, s);
    DivideAdd(a + b + c, d, s);
    DivideAdd(a + b + c + d, e, s);
    DivideSelf(s);
    DivideUnit(a, s);
    DivideUnit(b, s);
    DivideUnit(c, s);
    DivideUnit(d, s);
    DivideUnit(e, s);
  }

  /** `Math.max(1, Math.min(19, Number(fromLevel || 1)))`; `None` stands for
      a missing argument. */
  function TableLevel(fromLevel: Option<int>): (l: int)
    ensures 1 <= l <= 19
  {
    Clamp(fromLevel.GetOr(1), 1, 19)
  }

  /** `BUILDING_TIME_MULT[id] ?? 0.75`. */
  function TimeMult(id: string): (m: real)
    ensures m > 0.0
  {
    UpgradeTimes.BuildingTimeMult(id).GetOr(0.75)
  }

  /** The upgrade time the cost is derived from. */
  function TimeSeconds(id: string, fromLevel: Option<int>): real {
    UpgradeTimes.UpgradeTimeByLevel(TableLevel(fromLevel)).GetOr(0) as real * TimeMult(id)
  }

  /** The normalized profile a building's costs are split by. */
  function ProfileFor(id: string): Profile {
    NormalizeProfile(ResourceProfile(id).GetOr(NoProfile))
  }

  /** `Math.floor(totalValue * share)` for one resource. */
  function Share(total: int, p: Profile, r: Resource): int {
    (total as real * Weight(p, r)).Floor
  }

  /** `upgradeCostFor(id, fromLevel)`. The time-to-value curve
      (`Math.floor(6 * t ** 1.1)`) is the parameter `totalValue`. */
  function UpgradeCostFor(totalValue: real -> int, id: string, fromLevel: Option<int>): (c: Cost)
    ensures forall r :: r in c ==> c[r] != 0
    ensures forall r :: Need(c, r) == Share(totalValue(TimeSeconds(id, fromLevel)), ProfileFor(id), r)
  {
    SplitCost(totalValue(TimeSeconds(id, fromLevel)), ProfileFor(id))
  }

  /** The floored shares of `total`, zero shares left out of the cost. */
  function SplitCost(total: int, p: Profile): (c: Cost)
    ensures forall r :: r in c ==> c[r] != 0
    ensures forall r :: Need(c, r) == Share(total, p, r)
  {
    map r | r in {Food, Wood, Stone, Ore, Gold} && Share(total, p, r) != 0 :: Share(total, p, r)
  }

  function CostSum(c: Cost): int {
    Need(c, Food) + Need(c, Wood) + Need(c, Stone) + Need(c, Ore) + Need(c, Gold)
  }

  /** Flooring each share never charges more than the total value. */
  lemma CostWithinTotal(totalValue: real -> int, id: string, fromLevel: Option<int>)
    ensures CostSum(UpgradeCostFor(totalValue, id, fromLevel)) <= totalValue(TimeSeconds(id, fromLevel))
  {
    var c := UpgradeCostFor(totalValue, id, fromLevel);
    var t := totalValue(TimeSeconds(id, fromLevel));
    SharesWithin(t, ProfileFor(id));
    assert CostSum(c) == Share(t, ProfileFor(id), Food) + Share(t, ProfileFor(id), Wood)
      + Share(t, ProfileFor(id), Stone) + Share(t, ProfileFor(id), Ore) + Share(t, ProfileFor(id), Gold);
  }

  lemma SharesWithin(t: int, p: Profile)
    requires WeightSum(p) == 1.0
    ensures Share(t, p, Food) + Share(t, p, Wood) + Share(t, p, Stone) + Share(t, p, Ore) + Share(t, p, Gold) <= t
  {
    var tr := t as real;
    Distribute(tr, p.food, p.wood, p.stone, p.ore, p.gold);
    FloorBelow(tr * p.food);
    FloorBelow(tr * p.wood);
    FloorBelow(tr * p.stone);
    FloorBelow(tr * p.ore);
    FloorBelow(tr * p.gold);
  }

  lemma FloorBelow(x: real)
    ensures x.Floor as real <= x
  {
  }

  lemma Distribute(t: real, a: real, b: real, c: real, d: real, e: real)
    requires a + b + c + d + e == 1.0
    ensures t * a + t * b + t * c + t * d + t * e == t
  {
    assert t * a + t * b + t * c + t * d + t * e == t * (a + b + c + d + e);
  }

  /** A profile with no ore weight and some wood keeps no ore weight after
      normalising. */
  lemma NormalizedOreStaysZero(p: Profile)
    requires p.ore == 0.0 && p.wood > 0.0
    ensures NormalizeProfile(p).ore == 0.0
  {
    var c := Clamped(p);
    assert c.wood > 0.0;
    assert WeightSum(c) > 0.0;
  }

  /** A resource of weight 0 gets no key in the split cost. */
  lemma ZeroWeightHasNoKey(total: int, p: Profile, r: Resource)
    requires Weight(p, r) == 0.0
    ensures r !in SplitCost(total, p)
  {
    assert Need(SplitCost(total, p), r) == Share(total, p, r);
  }

  /** Farms, lumber yards and houses have no ore weight, before and after
      normalising. */
  lemma NoOreWeight(id: string)
    requires id == "farm" || id == "lumber" || id == "house"
    ensures ProfileFor(id).ore == 0.0
  {
    var p := if id == "farm" then Profile(0.30, 0.55, 0.05, 0.00, 0.10)
             else if id == "lumber" then Profile(0.25, 0.60, 0.05, 0.00, 0.10)
             else Profile(0.10, 0.55, 0.10, 0.00, 0.25);
    assert ResourceProfile(id) == Some(p);
    NormalizedOreStaysZero(p);
  }

  /** Farms, lumber yards and houses never ask for ore: their profile
      weight is 0 and the zero share is dropped from the cost. */
  lemma NoOreForFarmLumberHouse(totalValue: real -> int, id: string, fromLevel: Option<int>)
    requires id == "farm" || id == "lumber" || id == "house"
    ensures Ore !in UpgradeCostFor(totalValue, id, fromLevel)
  {
    var t := totalValue(TimeSeconds(id, fromLevel));
    assert UpgradeCostFor(totalValue, id, fromLevel) == SplitCost(t, ProfileFor(id));
    NoOreWeight(id);
    ZeroWeightHasNoKey(t, ProfileFor(id), Ore);
  }

  ghost predicate Monotone(f: real -> int) {
    forall x: real, y: real :: x <= y ==> f(x) <= f(y)
  }

  /** The table level only grows with the requested level. */
  lemma TableLevelMonotone(a: int, b: int)
    requires a <= b
    ensures TableLevel(Some(a)) <= TableLevel(Some(b))
  {
  }

  /** The upgrade time grows with the level upgraded from. */
  lemma TimeSecondsMonotone(id: string, a: int, b: int)
    requires a <= b
    ensures TimeSeconds(id, Some(a)) <= TimeSeconds(id, Some(b))
  {
    var la, lb := TableLevel(Some(a)), TableLevel(Some(b));
    TableLevelMonotone(a, b);
    if la < lb {
      UpgradeTimes.StrictlyIncreasing(la, lb);
    }
    var ba := UpgradeTimes.UpgradeTimeByLevel(la).value as real;
    var bb := UpgradeTimes.UpgradeTimeByLevel(lb).value as real;
    ScaleMonotone(ba, bb, TimeMult(id));
  }

  lemma FloorOfScaleMonotone(x: real, y: real, m: real)
    requires x <= y && m >= 0.0
    ensures (x * m).Floor <= (y * m).Floor
  {
    var a, b := x * m, y * m;
    ScaleMonotone(x, y, m);
    FloorMonotone(a, b);
  }

  /** A floored share is non-decreasing in the total it is taken of. */
  lemma ShareMonotone(va: int, vb: int, p: Profile, r: Resource)
    requires va <= vb && UnitWeights(p)
    ensures Share(va, p, r) <= Share(vb, p, r)
  {
    var w := Weight(p, r);
    assert w >= 0.0;
    FloorOfScaleMonotone(va as real, vb as real, w);
    assert Share(va, p, r) == (va as real * w).Floor;
    assert Share(vb, p, r) == (vb as real * w).Floor;
  }

  /** With a non-decreasing time-to-value curve, every cost component is
      non-decreasing in the level upgraded from. */
  lemma CostMonotone(totalValue: real -> int, id: string, a: int, b: int, r: Resource)
    requires Monotone(totalValue)
    requires a <= b
    ensures Need(UpgradeCostFor(totalValue, id, Some(a)), r) <= Need(UpgradeCostFor(totalValue, id, Some(b)), r)
  {
    var ta, tb := TimeSeconds(id, Some(a)), TimeSeconds(id, Some(b));
    TimeSecondsMonotone(id, a, b);
    ShareMonotone(totalValue(ta), totalValue(tb), ProfileFor(id), r);
  }
}

=== FILE: economy_levels.dfy ===
/** The production model of docs/js/systems/cityeconomy.js: one level per
    building type, read from `state.buildings.levels`, with no summing over
    plots and no construction check; the town-hall gold uses the separate
    `townhallLevel` field. */
module CityEconomyLevels {
  import opened Common
  import opened Resources
  import opened EconomyRates

  /** The part of `state.buildings` this model reads: the per-type levels and
      the optional `townhallLevel`. */
  datatype Buildings = Buildings(levels: map<string, int>, townhallLevel: Option<int>)

  /** `levelOf(id)`: `levels[id] ?? 0`, clamped to [0, 20]. */
  function LevelOf(b: Buildings, id: string): (l: int)
    ensures 0 <= l <= 20
    ensures id !in b.levels ==> l == 0
    ensures id in b.levels && 0 <= b.levels[id] <= 20 ==> l == b.levels[id]
  {
    Clamp(if id in b.levels then b.levels[id] else 0, 0, 20)
  }

  /** `getProductionPerSecond()`. */
  function Production(b: Buildings): (p: Ledger)
    ensures NonNegativeRates(p)
  {
    Ledger(Rate(FarmFood, LevelOf(b, "farm")),
           Rate(LumberWood, LevelOf(b, "lumber")),
           Rate(QuarryStone, LevelOf(b, "quarry")),
           Rate(MineOre, LevelOf(b, "mine")),
           Rate(TownhallGold, Clamp(b.townhallLevel.GetOr(0), 0, 20))
             + Rate(HouseGold, LevelOf(b, "house")))
  }

  /** Each rate is its coefficient times the clamped level (0 at level 0). */
  lemma ProductionIsLinear(b: Buildings)
    ensures Production(b).food == 1.5 * LevelOf(b, "farm") as real
    ensures Production(b).wood == 1.2 * LevelOf(b, "lumber") as real
    ensures Production(b).stone == 1.0 * LevelOf(b, "quarry") as real
    ensures Production(b).ore == 0.8 * LevelOf(b, "mine") as real
    ensures Production(b).gold
      == 0.2 * Clamp(b.townhallLevel.GetOr(0), 0, 20) as real + 0.5 * LevelOf(b, "house") as real
  {
  }

  /** With every level 20 (and more levels than 20 change nothing) the rates
      are 30 food, 24 wood, 20 stone, 16 ore and 4 + 10 gold per second. */
  lemma RatesAtTwenty(b: Buildings)
    requires forall id :: id in {"farm", "lumber", "quarry", "mine", "house"} ==> id in b.levels && b.levels[id] >= 20
    requires b.townhallLevel.Some? && b.townhallLevel.value >= 20
    ensures Production(b) == Ledger(30.0, 24.0, 20.0, 16.0, 14.0)
  {
    assert LevelOf(b, "farm") == 20 && LevelOf(b, "lumber") == 20 && LevelOf(b, "quarry") == 20;
    assert LevelOf(b, "mine") == 20 && LevelOf(b, "house") == 20;
  }

  /** Nothing built, nothing produced: a missing level reads as 0. */
  lemma NothingBuiltProducesNothing()
    ensures Production(Buildings(map[], None)) == Empty
  {
  }

  /** Raising any level (or the town-hall level) never lowers a rate. */
  lemma ProductionMonotone(a: Buildings, b: Buildings, k: Resource)
    requires forall id :: LevelOf(a, id) <= LevelOf(b, id)
    requires a.townhallLevel.GetOr(0) <= b.townhallLevel.GetOr(0)
    ensures Balance(Production(a), k) <= Balance(Production(b), k)
  {
    RateMonotone(FarmFood, LevelOf(a, "farm"), LevelOf(b, "farm"));
    RateMonotone(LumberWood, LevelOf(a, "lumber"), LevelOf(b, "lumber"));
    RateMonotone(QuarryStone, LevelOf(a, "quarry"), LevelOf(b, "quarry"));
    RateMonotone(MineOre, LevelOf(a, "mine"), LevelOf(b, "mine"));
    RateMonotone(HouseGold, LevelOf(a, "house"), LevelOf(b, "house"));
    RateMonotone(TownhallGold, Clamp(a.townhallLevel.GetOr(0), 0, 20), Clamp(b.townhallLevel.GetOr(0), 0, 20));
  }

  /** `updateEconomy(dtSeconds)`: `dt` is `None` for a missing or NaN
      argument; nothing happens unless `dt > 0`. */
  function UpdateEconomy(res: Ledger, b: Buildings, dt: Option<real>): (r: Ledger)
    ensures (dt.None? || dt.value <= 0.0) ==> r == res
    ensures forall k :: Balance(r, k) >= Balance(res, k)
  {
    var p := Production(b);
    AccumulateNeverDecreases(res, p, dt);
    Accumulate(res, p, dt)
  }

  /** For a positive `dt` each balance grows by exactly its rate times `dt`. */
  lemma UpdateEconomyExact(res: Ledger, b: Buildings, d: real)
    requires d > 0.0
    ensures forall k :: Balance(UpdateEconomy(res, b, Some(d)), k) == Balance(res, k) + Balance(Production(b), k) * d
  {
    AccumulateExact(res, Production(b), d);
  }
}

=== FILE: economy_rates.dfy ===
/** The per-second rate curves and the accumulation step that
    docs/js/systems/cityEconomy.js and docs/js/systems/cityeconomy.js both
    define, line for line the same: each rate is 0 at a level of 0 or less
    and linear above it. */
module EconomyRates {
  import opened Common
  import opened Resources

  /** The six rate curves. */
  datatype Curve = FarmFood | LumberWood | QuarryStone | MineOre | TownhallGold | HouseGold

  /** Per-level coefficient of each curve. */
  function Coefficient(k: Curve): (c: real)
    ensures c > 0.0
  {
    match k
    case FarmFood => 1.5
    case LumberWood => 1.2
    case QuarryStone => 1.0
    case MineOre => 0.8
    case TownhallGold => 0.2
    case HouseGold => 0.5
  }

  /** `farmRate`, `lumberRate`, ...: `level <= 0 ? 0 : coefficient * level`. */
  function Rate(k: Curve, level: int): (r: real)
    ensures r >= 0.0
    ensures level <= 0 <==> r == 0.0
  {
    if level <= 0 then 0.0 else Coefficient(k) * level as real
  }

  /** Above 0 the rate is exactly linear: one more level adds one coefficient. */
  lemma RateStep(k: Curve, level: int)
    requires level >= 0
    ensures Rate(k, level + 1) == Rate(k, level) + Coefficient(k)
  {
  }

  /** A rate never falls as the level rises. */
  lemma RateMonotone(k: Curve, a: int, b: int)
    requires a <= b
    ensures Rate(k, a) <= Rate(k, b)
  {
    if a > 0 {
      assert Coefficient(k) * a as real <= Coefficient(k) * b as real;
    }
  }

  /** Every rate in a production record is non-negative. */
  predicate NonNegativeRates(p: Ledger) {
    NonNegative(p)
  }

  /** The accumulation step of `updateEconomy(dt)`: `dt` is `None` for a
      missing or NaN argument, which counts as 0; nothing happens unless
      `dt > 0`, and then each balance grows by its rate times `dt`. */
  function Accumulate(res: Ledger, p: Ledger, dt: Option<real>): (r: Ledger)
    ensures (dt.None? || dt.value <= 0.0) ==> r == res
  {
    match dt
    case Some(d) =>
      if d <= 0.0 then res
      else Ledger(res.food + p.food * d, res.wood + p.wood * d, res.stone + p.stone * d,
                  res.ore + p.ore * d, res.gold + p.gold * d)
    case None => res
  }

  /** With non-negative rates no balance ever falls. */
  lemma AccumulateNeverDecreases(res: Ledger, p: Ledger, dt: Option<real>)
    requires NonNegativeRates(p)
    ensures forall k :: Balance(Accumulate(res, p, dt), k) >= Balance(res, k)
  {
    if dt.Some? && dt.value > 0.0 {
      var d := dt.value;
      assert p.food * d >= 0.0 && p.wood * d >= 0.0 && p.stone * d >= 0.0;
      assert p.ore * d >= 0.0 && p.gold * d >= 0.0;
    }
  }

  /** For a positive `dt`, each balance grows by exactly its rate times
      `dt`. */
  lemma AccumulateExact(res: Ledger, p: Ledger, d: real)
    requires d > 0.0
    ensures forall k :: Balance(Accumulate(res, p, Some(d)), k) == Balance(res, k) + Balance(p, k) * d
  {
  }

  /** Two frames of `d1` and `d2` seconds accumulate the same as one frame
      of `d1 + d2` seconds. */
  lemma AccumulateSplits(res: Ledger, p: Ledger, d1: real, d2: real)
    requires d1 > 0.0 && d2 > 0.0
    ensures Accumulate(Accumulate(res, p, Some(d1)), p, Some(d2)) == Accumulate(res, p, Some(d1 + d2))
  {
    assert p.food * d1 + p.food * d2 == p.food * (d1 + d2);
    assert p.wood * d1 + p.wood * d2 == p.wood * (d1 + d2);
    assert p.stone * d1 + p.stone * d2 == p.stone * (d1 + d2);
    assert p.ore * d1 + p.ore * d2 == p.ore * (d1 + d2);
    assert p.gold * d1 + p.gold * d2 == p.gold * (d1 + d2);
  }
}

=== FILE: economy_summed.dfy ===
/** The production model of docs/js/systems/cityEconomy.js: levels are
    summed per building id over the plot map, buildings still under
    construction produce nothing, and an upgrading building keeps producing
    at its current level. */
module CityEconomySummed {
  import opened Common
  import opened Resources
  import opened EconomyRates

  /** One value of `placedByPlotId`. `buildingId` is "" when it is missing;
      `level` is `None` when it is missing or not a number; the timestamps
      are `None` when missing. */
  datatype Placed = Placed(buildingId: string, level: Option<int>,
                           buildEndAt: Option<int>, upgradeEndAt: Option<int>)

  /** A record takes part in production: it has a building id and no
      construction timer (`(buildEndAt ?? 0) > 0` skips it). */
  predicate Contributes(p: Option<Placed>) {
    p.Some? && p.value.buildingId != "" && p.value.buildEndAt.GetOr(0) <= 0
  }

  /** `clamp(Number(p.level ?? 1) || 1, 1, 20)`: missing, NaN and 0 all read
      as 1. */
  function LevelOf(p: Placed): (l: int)
    ensures 1 <= l <= 20
    ensures p.level.Some? && 1 <= p.level.value <= 20 ==> l == p.level.value
  {
    var raw := p.level.GetOr(1);
    Clamp(if raw == 0 then 1 else raw, 1, 20)
  }

  /** The reference sum: the clamped levels of every contributing record of
      `id`, in iteration order. */
  function LevelSum(placed: seq<Option<Placed>>, id: string): int {
    if placed == [] then 0
    else
      var last := placed[|placed| - 1];
      LevelSum(placed[..|placed| - 1], id)
        + (if Contributes(last) && last.value.buildingId == id then LevelOf(last.value) else 0)
  }

  /** How many records contribute to `id`. */
  function Contributors(placed: seq<Option<Placed>>, id: string): nat {
    if placed == [] then 0
    else
      var last := placed[|placed| - 1];
      Contributors(placed[..|placed| - 1], id)
        + (if Contributes(last) && last.value.buildingId == id then 1 else 0)
  }

  ghost predicate HasContributor(placed: seq<Option<Placed>>, id: string) {
    exists k :: 0 <= k < |placed| && Contributes(placed[k]) && placed[k].value.buildingId == id
  }

  /** Each contributing record adds between 1 and 20 levels. */
  lemma {:induction false} LevelSumBounds(placed: seq<Option<Placed>>, id: string)
    ensures Contributors(placed, id) <= LevelSum(placed, id) <= 20 * Contributors(placed, id)
    ensures Contributors(placed, id) > 0 <==> HasContributor(placed, id)
  {
    if placed != [] {
      var init := placed[..|placed| - 1];
      LevelSumBounds(init, id);
      assert forall k :: 0 <= k < |init| ==> init[k] == placed[k];
      if HasContributor(init, id) {
        var k :| 0 <= k < |init| && Contributes(init[k]) && init[k].value.buildingId == id;
        assert placed[k] == init[k];
      }
    }
  }

  /** `sumLevelsFromPlaced()` as a fold in iteration order. */
  function SummedLevels(placed: seq<Option<Placed>>): (levels: map<string, int>)
    ensures forall id :: id in levels ==> levels[id] >= 1
  {
    if placed == [] then map[]
    else
      var levels := SummedLevels(placed[..|placed| - 1]);
      var last := placed[|placed| - 1];
      if Contributes(last) then
        var id := last.value.buildingId;
        levels[id := Get(levels, id) + LevelOf(last.value)]
      else levels
  }

  /** The fold holds exactly the ids with a contributing record, each mapped
      to the sum of their clamped levels. */
  lemma {:induction false} SummedLevelsMeaning(placed: seq<Option<Placed>>)
    ensures forall id :: id in SummedLevels(placed) <==> HasContributor(placed, id)
    ensures forall id :: id in SummedLevels(placed) ==> SummedLevels(placed)[id] == LevelSum(placed, id)
  {
    if placed != [] {
      var init := placed[..|placed| - 1];
      SummedLevelsMeaning(init);
      assert forall k :: 0 <= k < |init| ==> init[k] == placed[k];
      forall id ensures id in SummedLevels(placed) <==> HasContributor(placed, id) {
        var last := placed[|placed| - 1];
        if HasContributor(placed, id) && !(Contributes(last) && last.value.buildingId == id) {
          var k :| 0 <= k < |placed| && Contributes(placed[k]) && placed[k].value.buildingId == id;
          assert k < |init| && init[k] == placed[k];
        }
      }
      forall id | id !in SummedLevels(init) ensures LevelSum(init, id) == 0 {
        LevelSumBounds(init, id);
      }
    }
  }

  /** `sumLevelsFromPlaced()`: one pass over the plot map. */
  method SumLevelsFromPlaced(placed: seq<Option<Placed>>) returns (levels: map<string, int>)
    ensures forall id :: id in levels <==> HasContributor(placed, id)
    ensures forall id :: id in levels ==> levels[id] == LevelSum(placed, id) >= 1
    ensures levels == SummedLevels(placed)
  {
    levels := map[];
    var i := 0;
    while i < |placed|
      invariant 0 <= i <= |placed|
      invariant levels == SummedLevels(placed[..i])
    {
      var p := placed[i];
      assert placed[..i + 1][..i] == placed[..i];
      assert placed[..i + 1][i] == p;
      if Contributes(p) {
        var id := p.value.buildingId;
        var prev := if id in levels then levels[id] else 0;
        levels := levels[id := prev + LevelOf(p.value)];
      }
      i := i + 1;
    }
    assert placed[..i] == placed;
    SummedLevelsMeaning(placed);
  }

  /** `Number(levels[id] ?? 0) || 0`. */
  function Get(levels: map<string, int>, id: string): int {
    if id in levels then levels[id] else 0
  }

  /** `getProductionPerSecond()` over the summed levels: the town hall sum is
      clamped to [0, 20], the other sums to [0, 999]. */
  function Production(levels: map<string, int>): (p: Ledger)
    ensures NonNegativeRates(p)
    ensures p.food == Rate(FarmFood, Clamp(Get(levels, "farm"), 0, 999))
    ensures p.gold == Rate(TownhallGold, Clamp(Get(levels, "townhall"), 0, 20))
                    + Rate(HouseGold, Clamp(Get(levels, "house"), 0, 999))
  {
    Ledger(Rate(FarmFood, Clamp(Get(levels, "farm"), 0, 999)),
           Rate(LumberWood, Clamp(Get(levels, "lumber"), 0, 999)),
           Rate(QuarryStone, Clamp(Get(levels, "quarry"), 0, 999)),
           Rate(MineOre, Clamp(Get(levels, "mine"), 0, 999)),
           Rate(TownhallGold, Clamp(Get(levels, "townhall"), 0, 20))
             + Rate(HouseGold, Clamp(Get(levels, "house"), 0, 999)))
  }

  /** The summed level of `id` as production reads it: the reference sum,
      0 when nothing contributes. */
  lemma GetIsLevelSum(placed: seq<Option<Placed>>, id: string)
    ensures Get(SummedLevels(placed), id) == LevelSum(placed, id) >= 0
  {
    SummedLevelsMeaning(placed);
    LevelSumBounds(placed, id);
  }

  /** Each rate over the plot map is its coefficient times the capped sum of
      the clamped levels of that building: wood 1.2 per lumber level, stone
      1.0 per quarry level, ore 0.8 per mine level, food 1.5 per farm level,
      and gold 0.2 per town-hall level (capped at 20) plus 0.5 per house
      level. */
  lemma ProductionIsLinear(placed: seq<Option<Placed>>)
    ensures var p := Production(SummedLevels(placed));
      && p.food == 1.5 * Min(LevelSum(placed, "farm"), 999) as real
      && p.wood == 1.2 * Min(LevelSum(placed, "lumber"), 999) as real
      && p.stone == 1.0 * Min(LevelSum(placed, "quarry"), 999) as real
      && p.ore == 0.8 * Min(LevelSum(placed, "mine"), 999) as real
      && p.gold == 0.2 * Min(LevelSum(placed, "townhall"), 20) as real
                 + 0.5 * Min(LevelSum(placed, "house"), 999) as real
  {
    GetIsLevelSum(placed, "farm");
    GetIsLevelSum(placed, "lumber");
    GetIsLevelSum(placed, "quarry");
    GetIsLevelSum(placed, "mine");
    GetIsLevelSum(placed, "townhall");
    GetIsLevelSum(placed, "house");
  }

  /** With no contributing building every rate is 0. */
  lemma NothingBuiltProducesNothing()
    ensures Production(map[]) == Empty
  {
  }

  /** Every rate is non-decreasing in the summed levels. */
  lemma ProductionMonotone(a: map<string, int>, b: map<string, int>, k: Resource)
    requires forall id :: Get(a, id) <= Get(b, id)
    ensures Balance(Production(a), k) <= Balance(Production(b), k)
  {
    var ids := ["farm", "lumber", "quarry", "mine", "house"];
    forall j | 0 <= j < |ids|
      ensures Clamp(Get(a, ids[j]), 0, 999) <= Clamp(Get(b, ids[j]), 0, 999)
    {
      assert Get(a, ids[j]) <= Get(b, ids[j]);
    }
    assert Clamp(Get(a, "townhall"), 0, 20) <= Clamp(Get(b, "townhall"), 0, 20) by {
      assert Get(a, "townhall") <= Get(b, "townhall");
    }
    RateMonotone(FarmFood, Clamp(Get(a, "farm"), 0, 999), Clamp(Get(b, "farm"), 0, 999));
    RateMonotone(LumberWood, Clamp(Get(a, "lumber"), 0, 999), Clamp(Get(b, "lumber"), 0, 999));
    RateMonotone(QuarryStone, Clamp(Get(a, "quarry"), 0, 999), Clamp(Get(b, "quarry"), 0, 999));
    RateMonotone(MineOre, Clamp(Get(a, "mine"), 0, 999), Clamp(Get(b, "mine"), 0, 999));
    RateMonotone(HouseGold, Clamp(Get(a, "house"), 0, 999), Clamp(Get(b, "house"), 0, 999));
    RateMonotone(TownhallGold, Clamp(Get(a, "townhall"), 0, 20), Clamp(Get(b, "townhall"), 0, 20));
  }

  /** A running upgrade timer does not matter: changing any record's
      `upgradeEndAt` leaves every sum as it was. */
  lemma {:induction false} UpgradingStillProduces(placed: seq<Option<Placed>>, k: int, u: Option<int>, id: string)
    requires 0 <= k < |placed| && placed[k].Some?
    ensures LevelSum(placed[k := Some(placed[k].value.(upgradeEndAt := u))], id) == LevelSum(placed, id)
  {
    var placed' := placed[k := Some(placed[k].value.(upgradeEndAt := u))];
    var n := |placed| - 1;
    if k < n {
      assert placed'[..n] == placed[..n][k := Some(placed[k].value.(upgradeEndAt := u))];
      UpgradingStillProduces(placed[..n], k, u, id);
    } else {
      assert placed'[..n] == placed[..n];
    }
  }

  /** A record still under construction produces nothing: dropping it leaves
      every sum as it was. */
  lemma {:induction false} ConstructingProducesNothing(placed: seq<Option<Placed>>, p: Placed, id: string)
    requires p.buildEndAt.Some? && p.buildEndAt.value > 0
    ensures LevelSum(placed + [Some(p)], id) == LevelSum(placed, id)
  {
    assert (placed + [Some(p)])[..|placed|] == placed;
  }

  /** `updateEconomy(dtSeconds)`: the rates come from the summed levels. */
  function UpdateEconomy(res: Ledger, placed: seq<Option<Placed>>, dt: Option<real>): (r: Ledger)
    ensures (dt.None? || dt.value <= 0.0) ==> r == res
    ensures forall k :: Balance(r, k) >= Balance(res, k)
  {
    var p := Production(SummedLevels(placed));
    AccumulateNeverDecreases(res, p, dt);
    Accumulate(res, p, dt)
  }

  /** For a positive `dt`, each balance grows by exactly its summed-level
      rate times `dt`. */
  lemma UpdateEconomyExact(res: Ledger, placed: seq<Option<Placed>>, levels: map<string, int>, d: real)
    requires d > 0.0 && levels == SummedLevels(placed)
    ensures forall k :: Balance(UpdateEconomy(res, placed, Some(d)), k)
                        == Balance(res, k) + Balance(Production(levels), k) * d
  {
    AccumulateExact(res, Production(levels), d);
  }

  /** The same step with the levels computed by the loop of
      `sumLevelsFromPlaced`. */
  method UpdateEconomyByLoop(res: Ledger, placed: seq<Option<Placed>>, dt: Option<real>) returns (r: Ledger)
    ensures r == UpdateEconomy(res, placed, dt)
  {
    var levels := SumLevelsFromPlaced(placed);
    r := Accumulate(res, Production(levels), dt);
  }
}

=== FILE: empire_catalog.dfy ===
/** The empire-game building catalog (empire-game/app/js/data/buildingcatalog.js):
    level clamping with 32-bit truncation, art tiers every five levels, the
    sprite keys built from them, and the five-entry catalog. */
module EmpireCatalog {
  import opened Common
  import opened Resources

  const MaxLevel: int := 20
  const TwoTo31: int := 0x8000_0000
  const TwoTo32: int := 0x1_0000_0000

  /** `x | 0` on an integer-valued number: two's-complement wrap to 32 bits. */
  function ToInt32(x: int): (r: int)
    ensures -TwoTo31 <= r < TwoTo31
    ensures (x - r) % TwoTo32 == 0
    ensures -TwoTo31 <= x < TwoTo31 ==> r == x
  {
    (x + TwoTo31) % TwoTo32 - TwoTo31
  }

  /** `clampLevel(level, max)`. */
  function ClampLevel(level: int, max: int): (r: int)
    ensures 1 <= r
    ensures max >= 1 ==> r <= max
    ensures 1 <= level <= max && level < TwoTo31 ==> r == level
    ensures level < TwoTo31 && max <= level ==> r == Max(1, max)
  {
    Max(1, Min(max, ToInt32(level)))
  }

  /** `TIERS`: the levels that have their own art. */
  const Tiers: seq<int> := [1, 5, 10, 15, 20]

  /** `tierForLevel(level)`: the largest tier at or below the clamped level. */
  function TierForLevel(level: int): (t: int)
    ensures t in Tiers
    ensures t <= ClampLevel(level, MaxLevel)
    ensures forall k :: 0 <= k < |Tiers| && Tiers[k] <= ClampLevel(level, MaxLevel) ==> Tiers[k] <= t
  {
    var lv := ClampLevel(level, MaxLevel);
    if lv >= 20 then 20
    else if lv >= 15 then 15
    else if lv >= 10 then 10
    else if lv >= 5 then 5
    else 1
  }

  /** The decimal digits of `n`, as JavaScript's template strings print it. */
  function NatToString(n: nat): (s: string)
    ensures |s| >= 1
    ensures forall i :: 0 <= i < |s| ==> '0' <= s[i] <= '9'
  {
    var d := [(n % 10) as char + '0'];
    if n < 10 then d else NatToString(n / 10) + d
  }

  /** `${type}_L${tier}`. */
  function TierKey(buildingType: string, tier: nat): string {
    buildingType + "_L" + NatToString(tier)
  }

  /** `spriteKeyFor(type, level)`. */
  function SpriteKeyFor(buildingType: string, level: int): string {
    TierKey(buildingType, TierForLevel(level))
  }

  /** `TIERS.indexOf(t)`: -1 when absent. */
  function IndexOf(s: seq<int>, x: int): (i: int)
    ensures -1 <= i < |s|
    ensures i >= 0 ==> s[i] == x && forall k :: 0 <= k < i ==> s[k] != x
    ensures i == -1 ==> x !in s
  {
    if s == [] then -1
    else if s[0] == x then 0
    else
      var j := IndexOf(s[1..], x);
      assert forall k :: 0 < k < |s| ==> s[k] == s[1..][k - 1];
      if j == -1 then -1 else j + 1
  }

  /** `fallbackTierKeys(type, level)`: the current tier's key, then every
      lower tier's key, down to level 1. */
  method FallbackTierKeys(buildingType: string, level: int) returns (keys: seq<string>)
    ensures 1 <= |keys| <= |Tiers|
    ensures keys[0] == SpriteKeyFor(buildingType, level)
    ensures keys[|keys| - 1] == TierKey(buildingType, 1)
    ensures Tiers[|keys| - 1] == TierForLevel(level)
    ensures forall k :: 0 <= k < |keys| ==> keys[k] == TierKey(buildingType, Tiers[|keys| - 1 - k])
  {
    var t := TierForLevel(level);
    var idx := IndexOf(Tiers, t);
    assert 0 <= idx < |Tiers| && Tiers[idx] == t;
    var tiers := TiersDownFrom(idx);
    keys := seq(|tiers|, k requires 0 <= k < |tiers| => TierKey(buildingType, tiers[k]));
    assert forall k :: 0 <= k < |keys| ==> keys[k] == TierKey(buildingType, tiers[k]);
  }

  /** The tiers from index `idx` down to the first, in that order. */
  method TiersDownFrom(idx: int) returns (tiers: seq<nat>)
    requires 0 <= idx < |Tiers|
    ensures |tiers| == idx + 1
    ensures forall k :: 0 <= k < |tiers| ==> tiers[k] == Tiers[idx - k]
  {
    tiers := [];
    var i := idx;
    while i >= 0
      invariant -1 <= i <= idx
      invariant |tiers| == idx - i
      invariant forall k :: 0 <= k < |tiers| ==> tiers[k] == Tiers[idx - k]
    {
      tiers := tiers + [Tiers[i]];
      i := i - 1;
    }
  }

  /** The tiers are strictly increasing, so the fallback keys step down one
      tier at a time. */
  lemma TiersAscending()
    ensures forall i, j :: 0 <= i < j < |Tiers| ==> Tiers[i] < Tiers[j]
  {
  }

  /** One `BUILDING_CATALOG` entry (the footprint is always one plot). */
  datatype Entry = Entry(name: string, maxLevel: int, produces: Option<Resource>)

  /** `BUILDING_CATALOG[type]`. */
  function Catalog(buildingType: string): (e: Option<Entry>)
    ensures e.Some? <==> buildingType in {"townhall", "farm", "lumber", "quarry", "mine"}
    ensures e.Some? ==> e.value.maxLevel == MaxLevel
  {
    match buildingType
    case "townhall" => Some(Entry("Town Hall", 20, None))
    case "farm" => Some(Entry("Farm", 20, Some(Food)))
    case "lumber" => Some(Entry("Lumber Camp", 20, Some(Wood)))
    case "quarry" => Some(Entry("Quarry", 20, Some(Stone)))
    case "mine" => Some(Entry("Mine", 20, Some(Ore)))
    case _ => None
  }
}

=== FILE: instant_buildings.dfy ===
/** The instant, untimed building store of docs/js/systems/citybuildings.js.

    One insertion-ordered plot map holds the instances; there are no costs,
    no timers and no separate building-id index: a building is found by
    scanning the plot map in order. Placement performs no check at all (the
    caller is expected to ask `canBuildBuilding` first). The town hall caps
    every other building: a building may upgrade only while the town hall is
    strictly above it. */
module InstantBuildings {
  import opened Common
  import JsMap
  import InstantCatalog

  const MaxLevel: int := 20

  type PlotId = string
  type BuildingId = string

  datatype Instance = Instance(plotId: PlotId, buildingId: BuildingId, level: int)

  /** The plot map `placed`. */
  datatype City = City(placed: JsMap.OMap<PlotId, Instance>)

  datatype Reason =
    | TownhallPlaced
    | AlreadyBuilt
    | RequiresTownhall(level: int)
    | NoBuildingHere
    | MaxLevelReached
    | RaiseTownhallAbove(level: int)
    | BuildToUnlock(building: BuildingId, level: int)
    | AllMustReach(level: int, next: int)

  /** `{ ok: true }` or `{ ok: false, reason }`. */
  datatype Check = Ok | Fail(reason: Reason)

  datatype Outcome = Outcome(check: Check, city: City)

  /** `TOWNHALL_UNLOCKS`: (target town-hall level, building that must exist
      before the town hall may reach it). */
  const Unlocks: seq<(int, BuildingId)> :=
    [(2, "farm"), (3, "lumber"), (4, "barracks"), (5, "quarry"), (6, "house"),
     (7, "mine"), (8, "academy"), (10, "commandcenter")]

  /** `BUILD_MIN_TOWNHALL_LEVEL`. */
  const BuildMin: map<BuildingId, int> :=
    map["farm" := 1, "lumber" := 2, "barracks" := 3, "quarry" := 4, "house" := 5,
        "mine" := 6, "academy" := 8, "commandcenter" := 10]

  /** `BUILD_MIN_TOWNHALL_LEVEL[id] ?? 1`. */
  function BuildMinTownhall(id: BuildingId): (l: int)
    ensures l >= 1
    ensures id !in BuildMin ==> l == 1
  {
    if id in BuildMin then BuildMin[id] else 1
  }

  /** Some placed plot holds a `b`. */
  ghost predicate Placed(c: City, b: BuildingId) {
    exists p :: p in c.placed.m && c.placed.m[p].buildingId == b
  }

  /** The position, in iteration order, of the first plot holding a `b`. */
  function FirstWith(m: map<PlotId, Instance>, ks: seq<PlotId>, b: BuildingId): (r: Option<nat>)
    ensures r.Some? ==> r.value < |ks| && ks[r.value] in m && m[ks[r.value]].buildingId == b
    ensures r.Some? ==> forall k :: 0 <= k < r.value && ks[k] in m ==> m[ks[k]].buildingId != b
    ensures r.None? ==> forall k :: 0 <= k < |ks| && ks[k] in m ==> m[ks[k]].buildingId != b
  {
    if ks == [] then None
    else if ks[0] in m && m[ks[0]].buildingId == b then Some(0)
    else
      assert forall k :: 0 < k < |ks| ==> ks[k] == ks[1..][k - 1];
      match FirstWith(m, ks[1..], b)
      case None => None
      case Some(k) => Some(k + 1)
  }

  /** `getByBuildingId(id)`: the first placed instance of `b`. */
  function GetByBuildingId(c: City, b: BuildingId): (r: Option<Instance>)
    ensures r.Some? ==> r.value.buildingId == b && exists p :: p in c.placed.m && c.placed.m[p] == r.value
    ensures JsMap.Valid(c.placed) ==> (r.Some? <==> Placed(c, b))
  {
    var ks := c.placed.keys;
    match FirstWith(c.placed.m, ks, b)
    case None =>
      assert JsMap.Valid(c.placed) ==> forall p :: p in c.placed.m ==> exists k :: 0 <= k < |ks| && ks[k] == p;
      None
    case Some(k) => Some(c.placed.m[ks[k]])
  }

  /** `getTownhallLevel()`: the level of the first town hall, else 0. */
  function TownhallLevel(c: City): (l: int)
    ensures GetByBuildingId(c, "townhall").None? ==> l == 0
    ensures GetByBuildingId(c, "townhall").Some? ==> l == GetByBuildingId(c, "townhall").value.level
  {
    match GetByBuildingId(c, "townhall")
    case None => 0
    case Some(th) => th.level
  }

  /** `canBuildBuilding(id)`. An unknown id is not rejected here; it is the
      placement that refuses it. */
  function CanBuildBuilding(c: City, id: BuildingId): (r: Check)
    ensures id == "townhall" ==> r == Fail(TownhallPlaced)
    ensures JsMap.Valid(c.placed) ==>
      (r.Ok? <==> id != "townhall" && !Placed(c, id) && TownhallLevel(c) >= BuildMinTownhall(id))
  {
    if id == "townhall" then Fail(TownhallPlaced)
    else if GetByBuildingId(c, id).Some? then Fail(AlreadyBuilt)
    else
      var req := BuildMinTownhall(id);
      if TownhallLevel(c) < req then Fail(RequiresTownhall(req)) else Ok
  }

  /** `placeBuildingOnPlot(plotId, id, level)`: `None` where the source
      throws on an unknown id. No occupancy or gate check: the plot's former
      instance, if any, is replaced. */
  function PlaceBuildingOnPlot(c: City, plotId: PlotId, id: BuildingId, level: int): (r: Option<City>)
    ensures r.None? <==> InstantCatalog.Lookup(id).None?
    ensures r.Some? ==>
      && r.value.placed.m.Keys == c.placed.m.Keys + {plotId}
      && (forall p :: p in c.placed.m && p != plotId ==> r.value.placed.m[p] == c.placed.m[p])
      && var i := r.value.placed.m[plotId];
      && i.plotId == plotId && i.buildingId == id
      && 1 <= i.level <= MaxLevel && (1 <= level <= MaxLevel ==> i.level == level)
    ensures r.Some? && JsMap.Valid(c.placed) ==> JsMap.Valid(r.value.placed)
  {
    if InstantCatalog.Lookup(id).None? then None
    else Some(City(JsMap.Put(c.placed, plotId, Instance(plotId, id, Clamp(level, 1, MaxLevel)))))
  }

  /** `ensureTownhall(plotId)` (the plot defaults to "townhall"): nothing if a
      town hall stands anywhere, else a level-1 town hall on `plotId`. */
  function EnsureTownhall(c: City, plotId: PlotId): (r: City)
    ensures GetByBuildingId(c, "townhall").Some? ==> r == c
    ensures GetByBuildingId(c, "townhall").None? ==>
      r.placed == JsMap.Put(c.placed, plotId, Instance(plotId, "townhall", 1))
  {
    if GetByBuildingId(c, "townhall").Some? then c
    else
      assert InstantCatalog.Lookup("townhall").Some?;
      PlaceBuildingOnPlot(c, plotId, "townhall", 1).value
  }

  /** Some non-town-hall building, visited in order, is below `need`. */
  predicate SomeOtherBelow(c: City, need: int) {
    exists k :: 0 <= k < |c.placed.keys| && c.placed.keys[k] in c.placed.m
      && c.placed.m[c.placed.keys[k]].buildingId != "townhall"
      && c.placed.m[c.placed.keys[k]].level < need
  }

  /** On a well-formed map, the scan in iteration order finds a lagging
      building exactly when one is placed anywhere. */
  lemma SomeOtherBelowMeaning(c: City, need: int)
    ensures JsMap.Valid(c.placed) ==>
      (SomeOtherBelow(c, need) <==>
       exists p :: p in c.placed.m && c.placed.m[p].buildingId != "townhall" && c.placed.m[p].level < need)
  {
  }

  /** `canUpgradePlot(plotId)`. */
  function CanUpgradePlot(c: City, plotId: PlotId): (r: Check)
    ensures JsMap.Valid(c.placed) ==> (r.Ok? <==>
      && plotId in c.placed.m
      && var b := c.placed.m[plotId];
      && b.level < MaxLevel
      && (b.buildingId != "townhall" ==> TownhallLevel(c) > b.level)
      && (b.buildingId == "townhall" ==>
            && (UnlockIn(Unlocks, b.level + 1).Some? ==> Placed(c, UnlockIn(Unlocks, b.level + 1).value))
            && forall p :: p in c.placed.m && c.placed.m[p].buildingId != "townhall" ==>
                 c.placed.m[p].level >= b.level))
  {
    if plotId !in c.placed.m then Fail(NoBuildingHere)
    else
      var b := c.placed.m[plotId];
      if b.level >= MaxLevel then Fail(MaxLevelReached)
      else if b.buildingId != "townhall" then
        if TownhallLevel(c) <= b.level then Fail(RaiseTownhallAbove(b.level)) else Ok
      else
        var next := b.level + 1;
        var req := UnlockIn(Unlocks, next);
        if req.Some? && GetByBuildingId(c, req.value).None? then Fail(BuildToUnlock(req.value, next))
        else
          SomeOtherBelowMeaning(c, b.level);
          if SomeOtherBelow(c, b.level) then Fail(AllMustReach(b.level, next))
          else Ok
  }

  /** `upgradePlot(plotId)`: one level up, capped at 20, when the gate
      allows. */
  function UpgradePlot(c: City, plotId: PlotId): (r: Outcome)
    ensures r.check == CanUpgradePlot(c, plotId)
    ensures r.check.Fail? ==> r.city == c
    ensures r.check.Ok? ==>
      && plotId in c.placed.m
      && r.city.placed.keys == c.placed.keys
      && r.city.placed.m.Keys == c.placed.m.Keys
      && (forall p :: p in c.placed.m && p != plotId ==> r.city.placed.m[p] == c.placed.m[p])
      && var b, b' := c.placed.m[plotId], r.city.placed.m[plotId];
      && b'.plotId == b.plotId && b'.buildingId == b.buildingId
      && b'.level == (if b.level == 0 then 1 else b.level) + 1
  {
    var chk := CanUpgradePlot(c, plotId);
    if chk.Fail? then Outcome(chk, c)
    else
      var b := c.placed.m[plotId];
      var lv := if b.level == 0 then 1 else b.level;
      Outcome(Ok, City(JsMap.Put(c.placed, plotId, b.(level := Min(MaxLevel, lv + 1)))))
  }
}

=== FILE: instant_buildings_props.dfy ===
/** Properties of the untimed building store (docs/js/systems/citybuildings.js):
    the town hall caps every other building, and upgrades keep that so. */
module InstantBuildingsProps {
  import opened Common
  import JsMap
  import InstantCatalog
  import opened InstantBuildings

  /** Every level is in 1..20. */
  ghost predicate LevelsInRange(c: City) {
    forall p :: p in c.placed.m ==> 1 <= c.placed.m[p].level <= MaxLevel
  }

  /** No building stands above the town hall (or above 0 without one). */
  predicate Capped(c: City) {
    forall p :: p in c.placed.m && c.placed.m[p].buildingId != "townhall" ==>
      c.placed.m[p].level <= TownhallLevel(c)
  }

  ghost predicate Inv(c: City) {
    JsMap.Valid(c.placed) && LevelsInRange(c) && Capped(c)
  }

  /** The scan for a building only looks at which building each plot holds. */
  lemma {:induction false} FirstWithSameIds(m: map<PlotId, Instance>, m': map<PlotId, Instance>,
                                            ks: seq<PlotId>, b: BuildingId)
    requires forall k :: 0 <= k < |ks| ==> (ks[k] in m <==> ks[k] in m')
    requires forall k :: 0 <= k < |ks| && ks[k] in m ==> m'[ks[k]].buildingId == m[ks[k]].buildingId
    ensures FirstWith(m', ks, b) == FirstWith(m, ks, b)
  {
    if ks != [] {
      assert forall k :: 0 < k < |ks| ==> ks[k] == ks[1..][k - 1];
      FirstWithSameIds(m, m', ks[1..], b);
    }
  }

  /** An appended plot never changes which plot is found first for a
      building it does not hold. */
  lemma {:induction false} FirstWithAppend(m: map<PlotId, Instance>, ks: seq<PlotId>, p: PlotId,
                                           i: Instance, b: BuildingId)
    requires p !in ks && i.buildingId != b
    ensures FirstWith(m[p := i], ks + [p], b) == FirstWith(m, ks, b)
  {
    if ks != [] {
      assert (ks + [p])[1..] == ks[1..] + [p];
      FirstWithAppend(m, ks[1..], p, i, b);
    }
  }

  /** An upgrade never lowers the town-hall level. */
  lemma UpgradeRaisesTownhall(c: City, plotId: PlotId)
    requires JsMap.Valid(c.placed) && UpgradePlot(c, plotId).check.Ok?
    ensures TownhallLevel(UpgradePlot(c, plotId).city) >= TownhallLevel(c)
  {
    var c' := UpgradePlot(c, plotId).city;
    FirstWithSameIds(c.placed.m, c'.placed.m, c.placed.keys, "townhall");
  }

  /** `upgradePlot` keeps levels in range and keeps every building at or
      below the town hall: a building rises only while the town hall is
      strictly above it, and the town hall never falls. */
  lemma UpgradeKeepsInv(c: City, plotId: PlotId)
    requires Inv(c)
    ensures Inv(UpgradePlot(c, plotId).city)
  {
    var r := UpgradePlot(c, plotId);
    if r.check.Ok? {
      UpgradeRaisesTownhall(c, plotId);
      assert JsMap.Valid(r.city.placed);
    }
  }

  /** `ensureTownhall` keeps the invariant: without a town hall the cap is 0,
      so the store is empty and receives only the new town hall. */
  lemma EnsureTownhallKeepsInv(c: City, plotId: PlotId)
    requires Inv(c)
    ensures Inv(EnsureTownhall(c, plotId))
    ensures GetByBuildingId(EnsureTownhall(c, plotId), "townhall").Some?
  {
    if GetByBuildingId(c, "townhall").None? {
      assert c.placed.m == map[];
      assert c.placed.keys == [];
      var c' := EnsureTownhall(c, plotId);
      assert c'.placed.keys == [plotId];
    }
  }

  /** Placing a level-1 building on a free plot after `canBuildBuilding`
      agreed keeps the invariant: the gate demands a town hall at level 1 or
      more. */
  lemma BuildThenPlaceKeepsInv(c: City, plotId: PlotId, id: BuildingId)
    requires Inv(c) && plotId !in c.placed.m
    requires CanBuildBuilding(c, id).Ok? && InstantCatalog.Lookup(id).Some?
    ensures Inv(PlaceBuildingOnPlot(c, plotId, id, 1).value)
  {
    var c' := PlaceBuildingOnPlot(c, plotId, id, 1).value;
    var i := Instance(plotId, id, 1);
    assert c'.placed == JsMap.Put(c.placed, plotId, i);
    assert plotId !in c.placed.keys;
    FirstWithAppend(c.placed.m, c.placed.keys, plotId, i, "townhall");
    assert TownhallLevel(c') == TownhallLevel(c) >= 1;
    forall p | p in c'.placed.m
      ensures 1 <= c'.placed.m[p].level <= MaxLevel
      ensures c'.placed.m[p].buildingId != "townhall" ==> c'.placed.m[p].level <= TownhallLevel(c')
    {
      if p != plotId {
        assert c'.placed.m[p] == c.placed.m[p];
      }
    }
  }

  /** Placement itself checks nothing: a level-5 farm placed next to a
      level-1 town hall stands above it. */
  lemma PlaceCanOutrunTownhall()
    ensures var c := City(JsMap.Put(JsMap.Empty(), "townhall", Instance("townhall", "townhall", 1)));
      && Inv(c)
      && PlaceBuildingOnPlot(c, "plot_a", "farm", 5).Some?
      && !Capped(PlaceBuildingOnPlot(c, "plot_a", "farm", 5).value)
  {
    var c := City(JsMap.Put(JsMap.Empty(), "townhall", Instance("townhall", "townhall", 1)));
    assert c.placed.keys == ["townhall"];
    assert TownhallLevel(c) == 1;
    var c' := PlaceBuildingOnPlot(c, "plot_a", "farm", 5).value;
    assert c'.placed.keys == ["townhall", "plot_a"];
    assert TownhallLevel(c') == 1;
    assert c'.placed.m["plot_a"].level == 5;
  }

  /** The town-hall unlock is keyed by the target level: a lone level-1 town
      hall cannot go to level 2 before a farm exists. */
  lemma TownhallNeedsFarmForLevelTwo()
    ensures var c := City(JsMap.Put(JsMap.Empty(), "townhall", Instance("townhall", "townhall", 1)));
      CanUpgradePlot(c, "townhall") == Fail(BuildToUnlock("farm", 2))
  {
    var c := City(JsMap.Put(JsMap.Empty(), "townhall", Instance("townhall", "townhall", 1)));
    assert c.placed.keys == ["townhall"];
    assert UnlockIn(Unlocks, 2) == Some("farm");
    assert GetByBuildingId(c, "farm").None?;
  }
}

=== FILE: instant_catalog.dfy ===
/** The building table read by the untimed building store
    (docs/js/data/buildingcatalog.js). Unlike the timed table it carries no
    minimum town-hall level, and it keeps stone out of early placement costs. */
module InstantCatalog {
  import opened Common
  import opened Resources

  datatype BuildingDef = BuildingDef(
    id: string,
    name: string,
    unique: bool,
    minTownhallLevel: Option<int>,
    cost: Cost)

  const KnownIds: set<string> :=
    {"townhall", "farm", "lumber", "quarry", "mine", "barracks", "academy", "commandcenter", "house"}

  /** `BUILDINGS[id]`; `None` for an id the table does not list. */
  function Lookup(id: string): (d: Option<BuildingDef>)
    ensures d.Some? <==> id in KnownIds
    ensures d.Some? ==> d.value.id == id
  {
    match id
    case "townhall" => Some(BuildingDef("townhall", "Town Hall", false, None, map[Wood := 0, Gold := 0]))
    case "farm" => Some(BuildingDef("farm", "Farm", false, None, map[Wood := 60, Gold := 10]))
    case "lumber" => Some(BuildingDef("lumber", "Lumber Yard", false, None, map[Wood := 40, Gold := 10]))
    case "quarry" => Some(BuildingDef("quarry", "Quarry", false, None, map[Wood := 80, Gold := 25]))
    case "mine" => Some(BuildingDef("mine", "Mine", false, None, map[Wood := 120, Gold := 40]))
    case "barracks" => Some(BuildingDef("barracks", "Barracks", true, None, map[Wood := 120, Gold := 60]))
    case "academy" => Some(BuildingDef("academy", "Academy", true, None, map[Wood := 120, Stone := 80, Gold := 80]))
    case "commandcenter" => Some(BuildingDef("commandcenter", "Command Center", true, None, map[Wood := 150, Stone := 120, Gold := 120]))
    case "house" => Some(BuildingDef("house", "House", false, None, map[Wood := 80, Gold := 20]))
    case _ => None
  }

  /** `BUILDINGS[id].upgradeCost(level)`, the cost of `level -> level + 1`. */
  function UpgradeCost(id: string, level: int): (c: Option<Cost>)
    ensures c.Some? <==> id in KnownIds
  {
    match id
    case "townhall" => Some(map[Wood := 100 * level, Gold := 60 * level, Stone := if level >= 5 then 80 * level else 0])
    case "farm" => Some(map[Wood := 40 * level, Gold := 10 * level])
    case "lumber" => Some(map[Wood := 30 * level, Gold := 10 * level])
    case "quarry" => Some(map[Wood := 30 * level, Stone := 20 * level, Gold := 10 * level])
    case "mine" => Some(map[Wood := 40 * level, Stone := 30 * level, Gold := 20 * level])
    case "barracks" => Some(map[Wood := 60 * level, Gold := 30 * level])
    case "academy" => Some(map[Wood := 70 * level, Stone := 60 * level, Gold := 40 * level])
    case "commandcenter" => Some(map[Wood := 90 * level, Stone := 80 * level, Gold := 60 * level])
    case "house" => Some(map[Wood := 50 * level, Stone := 20 * level, Gold := 20 * level])
    case _ => None
  }

  /** The coefficient of `level` in each linear upgrade-cost component. */
  function Coefficient(id: string, r: Resource): (k: int)
    ensures k >= 0
  {
    match (id, r)
    case ("townhall", Wood) => 100
    case ("townhall", Gold) => 60
    case ("farm", Wood) => 40
    case ("farm", Gold) => 10
    case ("lumber", Wood) => 30
    case ("lumber", Gold) => 10
    case ("quarry", Wood) => 30
    case ("quarry", Stone) => 20
    case ("quarry", Gold) => 10
    case ("mine", Wood) => 40
    case ("mine", Stone) => 30
    case ("mine", Gold) => 20
    case ("barracks", Wood) => 60
    case ("barracks", Gold) => 30
    case ("academy", Wood) => 70
    case ("academy", Stone) => 60
    case ("academy", Gold) => 40
    case ("commandcenter", Wood) => 90
    case ("commandcenter", Stone) => 80
    case ("commandcenter", Gold) => 60
    case ("house", Wood) => 50
    case ("house", Stone) => 20
    case ("house", Gold) => 20
    case _ => 0
  }

  /** Every upgrade-cost component except town-hall stone is `k * level` with
      `k >= 0`; town-hall stone is 0 below level 5 and `80 * level` from 5. */
  lemma UpgradeCostShape(id: string, level: int, r: Resource)
    requires id in KnownIds
    ensures id == "townhall" && r == Stone ==>
      Need(UpgradeCost(id, level).value, r) == (if level >= 5 then 80 * level else 0)
    ensures !(id == "townhall" && r == Stone) ==>
      Need(UpgradeCost(id, level).value, r) == Coefficient(id, r) * level
  {
  }

  /** Hence every component is non-decreasing in the level. */
  lemma UpgradeCostMonotone(id: string, a: int, b: int, r: Resource)
    requires id in KnownIds && a <= b
    ensures Need(UpgradeCost(id, a).value, r) <= Need(UpgradeCost(id, b).value, r)
  {
    UpgradeCostShape(id, a, r);
    UpgradeCostShape(id, b, r);
    if !(id == "townhall" && r == Stone) {
      assert Coefficient(id, r) * a <= Coefficient(id, r) * b by {
        var k := Coefficient(id, r);
        assert k * (b - a) >= 0;
      }
    }
  }

  /** Only the academy and the command center ask for stone to be placed; all
      other placement costs are wood and gold only. */
  lemma PlacementStone(id: string)
    requires id in KnownIds
    ensures Stone in Lookup(id).value.cost <==> id in {"academy", "commandcenter"}
    ensures Lookup(id).value.cost.Keys <= {Wood, Stone, Gold}
    ensures id !in {"academy", "commandcenter"} ==> Lookup(id).value.cost.Keys == {Wood, Gold}
  {
  }

  /** Barracks never ask for stone, to place or to upgrade. */
  lemma BarracksNoStone(level: int)
    ensures Stone !in Lookup("barracks").value.cost
    ensures Stone !in UpgradeCost("barracks", level).value
  {
  }

  /** Exactly barracks, academy and command center are unique, and no entry
      sets a minimum town-hall level. */
  lemma FlagsAndGates(id: string)
    requires id in KnownIds
    ensures Lookup(id).value.unique <==> id in {"barracks", "academy", "commandcenter"}
    ensures Lookup(id).value.minTownhallLevel == None
  {
  }
}

=== FILE: jsmap.dfy ===
/** A JavaScript `Map`: a finite map that also remembers the order in which
    its keys were first inserted (iteration order). Re-setting an existing key
    keeps its position. */
module JsMap {

  datatype OMap<K, V> = OMap(keys: seq<K>, m: map<K, V>)

  /** The keys listed by an iteration order. */
  function KeySet<K>(ks: seq<K>): set<K> {
    set i | 0 <= i < |ks| :: ks[i]
  }

  ghost predicate Valid<K, V>(om: OMap<K, V>) {
    && (forall i, j :: 0 <= i < j < |om.keys| ==> om.keys[i] != om.keys[j])
    && om.m.Keys == KeySet(om.keys)
  }

  lemma KeySetAppend<K>(ks: seq<K>, k: K)
    ensures KeySet(ks + [k]) == KeySet(ks) + {k}
  {
    var ks' := ks + [k];
    forall x | x in KeySet(ks')
      ensures x in KeySet(ks) + {k}
    {
      var i :| 0 <= i < |ks'| && ks'[i] == x;
      if i < |ks| { assert ks[i] == x; }
    }
    forall x | x in KeySet(ks) + {k}
      ensures x in KeySet(ks')
    {
      if x == k {
        assert ks'[|ks|] == x;
      } else {
        var i :| 0 <= i < |ks| && ks[i] == x;
        assert ks'[i] == x;
      }
    }
  }

  function Empty<K, V>(): (r: OMap<K, V>)
    ensures Valid(r) && r.m == map[]
  {
    OMap([], map[])
  }

  /** `map.set(k, v)`. */
  function Put<K, V>(om: OMap<K, V>, k: K, v: V): (r: OMap<K, V>)
    ensures r.m == om.m[k := v]
    ensures k in om.m ==> r.keys == om.keys
    ensures k !in om.m ==> r.keys == om.keys + [k]
    ensures Valid(om) ==> Valid(r)
  {
    if k in om.m then OMap(om.keys, om.m[k := v])
    else
      KeySetAppend(om.keys, k);
      OMap(om.keys + [k], om.m[k := v])
  }

  /** `Array.from(map.values())`: the values in iteration order. */
  function Values<K, V>(om: OMap<K, V>): (r: seq<V>)
    requires Valid(om)
    ensures |r| == |om.keys|
    ensures forall i :: 0 <= i < |r| ==> r[i] == om.m[om.keys[i]]
  {
    ValuesOf(om.keys, om.m)
  }

  function ValuesOf<K, V>(ks: seq<K>, m: map<K, V>): (r: seq<V>)
    requires forall i :: 0 <= i < |ks| ==> ks[i] in m
    ensures |r| == |ks|
    ensures forall i :: 0 <= i < |r| ==> r[i] == m[ks[i]]
  {
    if ks == [] then [] else [m[ks[0]]] + ValuesOf(ks[1..], m)
  }
}

=== FILE: resources.dfy ===
/** The five-resource ledger and the afford/spend/credit helpers that
    cityBuildings.js and trainingsystems.js each define in the same way. */
module Resources {

  datatype Resource = Food | Wood | Stone | Ore | Gold

  /** A cost object: a missing key means "no requirement" (`cost.food || 0`). */
  type Cost = map<Resource, int>

  /** The balances in `state.resources`; production makes them fractional. */
  datatype Ledger = Ledger(food: real, wood: real, stone: real, ore: real, gold: real)

  const AllResources: set<Resource> := {Food, Wood, Stone, Ore, Gold}

  /** The five resources are all there are. */
  lemma AllListed()
    ensures forall r: Resource :: r in AllResources
  {
    forall r: Resource ensures r in AllResources {
      match r
      case Food =>
      case Wood =>
      case Stone =>
      case Ore =>
      case Gold =>
    }
  }

  const Empty: Ledger := Ledger(0.0, 0.0, 0.0, 0.0, 0.0)

  function Balance(l: Ledger, r: Resource): real {
    match r
    case Food => l.food
    case Wood => l.wood
    case Stone => l.stone
    case Ore => l.ore
    case Gold => l.gold
  }

  /** The amount a cost asks of one resource: absent keys ask for nothing. */
  function Need(c: Cost, r: Resource): int {
    if r in c then c[r] else 0
  }

  predicate NonNegative(l: Ledger) {
    l.food >= 0.0 && l.wood >= 0.0 && l.stone >= 0.0 && l.ore >= 0.0 && l.gold >= 0.0
  }

  predicate NonNegativeCost(c: Cost) {
    forall r :: r in c ==> c[r] >= 0
  }

  /** `canAfford(cost)`: every component of the cost is covered. */
  predicate CanAfford(l: Ledger, c: Cost) {
    && l.food >= Need(c, Food) as real
    && l.wood >= Need(c, Wood) as real
    && l.stone >= Need(c, Stone) as real
    && l.ore >= Need(c, Ore) as real
    && l.gold >= Need(c, Gold) as real
  }

  /** `spend(cost)`: subtract every component (absent ones count as 0). */
  function Spend(l: Ledger, c: Cost): (r: Ledger)
    ensures forall res :: Balance(r, res) == Balance(l, res) - Need(c, res) as real
  {
    Ledger(l.food - Need(c, Food) as real, l.wood - Need(c, Wood) as real,
           l.stone - Need(c, Stone) as real, l.ore - Need(c, Ore) as real,
           l.gold - Need(c, Gold) as real)
  }

  /** Adds every component of `amounts` (a refund or a reward). */
  function Credit(l: Ledger, amounts: Cost): (r: Ledger)
    ensures forall res :: Balance(r, res) == Balance(l, res) + Need(amounts, res) as real
  {
    Ledger(l.food + Need(amounts, Food) as real, l.wood + Need(amounts, Wood) as real,
           l.stone + Need(amounts, Stone) as real, l.ore + Need(amounts, Ore) as real,
           l.gold + Need(amounts, Gold) as real)
  }

  /** The affordability check is exactly "no balance would go negative". */
  lemma AffordIffSpendStaysNonNegative(l: Ledger, c: Cost)
    ensures CanAfford(l, c) <==> forall res :: Balance(Spend(l, c), res) >= 0.0
  {
    assert Balance(Spend(l, c), Food) == l.food - Need(c, Food) as real;
    assert Balance(Spend(l, c), Wood) == l.wood - Need(c, Wood) as real;
    assert Balance(Spend(l, c), Stone) == l.stone - Need(c, Stone) as real;
    assert Balance(Spend(l, c), Ore) == l.ore - Need(c, Ore) as real;
    assert Balance(Spend(l, c), Gold) == l.gold - Need(c, Gold) as real;
  }

  /** Spending an affordable cost never drives a balance below zero. */
  lemma SpendAffordableKeepsNonNegative(l: Ledger, c: Cost)
    requires CanAfford(l, c)
    ensures NonNegative(Spend(l, c))
  {
  }

  /** Spending and then crediting the same cost restores the ledger. */
  lemma CreditUndoesSpend(l: Ledger, c: Cost)
    ensures Credit(Spend(l, c), c) == l
  {
  }
}

=== FILE: road_tiles.dfy ===
/** The pure helpers of docs/js/proceduralCityRenderer.js that lay out the
    road network in tile space: the 32-bit hash behind the random grass
    variants, the buildable-plot filter, pixel-to-tile conversion, the
    Bresenham line between two tiles, the four-neighbour road mask and its
    tile classification, and the thickening step. Tile keys are kept as
    coordinate pairs rather than the `"x,y"` strings of the source. */
module RoadTiles {
  import opened Common

  // ---------------------------------------------------------------- hash2

  const TwoTo32: int := 0x1_0000_0000

  /** The golden-ratio offset that `hash2` adds before mixing. */
  const Golden: bv32 := 0x9e3779b9

  /** `x ^= x << 13`. */
  function XorShl13(x: bv32): bv32 {
    x ^ (x << 13)
  }

  /** `x ^= x >>> 17` (a logical shift on the unsigned bits). */
  function XorShr17(x: bv32): bv32 {
    x ^ (x >> 17)
  }

  /** `x ^= x << 5`. */
  function XorShl5(x: bv32): bv32 {
    x ^ (x << 5)
  }

  /** The three xorshift steps of `hash2`, on the 32 bits that the JS
      bitwise operators see. */
  function Mix(x: bv32): bv32 {
    XorShl5(XorShr17(XorShl13(x)))
  }

  /** `i | 0`: the 32 bits of an integer index, which is all that every
      later bitwise operator reads. */
  function Bits(i: int): bv32 {
    (i % TwoTo32) as bv32
  }

  /** `hash2` on the index bits: add the offset (wrapping at 2^32, which is
      what the following `<<` does to the sum), mix, and read the result
      unsigned (`x >>> 0`). */
  function HashBits(x: bv32): bv32 {
    Mix(x + Golden)
  }

  /** `hash2(i)`. */
  function Hash2(i: int): (h: int)
    ensures 0 <= h < TwoTo32
  {
    HashBits(Bits(i)) as int
  }

  /** Undoing `x ^= x << 13` takes two more shifted copies. */
  function UndoXorShl13(y: bv32): bv32 {
    y ^ (y << 13) ^ (y << 26)
  }

  /** Undoing `x ^= x << 5` takes six more shifted copies. */
  function UndoXorShl5(y: bv32): bv32 {
    y ^ (y << 5) ^ (y << 10) ^ (y << 15) ^ (y << 20) ^ (y << 25) ^ (y << 30)
  }

  /** The mixing steps run backwards; `x ^= x >>> 17` is its own inverse. */
  function Unmix(h: bv32): bv32 {
    UndoXorShl13(XorShr17(UndoXorShl5(h)))
  }

  lemma UndoXorShl13Left(x: bv32)
    ensures UndoXorShl13(XorShl13(x)) == x
  {
    var y := x ^ (x << 13);
    assert XorShl13(x) == y;
  }

  lemma UndoXorShl13Right(y: bv32)
    ensures XorShl13(UndoXorShl13(y)) == y
  {
    var x := y ^ (y << 13) ^ (y << 26);
    assert UndoXorShl13(y) == x;
  }

  lemma XorShr17Involutive(x: bv32)
    ensures XorShr17(XorShr17(x)) == x
  {
    var y := x ^ (x >> 17);
    assert XorShr17(x) == y;
  }

  lemma UndoXorShl5Left(x: bv32)
    ensures UndoXorShl5(XorShl5(x)) == x
  {
    var y := x ^ (x << 5);
    assert XorShl5(x) == y;
  }

  lemma UndoXorShl5Right(y: bv32)
    ensures XorShl5(UndoXorShl5(y)) == y
  {
    var x := y ^ (y << 5) ^ (y << 10) ^ (y << 15) ^ (y << 20) ^ (y << 25) ^ (y << 30);
    assert UndoXorShl5(y) == x;
  }

  /** The mixing is a bijection on 32-bit words: `Unmix` undoes it ... */
  lemma UnmixMix(x: bv32)
    ensures Unmix(Mix(x)) == x
  {
    UndoXorShl13Left(x);
    XorShr17Involutive(XorShl13(x));
    UndoXorShl5Left(XorShr17(XorShl13(x)));
  }

  /** ... and `Mix` undoes `Unmix`. */
  lemma MixUnmix(h: bv32)
    ensures Mix(Unmix(h)) == h
  {
    UndoXorShl5Right(h);
    XorShr17Involutive(UndoXorShl5(h));
    UndoXorShl13Right(XorShr17(UndoXorShl5(h)));
  }

  /** The index bits that `hash2` sends to `h`. */
  function PreimageBits(h: bv32): bv32 {
    Unmix(h) - Golden
  }

  lemma UnmixAfterOffset(x: bv32, s: bv32)
    requires s == x + Golden
    ensures Unmix(Mix(s)) - Golden == x
  {
    UnmixMix(s);
  }

  /** `PreimageBits` inverts `hash2` on the index bits ... */
  lemma HashBitsInverse(x: bv32)
    ensures PreimageBits(HashBits(x)) == x
  {
    UnmixAfterOffset(x, x + Golden);
  }

  lemma OffsetCancels(u: bv32, p: bv32)
    requires p == u - Golden
    ensures p + Golden == u
  {
  }

  lemma HashOfOffset(h: bv32, u: bv32, p: bv32)
    requires Mix(u) == h && p + Golden == u
    ensures HashBits(p) == h
  {
  }

  /** ... and every 32-bit value `h` is the hash of the index bits found
      by unmixing `h` and taking the offset back off, so `hash2` is a
      bijection on 32-bit words. */
  lemma HashBitsOnto(h: bv32, u: bv32, p: bv32)
    requires u == Unmix(h) && p == u - Golden
    ensures HashBits(p) == h
  {
    MixUnmix(h);
    OffsetCancels(u, p);
    HashOfOffset(h, u, p);
  }

  /** Two index bit patterns collide iff they are equal. */
  lemma HashBitsInjective(a: bv32, b: bv32)
    ensures HashBits(a) == HashBits(b) <==> a == b
  {
    HashBitsInverse(a);
    HashBitsInverse(b);
  }

  /** `rand01(i)`: the hash reduced to five decimal digits, in [0, 1). */
  function Rand01(i: int): (r: real)
    ensures 0.0 <= r <= 0.99999
    ensures (r * 100000.0).Floor as real == r * 100000.0
  {
    (Hash2(i) % 100000) as real / 100000.0
  }

  /** Shifting the index by 2^32 changes neither the hash nor `rand01`. */
  lemma Rand01Periodic(i: int)
    ensures Hash2(i + TwoTo32) == Hash2(i)
    ensures Rand01(i + TwoTo32) == Rand01(i)
  {
    assert (i + TwoTo32) % TwoTo32 == i % TwoTo32;
    assert Bits(i + TwoTo32) == Bits(i);
  }

  // ---------------------------------------------------------- plot filter

  /** The fields of a plot record the filter reads: `id` is `None` when
      missing, `buildable` and `isTownhall` are `None` unless they hold a
      boolean. */
  datatype Plot = Plot(id: Option<string>, buildable: Option<bool>, isTownhall: Option<bool>)

  /** `isBuildablePlot(p)`; `None` is a missing plot. */
  predicate IsBuildablePlot(p: Option<Plot>) {
    if p.None? then false
    else if p.value.buildable == Some(false) then false
    else if ToLower(p.value.id.GetOr("")) == "townhall" then false
    else if p.value.isTownhall == Some(true) then false
    else true
  }

  /** The filter drops the town hall under either marker, whatever the id's
      letter case, and an explicit `buildable: false`; a plot with no fields
      at all is buildable. */
  lemma BuildablePlotFilter(p: Plot)
    ensures p.buildable == Some(false) ==> !IsBuildablePlot(Some(p))
    ensures p.isTownhall == Some(true) ==> !IsBuildablePlot(Some(p))
    ensures p.id == Some("TownHall") ==> !IsBuildablePlot(Some(p))
    ensures IsBuildablePlot(Some(Plot(None, None, None)))
    ensures p.buildable != Some(false) && p.isTownhall != Some(true) && p.id.None? ==> IsBuildablePlot(Some(p))
  {
    if p.id == Some("TownHall") {
      assert ToLower("TownHall") == "townhall";
    }
    assert ToLower("") == "";
  }

  // ------------------------------------------------------------ tile space

  datatype Tile = Tile(x: int, y: int)

  /** 16-pixel tiles. */
  const TileSize: int := 16

  /** `toTileCoord(px, py)`: the tile holding a pixel. */
  function ToTileCoord(px: real, py: real): (t: Tile)
    ensures (TileSize * t.x) as real <= px < (TileSize * (t.x + 1)) as real
    ensures (TileSize * t.y) as real <= py < (TileSize * (t.y + 1)) as real
  {
    Tile((px / 16.0).Floor, (py / 16.0).Floor)
  }

  // ------------------------------------------------------------- bresenham

  function Abs(n: int): nat {
    if n < 0 then -n else n
  }

  /** `x0 < x1 ? 1 : -1`. */
  function Sign(from: int, to: int): int {
    if from < to then 1 else -1
  }

  /** The coordinate after `u` steps from `from` toward `to`. */
  function Advance(from: int, to: int, u: int): int {
    if from < to then from + u else from - u
  }

  lemma AdvanceReaches(from: int, to: int, u: nat)
    ensures Advance(from, to, u) == to <==> u == Abs(to - from)
  {
  }

  /** One step of the line moves each coordinate by 0 or by its sign toward
      the end point, and moves at least one of them. */
  predicate StepToward(p: Tile, q: Tile, a: Tile, b: Tile) {
    (q.x == p.x || q.x == p.x + Sign(a.x, b.x))
    && (q.y == p.y || q.y == p.y + Sign(a.y, b.y))
    && q != p
  }

  /** A tile inside the rectangle spanned by `a` and `b`. */
  predicate InBox(p: Tile, a: Tile, b: Tile) {
    Min(a.x, b.x) <= p.x <= Max(a.x, b.x) && Min(a.y, b.y) <= p.y <= Max(a.y, b.y)
  }

  /** With x already at the end, the error term keeps x still. */
  lemma NoOvershootX(dx: int, dy: int, v: int)
    requires 0 <= dx && 0 <= v < dy
    ensures 2 * (dx * (v + 1) - dy * (dx + 1)) <= -dy
  {
    assert dx * (v + 1) <= dx * dy;
  }

  /** With y already at the end, the error term keeps y still. */
  lemma NoOvershootY(dx: int, dy: int, u: int)
    requires 0 <= dy && 0 <= u < dx
    ensures 2 * (dx * (dy + 1) - dy * (u + 1)) >= dx
  {
    assert dy * (u + 1) <= dy * dx;
  }

  /** One round of the loop, after `u` steps in x and `v` in y with the
      error term `dx * (v + 1) - dy * (u + 1)`: x moves only while short of
      its end, y likewise, at least one of them moves, and the error term
      keeps its form. */
  lemma ErrorTermSteps(dx: int, dy: int, u: int, v: int)
    requires 0 <= u <= dx && 0 <= v <= dy && !(u == dx && v == dy)
    ensures var e2 := 2 * (dx * (v + 1) - dy * (u + 1));
            (e2 > -dy ==> u < dx)
            && (e2 < dx ==> v < dy)
            && (e2 > -dy || e2 < dx)
            && dx * (v + 1) - dy * (u + 1) - dy == dx * (v + 1) - dy * (u + 2)
            && dx * (v + 1) - dy * (u + 2) + dx == dx * (v + 2) - dy * (u + 2)
            && dx * (v + 1) - dy * (u + 1) + dx == dx * (v + 2) - dy * (u + 1)
  {
    if u == dx {
      NoOvershootX(dx, dy, v);
    }
    if v == dy {
      NoOvershootY(dx, dy, u);
    }
  }

  /** `bresenhamLine(a, b)`: the tiles from `a` to `b`. The loop ends for
      every pair of end points: each round moves x or y one step closer and
      neither overshoots. */
  method BresenhamLine(a: Tile, b: Tile) returns (pts: seq<Tile>)
    ensures |pts| >= 1 && pts[0] == a && pts[|pts| - 1] == b
    ensures forall k :: 0 <= k < |pts| - 1 ==> pts[k] != b
    ensures forall k :: 0 <= k < |pts| - 1 ==> StepToward(pts[k], pts[k + 1], a, b)
    ensures forall k :: 0 <= k < |pts| ==> InBox(pts[k], a, b)
    ensures Max(Abs(b.x - a.x), Abs(b.y - a.y)) + 1 <= |pts| <= Abs(b.x - a.x) + Abs(b.y - a.y) + 1
  {
    var x, y := a.x, a.y;
    var dx, dy := Abs(b.x - a.x), Abs(b.y - a.y);
    var sx, sy := Sign(a.x, b.x), Sign(a.y, b.y);
    var err := dx - dy;
    ghost var u: nat, v: nat := 0, 0;
    pts := [Tile(x, y)];
    while !(x == b.x && y == b.y)
      invariant u <= dx && v <= dy
      invariant x == Advance(a.x, b.x, u) && y == Advance(a.y, b.y, v)
      invariant err == dx * (v + 1) - dy * (u + 1)
      invariant |pts| >= 1 && pts[0] == a && pts[|pts| - 1] == Tile(x, y)
      invariant forall k :: 0 <= k < |pts| - 1 ==> pts[k] != b
      invariant forall k :: 0 <= k < |pts| - 1 ==> StepToward(pts[k], pts[k + 1], a, b)
      invariant forall k :: 0 <= k < |pts| ==> InBox(pts[k], a, b)
      invariant Max(u, v) + 1 <= |pts| <= u + v + 1
      decreases dx - u + dy - v
    {
      AdvanceReaches(a.x, b.x, u);
      AdvanceReaches(a.y, b.y, v);
      var e2 := 2 * err;
      ErrorTermSteps(dx, dy, u, v);
      if e2 > -dy {
        err := err - dy;
        x := x + sx;
        u := u + 1;
      }
      if e2 < dx {
        err := err + dx;
        y := y + sy;
        v := v + 1;
      }
      AdvanceInBox(a.x, b.x, u);
      AdvanceInBox(a.y, b.y, v);
      ExtendPath(pts, Tile(x, y), a, b);
      pts := pts + [Tile(x, y)];
    }
  }

  lemma AdvanceInBox(from: int, to: int, u: int)
    requires 0 <= u <= Abs(to - from)
    ensures Min(from, to) <= Advance(from, to, u) <= Max(from, to)
  {
  }

  /** Appending one more step keeps the path properties of the line. */
  lemma ExtendPath(pts: seq<Tile>, q: Tile, a: Tile, b: Tile)
    requires |pts| >= 1 && pts[|pts| - 1] != b
    requires forall k :: 0 <= k < |pts| - 1 ==> pts[k] != b
    requires forall k :: 0 <= k < |pts| - 1 ==> StepToward(pts[k], pts[k + 1], a, b)
    requires forall k :: 0 <= k < |pts| ==> InBox(pts[k], a, b)
    requires StepToward(pts[|pts| - 1], q, a, b) && InBox(q, a, b)
    ensures var pts' := pts + [q];
            (forall k :: 0 <= k < |pts'| - 1 ==> pts'[k] != b)
            && (forall k :: 0 <= k < |pts'| - 1 ==> StepToward(pts'[k], pts'[k + 1], a, b))
            && (forall k :: 0 <= k < |pts'| ==> InBox(pts'[k], a, b))
  {
  }

  // ------------------------------------------------------ neighbour masks

  /** Which of the four neighbours (north is `y - 1`) hold road. */
  datatype Mask = Mask(n: bool, e: bool, s: bool, w: bool)

  /** `neighborsMask(roadSet, tx, ty)`. */
  function NeighborsMask(roads: set<Tile>, t: Tile): (m: Mask)
    ensures m.n <==> Tile(t.x, t.y - 1) in roads
    ensures m.e <==> Tile(t.x + 1, t.y) in roads
    ensures m.s <==> Tile(t.x, t.y + 1) in roads
    ensures m.w <==> Tile(t.x - 1, t.y) in roads
  {
    Mask(Tile(t.x, t.y - 1) in roads, Tile(t.x + 1, t.y) in roads,
         Tile(t.x, t.y + 1) in roads, Tile(t.x - 1, t.y) in roads)
  }

  function Bit(b: bool): nat {
    if b then 1 else 0
  }

  /** How many neighbours hold road. */
  function Count(m: Mask): nat {
    Bit(m.n) + Bit(m.e) + Bit(m.s) + Bit(m.w)
  }

  datatype RoadKind = Cross | Straight | Corner

  /** A road tile and its clockwise rotation in quarter turns (`rot` is
      `quarterTurns * PI / 2` in the source). */
  datatype RoadTile = RoadTile(kind: RoadKind, quarterTurns: int)

  /** `roadTypeFromMask(m)`, branch for branch; the two-neighbour case falls
      through to `null` when none of its tests match. */
  function RoadTypeFromMask(m: Mask): Option<RoadTile> {
    var c := Count(m);
    if c >= 4 then Some(RoadTile(Cross, 0))
    else if c == 3 then Some(RoadTile(Cross, 0))
    else if c == 2 && ((m.n && m.s) || (m.e && m.w)) then
      Some(RoadTile(Straight, if m.e && m.w then 1 else 0))
    else if c == 2 && m.n && m.e then Some(RoadTile(Corner, 0))
    else if c == 2 && m.e && m.s then Some(RoadTile(Corner, 1))
    else if c == 2 && m.s && m.w then Some(RoadTile(Corner, 2))
    else if c == 2 && m.w && m.n then Some(RoadTile(Corner, 3))
    else if c == 1 then
      if m.n || m.s then Some(RoadTile(Straight, 0)) else Some(RoadTile(Straight, 1))
    else None
  }

  /** A clockwise quarter turn: what opened north now opens east. */
  function Rotate(m: Mask): Mask {
    Mask(m.w, m.n, m.e, m.s)
  }

  function RotateTimes(m: Mask, q: nat): Mask {
    if q == 0 then m else Rotate(RotateTimes(m, q - 1))
  }

  const AllSides: Mask := Mask(true, true, true, true)

  /** The sides a drawn tile connects to: the cross all four, the straight
      tile north and south, the corner tile north and east, each turned by
      its rotation. */
  function Openings(t: RoadTile): Mask {
    var q := if t.quarterTurns < 0 then 0 else t.quarterTurns;
    match t.kind
    case Cross => AllSides
    case Straight => RotateTimes(Mask(true, false, true, false), q)
    case Corner => RotateTimes(Mask(true, true, false, false), q)
  }

  /** `m` is contained in `o`. */
  predicate Covers(o: Mask, m: Mask) {
    (m.n ==> o.n) && (m.e ==> o.e) && (m.s ==> o.s) && (m.w ==> o.w)
  }

  /** The drawn tile joins up with the neighbouring road: with two
      neighbours its openings are exactly the mask, with one or more it
      opens toward every neighbour, and only an isolated tile gets no
      road piece, so the two-neighbour fall-through never happens. */
  lemma RoadTileMatchesNeighbours(m: Mask)
    ensures RoadTypeFromMask(m).None? <==> Count(m) == 0
    ensures Count(m) == 2 ==> Openings(RoadTypeFromMask(m).value) == m
    ensures Count(m) >= 1 ==> Covers(Openings(RoadTypeFromMask(m).value), m)
    ensures Count(m) >= 3 ==> RoadTypeFromMask(m) == Some(RoadTile(Cross, 0))
  {
    assert RotateTimes(Mask(true, false, true, false), 1) == Mask(false, true, false, true);
    assert RotateTimes(Mask(true, true, false, false), 1) == Mask(false, true, true, false);
    assert RotateTimes(Mask(true, true, false, false), 2) == Mask(false, false, true, true);
    assert RotateTimes(Mask(true, true, false, false), 3) == Mask(true, false, false, true);
  }

  /** Turning the neighbourhood a quarter turn turns the chosen tile with
      it: same kind, one more quarter turn (modulo 2 for the symmetric
      straight tile, modulo 4 for the corner). */
  lemma RoadTypeRotates(m: Mask)
    requires 1 <= Count(m) <= 2
    ensures RoadTypeFromMask(Rotate(m)).Some? && RoadTypeFromMask(m).Some?
    ensures var r, r' := RoadTypeFromMask(m).value, RoadTypeFromMask(Rotate(m)).value;
            r'.kind == r.kind
            && r'.quarterTurns == (r.quarterTurns + 1) % (if r.kind == Straight then 2 else 4)
  {
  }

  // ------------------------------------------------------------ thickening

  /** The thickening step: every road tile also paves its east and south
      neighbours. */
  function Thicken(roads: set<Tile>): (r: set<Tile>)
    ensures roads <= r
    ensures forall t :: t in roads ==> Tile(t.x + 1, t.y) in r && Tile(t.x, t.y + 1) in r
  {
    roads + (set t | t in roads :: Tile(t.x + 1, t.y)) + (set t | t in roads :: Tile(t.x, t.y + 1))
  }

  /** Thickening adds nothing else: every new tile lies just east or just
      south of an original one. */
  lemma ThickenAddsOnlyNeighbours(roads: set<Tile>)
    ensures forall t :: t in Thicken(roads) ==> t in roads || Tile(t.x - 1, t.y) in roads || Tile(t.x, t.y - 1) in roads
  {
    forall t | t in Thicken(roads)
      ensures t in roads || Tile(t.x - 1, t.y) in roads || Tile(t.x, t.y - 1) in roads
    {
      if t !in roads && t in (set s | s in roads :: Tile(s.x + 1, s.y)) {
        var s :| s in roads && t == Tile(s.x + 1, s.y);
        assert Tile(t.x - 1, t.y) == s;
      } else if t !in roads {
        var s :| s in roads && t == Tile(s.x, s.y + 1);
        assert Tile(t.x, t.y - 1) == s;
      }
    }
  }

  /** Thickening is the least superset closed under one step east or south
      from an original tile: any such set contains it. */
  lemma ThickenIsLeast(roads: set<Tile>, s: set<Tile>)
    requires roads <= s
    requires forall t :: t in roads ==> Tile(t.x + 1, t.y) in s && Tile(t.x, t.y + 1) in s
    ensures Thicken(roads) <= s
  {
  }
}

=== FILE: timed_buildings.dfy ===
/** The timed building store of docs/js/systems/cityBuildings.js.

    The source keeps two JavaScript `Map`s whose values are the SAME mutable
    instance objects: `placed` (plot id to instance, iterated in insertion
    order) and `byId` (building id to instance). A command that mutates an
    instance reached through one map is seen through the other. The model
    keeps that sharing explicit: instances live in a heap `objs` under a
    reference, and both maps hold references.

    `Date.now()` is the explicit argument `now` (milliseconds); the global
    `state` is the `City` record; every command returns the new city. */
module TimedBuildings {
  import opened Common
  import opened Resources
  import JsMap
  import TimedCatalog
  import TimedDurations

  const MaxLevel: int := 20

  /** How many build or upgrade timers may run at once. */
  const QueueLimit: int := 2

  type PlotId = string
  type BuildingId = string
  type Ref = nat

  /** One placed building. Timestamps are milliseconds; 0 means "no timer". */
  datatype Instance = Instance(
    plotId: PlotId,
    buildingId: BuildingId,
    level: int,
    buildStartedAt: int,
    buildEndAt: int,
    upgradeStartedAt: int,
    upgradeEndAt: int,
    upgradingToLevel: int)

  /** The store plus the parts of the global state it reads and writes:
      `state.buildings.levels`, `state.buildings.townhallLevel`,
      `state.resources` and `state.settings.timersEnabled`. */
  datatype City = City(
    objs: map<Ref, Instance>,
    placed: JsMap.OMap<PlotId, Ref>,
    byId: map<BuildingId, Ref>,
    nextRef: Ref,
    levels: map<BuildingId, int>,
    townhallLevel: int,
    resources: Ledger,
    timersEnabled: bool)

  /** What the store is created with: the plot list (`CITY_PLOTS` ids) and
      the log-space interpolation used between duration anchors. */
  datatype Env = Env(plots: seq<PlotId>, interp: TimedDurations.Interp)

  datatype Reason =
    | UnknownBuilding
    | AlreadyBuilt
    | RequiresTownhall(level: int)
    | BuildersBusy
    | NoBuildingHere
    | ConstructionInProgress
    | AlreadyUpgrading
    | MaxLevelReached
    | RequiresBuilt(building: BuildingId)
    | BuildUnlocked(building: BuildingId, th: int)
    | UpgradeFirst(building: BuildingId, th: int)
    | UpgradeAllFirst(th: int)
    | PlotOccupied
    | NotEnoughResources
    | NothingToUpgrade

  /** `{ ok: true }` or `{ ok: false, reason }`. */
  datatype Check = Ok | Fail(reason: Reason)

  /** The answer of a command together with the city after it. */
  datatype Outcome = Outcome(check: Check, city: City)

  /** `inst.level || 1`. */
  function Lv(i: Instance): int {
    if i.level == 0 then 1 else i.level
  }

  predicate Constructing(i: Instance, now: int) {
    i.buildEndAt != 0 && i.buildEndAt > now
  }

  predicate Upgrading(i: Instance, now: int) {
    i.upgradeEndAt != 0 && i.upgradeEndAt > now
  }

  /** `isComplete(inst)`: no timer still running. */
  predicate IsComplete(i: Instance, now: int) {
    !Constructing(i, now) && !Upgrading(i, now)
  }

  /** The running timers of one instance: build and upgrade count apart. */
  function TimersOf(i: Instance, now: int): nat {
    (if Constructing(i, now) then 1 else 0) + (if Upgrading(i, now) then 1 else 0)
  }

  /** `placed.get(plotId)`. */
  function PlacedOn(c: City, plotId: PlotId): Option<Instance> {
    if plotId in c.placed.m && c.placed.m[plotId] in c.objs then Some(c.objs[c.placed.m[plotId]])
    else None
  }

  /** `byId.get(buildingId)`. */
  function ById(c: City, b: BuildingId): Option<Instance> {
    if b in c.byId && c.byId[b] in c.objs then Some(c.objs[c.byId[b]]) else None
  }

  function TimersAt(c: City, plotId: PlotId, now: int): nat {
    match PlacedOn(c, plotId)
    case None => 0
    case Some(i) => TimersOf(i, now)
  }

  /** The scan of `activeTimerCount` over the plots `ks`, in order. */
  function CountTimers(c: City, ks: seq<PlotId>, now: int): nat {
    if ks == [] then 0
    else CountTimers(c, ks[..|ks| - 1], now) + TimersAt(c, ks[|ks| - 1], now)
  }

  /** `activeTimerCount()`: scans every placed instance. */
  function ActiveTimerCount(c: City, now: int): nat {
    CountTimers(c, c.placed.keys, now)
  }

  /** `canStartAnotherTimer()`. */
  predicate CanStartAnotherTimer(c: City, now: int) {
    ActiveTimerCount(c, now) < QueueLimit
  }

  datatype Timer = BuildTimer | UpgradeTimer

  predicate Running(c: City, p: PlotId, t: Timer, now: int) {
    match PlacedOn(c, p)
    case None => false
    case Some(i) => if t == BuildTimer then Constructing(i, now) else Upgrading(i, now)
  }

  /** The running timers as a set of (plot, kind) pairs: the reference the
      counting scan is measured against. */
  function ActiveTimers(c: City, now: int): set<(PlotId, Timer)> {
    ActiveIn(c, c.placed.m.Keys, now)
  }

  /** The running timers of kind `t` on the plots `ps`. */
  function RunningSet(c: City, ps: set<PlotId>, t: Timer, now: int): set<(PlotId, Timer)> {
    set p | p in ps && Running(c, p, t, now) :: (p, t)
  }

  function ActiveIn(c: City, ps: set<PlotId>, now: int): set<(PlotId, Timer)> {
    RunningSet(c, ps, BuildTimer, now) + RunningSet(c, ps, UpgradeTimer, now)
  }

  datatype QueueInfo = QueueInfo(active: nat, max: int, full: bool)

  /** `getQueueInfoSafe()`. */
  function GetQueueInfo(c: City, now: int): (q: QueueInfo)
    ensures q.max == QueueLimit
    ensures q.full <==> !CanStartAnotherTimer(c, now)
    ensures JsMap.Valid(c.placed) ==> q.active == |ActiveTimers(c, now)|
  {
    var n := ActiveTimerCount(c, now);
    CountIsActiveTimers(c, now);
    QueueInfo(n, QueueLimit, n >= QueueLimit)
  }

  predicate Distinct(ks: seq<PlotId>) {
    forall i, j :: 0 <= i < j < |ks| ==> ks[i] != ks[j]
  }

  lemma RunningSetAdd(c: City, ps: set<PlotId>, k: PlotId, t: Timer, now: int)
    requires k !in ps
    ensures |RunningSet(c, ps + {k}, t, now)| == |RunningSet(c, ps, t, now)| + (if Running(c, k, t, now) then 1 else 0)
  {
    var extra: set<(PlotId, Timer)> := if Running(c, k, t, now) then {(k, t)} else {};
    assert RunningSet(c, ps + {k}, t, now) == RunningSet(c, ps, t, now) + extra;
    assert RunningSet(c, ps, t, now) !! extra;
  }

  lemma ActiveInSize(c: City, ps: set<PlotId>, now: int)
    ensures |ActiveIn(c, ps, now)| == |RunningSet(c, ps, BuildTimer, now)| + |RunningSet(c, ps, UpgradeTimer, now)|
  {
    assert RunningSet(c, ps, BuildTimer, now) !! RunningSet(c, ps, UpgradeTimer, now);
  }

  /** Counting over a list of distinct plots counts exactly the running
      timers of those plots. */
  lemma {:induction false} CountIsActiveIn(c: City, ks: seq<PlotId>, now: int)
    requires Distinct(ks)
    ensures CountTimers(c, ks, now) == |ActiveIn(c, JsMap.KeySet(ks), now)|
  {
    if ks == [] {
      assert JsMap.KeySet(ks) == {};
      assert RunningSet(c, {}, BuildTimer, now) == {};
      assert RunningSet(c, {}, UpgradeTimer, now) == {};
    } else {
      var init, k := ks[..|ks| - 1], ks[|ks| - 1];
      CountIsActiveIn(c, init, now);
      JsMap.KeySetAppend(init, k);
      assert ks == init + [k];
      assert k !in JsMap.KeySet(init);
      RunningSetAdd(c, JsMap.KeySet(init), k, BuildTimer, now);
      RunningSetAdd(c, JsMap.KeySet(init), k, UpgradeTimer, now);
      ActiveInSize(c, JsMap.KeySet(init), now);
      ActiveInSize(c, JsMap.KeySet(ks), now);
    }
  }

  /** On a well-formed plot map the scan counts every running build timer
      and every running upgrade timer, each once. */
  lemma CountIsActiveTimers(c: City, now: int)
    ensures JsMap.Valid(c.placed) ==> ActiveTimerCount(c, now) == |ActiveTimers(c, now)|
  {
    if JsMap.Valid(c.placed) {
      CountIsActiveIn(c, c.placed.keys, now);
    }
  }

  /** `TOWNHALL_UNLOCKS`: (town-hall level, building that becomes required
      from that level on), in ascending level order as `Object.entries`
      lists integer keys. */
  const Unlocks: seq<(int, BuildingId)> :=
    [(2, "farm"), (3, "lumber"), (4, "barracks"), (5, "quarry"), (6, "house"),
     (7, "mine"), (8, "academy"), (10, "commandcenter")]

  /** `TOWNHALL_UNLOCKS[level]`. */
  function UnlockAt(level: int): (b: Option<BuildingId>)
    ensures b.Some? <==> exists i :: 0 <= i < |Unlocks| && Unlocks[i].0 == level
    ensures b.Some? ==> (level, b.value) in Unlocks
  {
    UnlockIn(Unlocks, level)
  }

  /** `unlockedBuildingsUpTo(th)`: the buildings unlocked at or below `th`,
      in table order. */
  function UnlockedBuildingsUpTo(th: int): (r: seq<BuildingId>)
    ensures forall b :: b in r <==> exists i :: 0 <= i < |Unlocks| && Unlocks[i].0 <= th && Unlocks[i].1 == b
  {
    UnlockedIn(Unlocks, th)
  }

  function UnlockedIn(table: seq<(int, BuildingId)>, th: int): (r: seq<BuildingId>)
    ensures forall b :: b in r <==> exists i :: 0 <= i < |table| && table[i].0 <= th && table[i].1 == b
  {
    if table == [] then []
    else
      var rest := UnlockedIn(table[1..], th);
      assert forall i :: 0 < i < |table| ==> table[i] == table[1..][i - 1];
      if table[0].0 <= th then [table[0].1] + rest else rest
  }

  /** `getByBuildingId(id)`: the registered instance, only once complete. */
  function GetByBuildingId(c: City, b: BuildingId, now: int): (r: Option<Instance>)
    ensures r.Some? <==> ById(c, b).Some? && IsComplete(ById(c, b).value, now)
    ensures r.Some? ==> r == ById(c, b)
  {
    match ById(c, b)
    case None => None
    case Some(i) => if IsComplete(i, now) then Some(i) else None
  }

  /** `state.buildings.levels.townhall || 0`. */
  function RecordedTownhall(c: City): int {
    if "townhall" in c.levels then c.levels["townhall"] else 0
  }

  /** `canBuildBuilding(id)`. */
  function CanBuildBuilding(c: City, id: BuildingId, now: int): (r: Check)
    ensures r.Ok? <==>
      && TimedCatalog.Lookup(id).Some?
      && id !in c.byId
      && (var req := TimedCatalog.Lookup(id).value.minTownhallLevel.GetOr(0);
          req > 0 ==> RecordedTownhall(c) >= req)
      && (c.timersEnabled ==> ActiveTimerCount(c, now) < QueueLimit)
  {
    match TimedCatalog.Lookup(id)
    case None => Fail(UnknownBuilding)
    case Some(def) =>
      if id in c.byId then Fail(AlreadyBuilt)
      else
        var req := def.minTownhallLevel.GetOr(0);
        if req > 0 && RecordedTownhall(c) < req then Fail(RequiresTownhall(req))
        else if c.timersEnabled && !CanStartAnotherTimer(c, now) then Fail(BuildersBusy)
        else Ok
  }

  /** A building that is registered, complete and at level `th` or more. */
  predicate CaughtUp(c: City, b: BuildingId, th: int, now: int) {
    GetByBuildingId(c, b, now).Some? && Lv(GetByBuildingId(c, b, now).value) >= th
  }

  /** The loop over the required set: the first building missing or behind
      decides the answer. */
  function RequiredSetCheck(c: City, bs: seq<BuildingId>, th: int, now: int): (r: Check)
    ensures r.Ok? <==> forall k :: 0 <= k < |bs| ==> CaughtUp(c, bs[k], th, now)
  {
    if bs == [] then Ok
    else match GetByBuildingId(c, bs[0], now)
      case None => Fail(BuildUnlocked(bs[0], th))
      case Some(i) =>
        if Lv(i) < th then Fail(UpgradeFirst(bs[0], th))
        else
          var r := RequiredSetCheck(c, bs[1..], th, now);
          assert forall k :: 0 < k < |bs| ==> bs[k] == bs[1..][k - 1];
          r
  }

  /** A complete building other than the town hall, registered in `byId`,
      whose level is below `th`. */
  predicate Lagging(c: City, b: BuildingId, th: int, now: int) {
    && b != "townhall"
    && ById(c, b).Some?
    && IsComplete(ById(c, b).value, now)
    && Lv(ById(c, b).value) < th
  }

  /** The town-hall part of `canUpgradePlot` for a town hall at level `th`. */
  function TownhallGate(c: City, th: int, now: int): Check {
    var req := UnlockAt(th);
    if req.Some? && GetByBuildingId(c, req.value, now).None? then Fail(RequiresBuilt(req.value))
    else
      var chk := RequiredSetCheck(c, UnlockedBuildingsUpTo(th), th, now);
      if chk.Fail? then chk
      else if exists b :: b in c.byId && Lagging(c, b, th, now) then Fail(UpgradeAllFirst(th))
      else Ok
  }

  /** The "everyone must catch up" rule for upgrading a town hall from level
      `th`, stated over all buildings at once. */
  predicate TownhallRequirements(c: City, th: int, now: int) {
    && (UnlockAt(th).Some? ==> GetByBuildingId(c, UnlockAt(th).value, now).Some?)
    && (forall b :: b in UnlockedBuildingsUpTo(th) ==> CaughtUp(c, b, th, now))
    && (forall b :: b in c.byId ==> !Lagging(c, b, th, now))
  }

  /** The town-hall gate passes exactly when the requirements hold. */
  lemma TownhallGateMeaning(c: City, th: int, now: int)
    ensures TownhallGate(c, th, now).Ok? <==> TownhallRequirements(c, th, now)
  {
    var bs := UnlockedBuildingsUpTo(th);
    assert (forall b :: b in bs ==> CaughtUp(c, b, th, now))
      <==> (forall k :: 0 <= k < |bs| ==> CaughtUp(c, bs[k], th, now));
  }

  /** `canUpgradePlot(plotId)`. */
  function CanUpgradePlot(c: City, plotId: PlotId, now: int): (r: Check)
    ensures r.Ok? <==>
      && PlacedOn(c, plotId).Some?
      && IsComplete(PlacedOn(c, plotId).value, now)
      && Lv(PlacedOn(c, plotId).value) < MaxLevel
      && (c.timersEnabled ==> ActiveTimerCount(c, now) < QueueLimit)
      && (PlacedOn(c, plotId).value.buildingId == "townhall" ==>
            TownhallRequirements(c, Lv(PlacedOn(c, plotId).value), now))
  {
    match PlacedOn(c, plotId)
    case None => Fail(NoBuildingHere)
    case Some(i) =>
      if Constructing(i, now) then Fail(ConstructionInProgress)
      else if Upgrading(i, now) then Fail(AlreadyUpgrading)
      else if Lv(i) >= MaxLevel then Fail(MaxLevelReached)
      else if c.timersEnabled && !CanStartAnotherTimer(c, now) then Fail(BuildersBusy)
      else if i.buildingId == "townhall" then
        TownhallGateMeaning(c, Lv(i), now);
        TownhallGate(c, Lv(i), now)
      else Ok
  }

  /** `getStatus(plotId)` for an occupied plot. */
  datatype Status = Status(constructing: bool, buildRemainingMs: int, upgrading: bool,
                           upgradeRemainingMs: int, upgradingToLevel: int)

  /** `getStatus(plotId)`: `None` for an empty plot; each remaining time is
      positive exactly while its timer runs, and 0 otherwise. */
  function GetStatus(c: City, plotId: PlotId, now: int): (s: Option<Status>)
    ensures s.None? <==> PlacedOn(c, plotId).None?
    ensures s.Some? ==>
      var i := PlacedOn(c, plotId).value;
      && (s.value.constructing <==> Constructing(i, now))
      && (s.value.upgrading <==> Upgrading(i, now))
      && s.value.buildRemainingMs >= 0 && s.value.upgradeRemainingMs >= 0
      && (s.value.buildRemainingMs > 0 <==> Constructing(i, now))
      && (s.value.upgradeRemainingMs > 0 <==> Upgrading(i, now))
      && (s.value.upgradingToLevel != 0 ==> Upgrading(i, now))
  {
    match PlacedOn(c, plotId)
    case None => None
    case Some(i) =>
      var constructing, upgrading := Constructing(i, now), Upgrading(i, now);
      Some(Status(constructing, if constructing then i.buildEndAt - now else 0,
                  upgrading, if upgrading then i.upgradeEndAt - now else 0,
                  if !upgrading then 0
                  else if i.upgradingToLevel != 0 then i.upgradingToLevel
                  else i.level + 1))
  }

  /** A plot whose status shows a running timer cannot be upgraded, and the
      refusal names that timer; for a plot showing neither timer only the
      level cap, the queue and the town-hall rules remain. */
  lemma StatusBlocksUpgrade(c: City, plotId: PlotId, now: int)
    requires GetStatus(c, plotId, now).Some?
    ensures var s := GetStatus(c, plotId, now).value;
      && (s.constructing ==> CanUpgradePlot(c, plotId, now) == Fail(ConstructionInProgress))
      && (!s.constructing && s.upgrading ==> CanUpgradePlot(c, plotId, now) == Fail(AlreadyUpgrading))
  {
    var i := PlacedOn(c, plotId).value;
    assert GetStatus(c, plotId, now).value.constructing == Constructing(i, now);
    assert GetStatus(c, plotId, now).value.upgrading == Upgrading(i, now);
  }

  /** The counting scan only looks at the plot map and the instances. */
  lemma {:induction false} CountSameStore(c: City, c': City, ks: seq<PlotId>, now: int)
    requires c'.placed == c.placed && c'.objs == c.objs
    ensures CountTimers(c', ks, now) == CountTimers(c, ks, now)
  {
    if ks != [] {
      CountSameStore(c, c', ks[..|ks| - 1], now);
    }
  }

  /** `Math.max(1, Math.min(MAX_LEVEL, Number(level) || 1))`. */
  function ClampLevel(level: int): (l: int)
    ensures 1 <= l <= MaxLevel
    ensures 1 <= level <= MaxLevel ==> l == level
  {
    Clamp(if level == 0 then 1 else level, 1, MaxLevel)
  }

  /** The options of `placeBuildingOnPlot`. */
  datatype PlaceOpts = PlaceOpts(instant: bool, free: bool)

  /** `state.buildings.levels[id] = inst.level`, and the town-hall copy. */
  function RecordLevel(c: City, i: Instance): (r: City)
    ensures r == c.(levels := r.levels, townhallLevel := r.townhallLevel)
    ensures r.levels == c.levels[i.buildingId := i.level]
    ensures r.townhallLevel == if i.buildingId == "townhall" then i.level else c.townhallLevel
  {
    c.(levels := c.levels[i.buildingId := i.level],
       townhallLevel := if i.buildingId == "townhall" then i.level else c.townhallLevel)
  }

  /** A new instance object registered in both maps: `placed.set(plotId,
      inst)` (which replaces whatever the plot held) and `byId.set(id, inst)`,
      then its level recorded. */
  function Install(c: City, i: Instance): (r: City)
    ensures r.objs == c.objs[c.nextRef := i] && r.nextRef == c.nextRef + 1
    ensures r.placed == JsMap.Put(c.placed, i.plotId, c.nextRef)
    ensures r.byId == c.byId[i.buildingId := c.nextRef]
    ensures r.levels == c.levels[i.buildingId := i.level]
    ensures r.townhallLevel == if i.buildingId == "townhall" then i.level else c.townhallLevel
    ensures r.resources == c.resources && r.timersEnabled == c.timersEnabled
  {
    var ref := c.nextRef;
    RecordLevel(c.(objs := c.objs[ref := i], placed := JsMap.Put(c.placed, i.plotId, ref),
                   byId := c.byId[i.buildingId := ref], nextRef := ref + 1), i)
  }

  /** After `Install` the new object is what both maps return. */
  lemma InstallReaches(c: City, i: Instance)
    ensures PlacedOn(Install(c, i), i.plotId) == Some(i)
    ensures ById(Install(c, i), i.buildingId) == Some(i)
  {
  }

  /** The duration of a build or upgrade to `level`, in seconds. */
  function DurationSeconds(env: Env, id: BuildingId, level: int): int {
    TimedDurations.SecondsForTargetLevel(env.interp, id, level)
  }

  /** The instance literal of `placeBuildingOnPlot`, with its build timer
      started when `timed`. */
  function NewInstance(env: Env, plotId: PlotId, id: BuildingId, level: int, timed: bool, now: int): (i: Instance)
    ensures i.plotId == plotId && i.buildingId == id && i.level == ClampLevel(level)
    ensures i.upgradeStartedAt == 0 && i.upgradeEndAt == 0 && i.upgradingToLevel == 0
    ensures timed ==> i.buildStartedAt == now && i.buildEndAt == now + DurationSeconds(env, id, i.level) * 1000
    ensures !timed ==> i.buildStartedAt == 0 && i.buildEndAt == 0
  {
    var lvl := ClampLevel(level);
    var base := Instance(plotId, id, lvl, 0, 0, 0, 0, 0);
    if timed then base.(buildStartedAt := now, buildEndAt := now + DurationSeconds(env, id, lvl) * 1000)
    else base
  }

  /** `placeBuildingOnPlot(plotId, id, level, opts)`. The source checks the
      queue a second time after paying; with timers on and a paid build the
      gate has already checked it, so that failure never fires. */
  function PlaceBuildingOnPlot(env: Env, c: City, plotId: PlotId, id: BuildingId, level: int,
                               opts: PlaceOpts, now: int): (r: Outcome)
    ensures plotId in c.placed.m ==> r == Outcome(Fail(PlotOccupied), c)
    ensures r.check.Fail? ==> r.city == c
    ensures r.check.Ok? ==>
      && plotId !in c.placed.m
      && TimedCatalog.Lookup(id).Some?
      && (!opts.free ==> CanBuildBuilding(c, id, now).Ok?
                         && CanAfford(c.resources, TimedCatalog.Lookup(id).value.cost))
      && r.city.resources == (if opts.free then c.resources
                              else Spend(c.resources, TimedCatalog.Lookup(id).value.cost))
      && r.city.placed.keys == c.placed.keys + [plotId]
      && r.city.objs == c.objs[c.nextRef := NewInstance(env, plotId, id, level,
                             c.timersEnabled && !opts.instant && !opts.free, now)]
      && PlacedOn(r.city, plotId) == ById(r.city, id) == Some(r.city.objs[c.nextRef])
      && r.city.levels == c.levels[id := ClampLevel(level)]
  {
    if plotId in c.placed.m then Outcome(Fail(PlotOccupied), c)
    else match TimedCatalog.Lookup(id)
      case None => Outcome(Fail(UnknownBuilding), c)
      case Some(def) =>
        var gate := if opts.free then Ok else CanBuildBuilding(c, id, now);
        if gate.Fail? then Outcome(gate, c)
        else if !opts.free && !CanAfford(c.resources, def.cost) then Outcome(Fail(NotEnoughResources), c)
        else
          var c1 := if opts.free then c else c.(resources := Spend(c.resources, def.cost));
          var timed := c1.timersEnabled && !opts.instant && !opts.free;
          CountSameStore(c, c1, c.placed.keys, now);
          if timed && !CanStartAnotherTimer(c1, now) then Outcome(Fail(BuildersBusy), c1)
          else
            var i := NewInstance(env, plotId, id, level, timed, now);
            InstallReaches(c1, i);
            Outcome(Ok, Install(c1, i))
  }

  /** Replaces the instance object `ref` (a mutation seen through both maps). */
  function SetInstance(c: City, ref: Ref, i: Instance): (r: City)
    ensures r == c.(objs := c.objs[ref := i])
  {
    c.(objs := c.objs[ref := i])
  }

  /** `upgradePlot(plotId)`. Costs come from `upgradeCost(level)`; with
      timers off the level rises at once, otherwise an upgrade timer starts.
      The second queue check after paying never fires, for the same reason
      as in `placeBuildingOnPlot`. */
  function UpgradePlot(env: Env, c: City, plotId: PlotId, now: int): (r: Outcome)
    ensures r.check.Fail? ==> r.city == c
    ensures r.check.Ok? ==>
      && CanUpgradePlot(c, plotId, now).Ok?
      && var ref := c.placed.m[plotId];
      && var i := c.objs[ref];
      && var cost := TimedCatalog.UpgradeCost(i.buildingId, Lv(i));
      && (cost.Some? ==> CanAfford(c.resources, cost.value))
      && r.city.resources == (if cost.Some? then Spend(c.resources, cost.value) else c.resources)
      && r.city.placed == c.placed && r.city.byId == c.byId
      && r.city.nextRef == c.nextRef && r.city.timersEnabled == c.timersEnabled
      && r.city.objs.Keys == c.objs.Keys
      && (forall q :: q in c.objs && q != ref ==> r.city.objs[q] == c.objs[q])
      && var j := r.city.objs[ref];
      && j.plotId == i.plotId && j.buildingId == i.buildingId
      && j.buildStartedAt == i.buildStartedAt && j.buildEndAt == i.buildEndAt
      && (!c.timersEnabled ==>
            && j.level == Lv(i) + 1
            && j.upgradeStartedAt == 0 && j.upgradeEndAt == 0 && j.upgradingToLevel == 0
            && r.city.levels == c.levels[i.buildingId := Lv(i) + 1])
      && (c.timersEnabled ==>
            && j.level == i.level
            && j.upgradingToLevel == Lv(i) + 1
            && j.upgradeStartedAt == now
            && j.upgradeEndAt == now + DurationSeconds(env, i.buildingId, Lv(i) + 1) * 1000
            && r.city.levels == c.levels)
  {
    match PlacedOn(c, plotId)
    case None => Outcome(Fail(NothingToUpgrade), c)
    case Some(i) =>
      var chk := CanUpgradePlot(c, plotId, now);
      if chk.Fail? then Outcome(chk, c)
      else
        var ref := c.placed.m[plotId];
        var current := Lv(i);
        var target := current + 1;
        var cost := TimedCatalog.UpgradeCost(i.buildingId, current);
        if cost.Some? && !CanAfford(c.resources, cost.value) then Outcome(Fail(NotEnoughResources), c)
        else
          var c1 := if cost.Some? then c.(resources := Spend(c.resources, cost.value)) else c;
          CountSameStore(c, c1, c.placed.keys, now);
          if !c1.timersEnabled then
            var j := i.(level := target, upgradeStartedAt := 0, upgradeEndAt := 0, upgradingToLevel := 0);
            Outcome(Ok, RecordLevel(SetInstance(c1, ref, j), j))
          else if !CanStartAnotherTimer(c1, now) then Outcome(Fail(BuildersBusy), c1)
          else
            var j := i.(upgradeStartedAt := now,
                        upgradeEndAt := now + DurationSeconds(env, i.buildingId, target) * 1000,
                        upgradingToLevel := target);
            Outcome(Ok, SetInstance(c1, ref, j))
  }

  /** A plot whose id, lower-cased, contains "townhall". */
  predicate IsTownhallPlot(p: PlotId) {
    Contains(ToLower(p), "townhall")
  }

  /** `CITY_PLOTS.find(p => String(p.id).toLowerCase().includes("townhall"))`. */
  function FindTownhallPlot(plots: seq<PlotId>): (r: Option<PlotId>)
    ensures r.None? <==> forall k :: 0 <= k < |plots| ==> !IsTownhallPlot(plots[k])
    ensures r.Some? ==> exists k :: 0 <= k < |plots| && plots[k] == r.value && IsTownhallPlot(r.value)
                                   && (forall j :: 0 <= j < k ==> !IsTownhallPlot(plots[j]))
  {
    if plots == [] then None
    else if IsTownhallPlot(plots[0]) then Some(plots[0])
    else
      var r := FindTownhallPlot(plots[1..]);
      assert forall k :: 0 < k < |plots| ==> plots[k] == plots[1..][k - 1];
      if r.Some? then
        ghost var k :| 0 <= k < |plots[1..]| && plots[1..][k] == r.value && IsTownhallPlot(r.value)
                       && (forall j :: 0 <= j < k ==> !IsTownhallPlot(plots[1..][j]));
        assert plots[k + 1] == r.value;
        r
      else r
  }

  /** `pickTownhallPlotId()`: the first town-hall plot, else the first plot
      (unless its id is empty), else "plot_0". */
  function PickTownhallPlotId(plots: seq<PlotId>): (p: PlotId)
    ensures p == "plot_0" || p in plots
    ensures (exists k :: 0 <= k < |plots| && IsTownhallPlot(plots[k])) ==> IsTownhallPlot(p) && p in plots
  {
    match FindTownhallPlot(plots)
    case Some(p) => p
    case None => if plots != [] && plots[0] != "" then plots[0] else "plot_0"
  }

  /** The instance `ensureTownhall` seeds: a level-1 town hall, no timers. */
  function SeededTownhall(plotId: PlotId): Instance {
    Instance(plotId, "townhall", 1, 0, 0, 0, 0, 0)
  }

  /** `ensureTownhall()`: nothing when a town hall is registered, otherwise a
      level-1 town hall on the picked plot (replacing what that plot held). */
  function EnsureTownhall(env: Env, c: City): (r: Outcome)
    ensures r.check.Ok?
    ensures "townhall" in c.byId ==> r.city == c
    ensures "townhall" !in c.byId ==>
      var p := PickTownhallPlotId(env.plots);
      && PlacedOn(r.city, p) == ById(r.city, "townhall") == Some(SeededTownhall(p))
      && r.city.levels == c.levels["townhall" := 1] && r.city.townhallLevel == 1
      && r.city.resources == c.resources
    ensures "townhall" in r.city.byId
  {
    if "townhall" in c.byId then Outcome(Ok, c)
    else
      var i := SeededTownhall(PickTownhallPlotId(env.plots));
      InstallReaches(c, i);
      Outcome(Ok, Install(c, i))
  }

  /** One saved record. `None` stands for a field that is missing, `null`,
      not a number or 0: the source reads all of those as its default. */
  datatype SaveRecord = SaveRecord(
    plotId: PlotId,
    buildingId: BuildingId,
    level: Option<int>,
    buildStartedAt: Option<int>,
    buildEndAt: Option<int>,
    upgradeStartedAt: Option<int>,
    upgradeEndAt: Option<int>,
    upgradingToLevel: Option<int>)

  /** The saved timer fields copied onto a freshly placed instance. */
  function Restored(i: Instance, rec: SaveRecord): Instance {
    i.(buildStartedAt := rec.buildStartedAt.GetOr(0),
       buildEndAt := rec.buildEndAt.GetOr(0),
       upgradeStartedAt := rec.upgradeStartedAt.GetOr(0),
       upgradeEndAt := rec.upgradeEndAt.GetOr(0),
       upgradingToLevel := rec.upgradingToLevel.GetOr(0))
  }

  /** One iteration of the `hydrateFromSave` loop: a free, instant placement;
      a record whose placement fails is skipped. */
  function HydrateOne(env: Env, c: City, rec: SaveRecord): (r: City)
    ensures rec.plotId in c.placed.m || TimedCatalog.Lookup(rec.buildingId).None? ==> r == c
    ensures rec.plotId !in c.placed.m && TimedCatalog.Lookup(rec.buildingId).Some? ==>
      && r.placed.keys == c.placed.keys + [rec.plotId]
      && r.nextRef == c.nextRef + 1
      && c.nextRef in r.objs
      && r.objs == c.objs[c.nextRef := r.objs[c.nextRef]]
      && PlacedOn(r, rec.plotId) == ById(r, rec.buildingId) == Some(r.objs[c.nextRef])
      && r.objs[c.nextRef].level == ClampLevel(rec.level.GetOr(1))
  {
    var lvl := Clamp(rec.level.GetOr(1), 1, MaxLevel);
    // A free placement reads neither the clock nor the queue.
    var placedOut := PlaceBuildingOnPlot(env, c, rec.plotId, rec.buildingId, lvl, PlaceOpts(true, true), 0);
    if placedOut.check.Fail? then c
    else
      var c1 := placedOut.city;
      var ref := c1.placed.m[rec.plotId];
      var i := Restored(c1.objs[ref], rec);
      RecordLevel(SetInstance(c1, ref, i), i)
  }

  function HydrateAll(env: Env, c: City, recs: seq<SaveRecord>): City
    decreases |recs|
  {
    if recs == [] then c else HydrateAll(env, HydrateOne(env, c, recs[0]), recs[1..])
  }

  /** `hydrateFromSave(records)`: both maps are cleared first; the recorded
      levels and the resources are kept. */
  function HydrateFromSave(env: Env, c: City, recs: seq<SaveRecord>): City {
    HydrateAll(env, c.(placed := JsMap.Empty(), byId := map[]), recs)
  }

  /** Which timers a sweep finishes: `tick` the due ones, `finishAllTimersNow`
      the ones still running. */
  datatype Sweep = DueSweep | EarlySweep

  predicate Fires(mode: Sweep, endAt: int, now: int) {
    endAt != 0 && (if mode == DueSweep then endAt <= now else endAt > now)
  }

  predicate Quiet(i: Instance, now: int, mode: Sweep) {
    !Fires(mode, i.buildEndAt, now) && !Fires(mode, i.upgradeEndAt, now)
  }

  /** The loop body of `tick` / `finishAllTimersNow` on one instance: a
      firing build timer is cleared; a firing upgrade timer is cleared and
      the level becomes `max(level || 1, upgradingToLevel || level + 1)`. */
  function Advance(i: Instance, now: int, mode: Sweep): (j: Instance)
    ensures j.plotId == i.plotId && j.buildingId == i.buildingId
    ensures j.level >= i.level && Lv(j) >= Lv(i)
    ensures Quiet(j, now, mode)
    ensures Quiet(i, now, mode) ==> j == i
    ensures mode == DueSweep ==> Constructing(j, now) == Constructing(i, now) && Upgrading(j, now) == Upgrading(i, now)
    ensures mode == EarlySweep ==> IsComplete(j, now)
    ensures Fires(mode, i.upgradeEndAt, now) ==>
      j.level == (if i.upgradingToLevel == 0 then Lv(i) + 1 else Max(Lv(i), i.upgradingToLevel))
      && j.upgradingToLevel == 0
    ensures !Fires(mode, i.upgradeEndAt, now) ==> j.level == i.level
  {
    var b := if Fires(mode, i.buildEndAt, now) then i.(buildEndAt := 0, buildStartedAt := 0) else i;
    if Fires(mode, i.upgradeEndAt, now) then
      var target := if i.upgradingToLevel != 0 then i.upgradingToLevel else Lv(i) + 1;
      b.(upgradeEndAt := 0, upgradeStartedAt := 0, level := Max(Lv(i), target), upgradingToLevel := 0)
    else b
  }

  datatype Swept = Swept(changed: bool, city: City)

  /** The sweep over the plots `ks` (the keys of `placed`, in order). */
  function SweepFrom(c: City, ks: seq<PlotId>, now: int, mode: Sweep): (r: Swept)
    ensures r.city.placed == c.placed && r.city.byId == c.byId && r.city.nextRef == c.nextRef
    ensures r.city.resources == c.resources && r.city.timersEnabled == c.timersEnabled
    ensures r.city.objs.Keys == c.objs.Keys
    ensures forall q :: q in c.objs && Quiet(c.objs[q], now, mode) ==> r.city.objs[q] == c.objs[q]
    ensures !r.changed ==> r.city == c
    ensures forall k :: 0 <= k < |ks| && PlacedOn(r.city, ks[k]).Some? ==> Quiet(PlacedOn(r.city, ks[k]).value, now, mode)
    decreases |ks|
  {
    if ks == [] then Swept(false, c)
    else
      var first := SweepPlot(c, ks[0], now, mode);
      var rest := SweepFrom(first.city, ks[1..], now, mode);
      assert forall k :: 0 < k < |ks| ==> ks[k] == ks[1..][k - 1];
      QuietStays(first.city, rest.city, ks[0], now, mode);
      Swept(first.changed || rest.changed, rest.city)
  }

  /** Some plot among `ks` holds an instance whose timer this sweep fires. */
  predicate SomeFires(c: City, ks: seq<PlotId>, now: int, mode: Sweep) {
    exists k :: 0 <= k < |ks| && PlacedOn(c, ks[k]).Some? && !Quiet(PlacedOn(c, ks[k]).value, now, mode)
  }

  /** `changed` is honest both ways: a sweep reports a change exactly when
      some swept plot held a timer that fires. */
  lemma {:induction false} SweepChangedIffFires(c: City, ks: seq<PlotId>, now: int, mode: Sweep)
    ensures SweepFrom(c, ks, now, mode).changed <==> SomeFires(c, ks, now, mode)
    decreases |ks|
  {
    var r := SweepFrom(c, ks, now, mode);
    if ks != [] && r.changed {
      var first := SweepPlot(c, ks[0], now, mode);
      if !first.changed {
        SweepChangedIffFires(first.city, ks[1..], now, mode);
        var k :| 0 <= k < |ks[1..]| && PlacedOn(first.city, ks[1..][k]).Some?
          && !Quiet(PlacedOn(first.city, ks[1..][k]).value, now, mode);
        assert PlacedOn(c, ks[k + 1]) == PlacedOn(first.city, ks[1..][k]);
      } else {
        assert PlacedOn(c, ks[0]).Some? && !Quiet(PlacedOn(c, ks[0]).value, now, mode);
      }
    }
  }

  /** What a sweep may do to the recorded levels between `c` and `d`: no key
      is lost; a changed entry is the level of a quieted instance of that
      building; and a changed town-hall level, or town-hall entry, is the
      town-hall entry of `d`. */
  ghost predicate LevelsFollowInstances(c: City, d: City, now: int, mode: Sweep) {
    && c.levels.Keys <= d.levels.Keys
    && (forall b :: b in d.levels && (b !in c.levels || d.levels[b] != c.levels[b]) ==>
          HeldByQuiet(d, b, d.levels[b], now, mode))
    && (d.townhallLevel != c.townhallLevel
        || ("townhall" in d.levels && ("townhall" !in c.levels || d.levels["townhall"] != c.levels["townhall"]))
        ==> "townhall" in d.levels && d.townhallLevel == d.levels["townhall"])
  }

  /** Some quiet instance of building `b` sits at `level`. */
  ghost predicate HeldByQuiet(d: City, b: BuildingId, level: int, now: int, mode: Sweep) {
    exists q :: q in d.objs && Quiet(d.objs[q], now, mode) && d.objs[q].buildingId == b && d.objs[q].level == level
  }

  lemma SweepPlotLevels(c: City, p: PlotId, now: int, mode: Sweep)
    ensures LevelsFollowInstances(c, SweepPlot(c, p, now, mode).city, now, mode)
  {
    var d := SweepPlot(c, p, now, mode).city;
    if PlacedOn(c, p).Some? && Fires(mode, PlacedOn(c, p).value.upgradeEndAt, now) {
      var ref := c.placed.m[p];
      var j := Advance(PlacedOn(c, p).value, now, mode);
      assert d.objs[ref] == j;
      forall b | b in d.levels && (b !in c.levels || d.levels[b] != c.levels[b])
        ensures HeldByQuiet(d, b, d.levels[b], now, mode)
      {
        assert b == j.buildingId;
      }
    }
  }

  lemma LevelsFollowChain(c: City, d: City, e: City, now: int, mode: Sweep)
    requires LevelsFollowInstances(c, d, now, mode) && LevelsFollowInstances(d, e, now, mode)
    requires d.objs.Keys == e.objs.Keys
    requires forall q :: q in d.objs && Quiet(d.objs[q], now, mode) ==> e.objs[q] == d.objs[q]
    ensures LevelsFollowInstances(c, e, now, mode)
  {
    forall b | b in e.levels && (b !in c.levels || e.levels[b] != c.levels[b])
      ensures HeldByQuiet(e, b, e.levels[b], now, mode)
    {
      if b in d.levels && e.levels[b] == d.levels[b] {
        var q :| q in d.objs && Quiet(d.objs[q], now, mode) && d.objs[q].buildingId == b && d.objs[q].level == d.levels[b];
        assert e.objs[q] == d.objs[q];
      }
    }
  }

  /** A sweep writes only the levels of the instances it advanced, keeps every
      recorded key, and keeps the town-hall copy in step with its entry. */
  lemma {:induction false} SweepLevels(c: City, ks: seq<PlotId>, now: int, mode: Sweep)
    ensures LevelsFollowInstances(c, SweepFrom(c, ks, now, mode).city, now, mode)
    decreases |ks|
  {
    if ks != [] {
      var first := SweepPlot(c, ks[0], now, mode);
      SweepPlotLevels(c, ks[0], now, mode);
      SweepLevels(first.city, ks[1..], now, mode);
      LevelsFollowChain(c, first.city, SweepFrom(first.city, ks[1..], now, mode).city, now, mode);
    }
  }

  /** A later step of a sweep never wakes a timer an earlier step quieted. */
  lemma QuietStays(c: City, c': City, p: PlotId, now: int, mode: Sweep)
    requires c'.placed == c.placed && c'.objs.Keys == c.objs.Keys
    requires forall q :: q in c.objs && Quiet(c.objs[q], now, mode) ==> c'.objs[q] == c.objs[q]
    ensures PlacedOn(c, p).Some? && Quiet(PlacedOn(c, p).value, now, mode) ==>
      PlacedOn(c', p) == PlacedOn(c, p)
  {
  }

  /** One step of the sweep: the instance on plot `p`, if any, advanced. */
  function SweepPlot(c: City, p: PlotId, now: int, mode: Sweep): (r: Swept)
    ensures r.city.placed == c.placed && r.city.byId == c.byId && r.city.nextRef == c.nextRef
    ensures r.city.resources == c.resources && r.city.timersEnabled == c.timersEnabled
    ensures r.city.objs.Keys == c.objs.Keys
    ensures forall q :: q in c.objs && Quiet(c.objs[q], now, mode) ==> r.city.objs[q] == c.objs[q]
    ensures !r.changed ==> r.city == c
    ensures PlacedOn(r.city, p).Some? ==> Quiet(PlacedOn(r.city, p).value, now, mode)
  {
    match PlacedOn(c, p)
    case None => Swept(false, c)
    case Some(i) =>
      var ref := c.placed.m[p];
      var j := Advance(i, now, mode);
      var c1 := SetInstance(c, ref, j);
      if Fires(mode, i.upgradeEndAt, now) then Swept(true, RecordLevel(c1, j))
      else Swept(Fires(mode, i.buildEndAt, now), c1)
  }

  /** `tick()`: finishes every timer that is due at `now`; `changed` tells
      whether anything happened. */
  function Tick(c: City, now: int): Swept {
    SweepFrom(c, c.placed.keys, now, DueSweep)
  }

  /** `tick()` reports a change exactly when some placed plot has a build or
      upgrade timer that is due at `now`. */
  lemma TickChangedIffDue(c: City, now: int)
    ensures Tick(c, now).changed <==>
      exists k :: 0 <= k < |c.placed.keys| && PlacedOn(c, c.placed.keys[k]).Some?
        && (Fires(DueSweep, PlacedOn(c, c.placed.keys[k]).value.buildEndAt, now)
            || Fires(DueSweep, PlacedOn(c, c.placed.keys[k]).value.upgradeEndAt, now))
  {
    SweepChangedIffFires(c, c.placed.keys, now, DueSweep);
  }

  /** `finishAllTimersNow()`: finishes every timer still running at `now`. */
  function FinishAllTimersNow(c: City, now: int): Swept {
    SweepFrom(c, c.placed.keys, now, EarlySweep)
  }
}

=== FILE: timed_buildings_props.dfy ===
/** Properties of the timed building store (docs/js/systems/cityBuildings.js):
    the sweeps, the global queue bound and the per-instance invariants that
    every command keeps. */
module TimedBuildingsProps {
  import opened Common
  import opened Resources
  import JsMap
  import TimedCatalog
  import TimedDurations
  import opened TimedBuildings

  // ---------------------------------------------------------------------
  // Counting running timers

  /** If no listed plot gains a timer, except possibly `d` on plot `k`, the
      scan grows by at most `d`. The clocks of the two cities may differ. */
  lemma {:induction false} CountLe(c: City, now: int, c': City, now': int, ks: seq<PlotId>, k: PlotId, d: nat)
    requires Distinct(ks)
    requires forall j :: 0 <= j < |ks| ==>
      TimersAt(c', ks[j], now') <= TimersAt(c, ks[j], now) + (if ks[j] == k then d else 0)
    ensures CountTimers(c', ks, now') <= CountTimers(c, ks, now) + (if k in ks then d else 0)
  {
    if ks != [] {
      var init := ks[..|ks| - 1];
      assert forall j :: 0 <= j < |init| ==> init[j] == ks[j];
      assert ks == init + [ks[|ks| - 1]];
      CountLe(c, now, c', now', init, k, d);
      if ks[|ks| - 1] == k {
        assert k !in init;
      }
    }
  }

  /** Plots whose running timers agree give the same count. */
  lemma {:induction false} CountEq(c: City, c': City, ks: seq<PlotId>, now: int)
    requires forall j :: 0 <= j < |ks| ==> TimersAt(c', ks[j], now) == TimersAt(c, ks[j], now)
    ensures CountTimers(c', ks, now) == CountTimers(c, ks, now)
  {
    if ks != [] {
      var init := ks[..|ks| - 1];
      assert forall j :: 0 <= j < |init| ==> init[j] == ks[j];
      CountEq(c, c', init, now);
    }
  }

  /** A scan over plots without running timers counts 0. */
  lemma {:induction false} CountZero(c: City, ks: seq<PlotId>, now: int)
    requires forall j :: 0 <= j < |ks| ==> TimersAt(c, ks[j], now) == 0
    ensures CountTimers(c, ks, now) == 0
  {
    if ks != [] {
      var init := ks[..|ks| - 1];
      assert forall j :: 0 <= j < |init| ==> init[j] == ks[j];
      CountZero(c, init, now);
    }
  }

  /** The scan over one more plot adds that plot's timers. */
  lemma CountAppend(c: City, ks: seq<PlotId>, p: PlotId, now: int)
    ensures CountTimers(c, ks + [p], now) == CountTimers(c, ks, now) + TimersAt(c, p, now)
  {
    assert (ks + [p])[..|ks|] == ks;
  }

  /** Timers only stop running as time passes. */
  lemma CountLater(c: City, now: int, now': int)
    requires JsMap.Valid(c.placed) && now <= now'
    ensures ActiveTimerCount(c, now') <= ActiveTimerCount(c, now)
  {
    CountLe(c, now, c, now', c.placed.keys, "", 0);
  }

  // ---------------------------------------------------------------------
  // Sweeps: tick and finishAllTimersNow

  /** How a sweep may change one instance object: not at all, or advanced
      once (advancing twice is advancing once). */
  predicate Steps(i: Instance, j: Instance, now: int, mode: Sweep) {
    j == i || j == Advance(i, now, mode)
  }

  /** Steps compose: the second step of an advanced object changes nothing. */
  lemma StepsTrans(i: Instance, j: Instance, k: Instance, now: int, mode: Sweep)
    requires Steps(i, j, now, mode) && Steps(j, k, now, mode)
    ensures Steps(i, k, now, mode)
  {
    if j == Advance(i, now, mode) {
      assert Advance(j, now, mode) == j;
    }
  }

  lemma SweepPlotSteps(c: City, p: PlotId, now: int, mode: Sweep)
    ensures forall q :: q in c.objs ==> Steps(c.objs[q], SweepPlot(c, p, now, mode).city.objs[q], now, mode)
  {
  }

  lemma {:induction false} SweepSteps(c: City, ks: seq<PlotId>, now: int, mode: Sweep)
    ensures forall q :: q in c.objs ==> Steps(c.objs[q], SweepFrom(c, ks, now, mode).city.objs[q], now, mode)
    decreases |ks|
  {
    if ks != [] {
      var first := SweepPlot(c, ks[0], now, mode).city;
      var last := SweepFrom(c, ks, now, mode).city;
      assert last == SweepFrom(first, ks[1..], now, mode).city;
      SweepPlotSteps(c, ks[0], now, mode);
      SweepSteps(first, ks[1..], now, mode);
      forall q | q in c.objs
        ensures Steps(c.objs[q], last.objs[q], now, mode)
      {
        StepsTrans(c.objs[q], first.objs[q], last.objs[q], now, mode);
      }
    }
  }

  /** What a step keeps of one object. */
  lemma StepKeeps(i: Instance, j: Instance, now: int, mode: Sweep)
    requires Steps(i, j, now, mode) && Sane(i) && NotBoth(i, now)
    ensures Sane(j) && NotBoth(j, now)
    ensures j.plotId == i.plotId && j.buildingId == i.buildingId
  {
  }

  /** A sweep over plots that are all quiet changes nothing. */
  lemma {:induction false} SweepQuiet(c: City, ks: seq<PlotId>, now: int, mode: Sweep)
    requires forall k :: 0 <= k < |ks| && PlacedOn(c, ks[k]).Some? ==> Quiet(PlacedOn(c, ks[k]).value, now, mode)
    ensures SweepFrom(c, ks, now, mode) == Swept(false, c)
    decreases |ks|
  {
    if ks != [] {
      assert forall k :: 0 < k < |ks| ==> ks[k] == ks[1..][k - 1];
      assert SweepPlot(c, ks[0], now, mode) == Swept(false, c);
      SweepQuiet(c, ks[1..], now, mode);
    }
  }

  /** `tick` is idempotent at a fixed `now`: a second call reports no change
      and changes nothing. */
  lemma TickIdempotent(c: City, now: int)
    ensures Tick(Tick(c, now).city, now) == Swept(false, Tick(c, now).city)
  {
    SweepQuiet(Tick(c, now).city, c.placed.keys, now, DueSweep);
  }

  /** The same holds of `finishAllTimersNow`. */
  lemma FinishAllIdempotent(c: City, now: int)
    ensures FinishAllTimersNow(FinishAllTimersNow(c, now).city, now)
      == Swept(false, FinishAllTimersNow(c, now).city)
  {
    SweepQuiet(FinishAllTimersNow(c, now).city, c.placed.keys, now, EarlySweep);
  }

  /** After `tick(now)` no placed instance holds a timer that is due at
      `now`, no level is lower than before, and the timers still running
      are exactly those that ran before. */
  lemma TickEffect(c: City, now: int)
    requires JsMap.Valid(c.placed)
    ensures var t := Tick(c, now).city;
      && t.placed == c.placed && t.byId == c.byId && t.resources == c.resources
      && (forall p :: PlacedOn(t, p).Some? ==>
            !Fires(DueSweep, PlacedOn(t, p).value.buildEndAt, now)
            && !Fires(DueSweep, PlacedOn(t, p).value.upgradeEndAt, now))
      && (forall p :: PlacedOn(c, p).Some? ==>
            PlacedOn(t, p).Some? && PlacedOn(t, p).value.level >= PlacedOn(c, p).value.level)
      && ActiveTimerCount(t, now) == ActiveTimerCount(c, now)
  {
    var t := Tick(c, now).city;
    SweepSteps(c, c.placed.keys, now, DueSweep);
    forall p | PlacedOn(t, p).Some?
      ensures !Fires(DueSweep, PlacedOn(t, p).value.buildEndAt, now)
      ensures !Fires(DueSweep, PlacedOn(t, p).value.upgradeEndAt, now)
    {
      PlacedKey(c, p);
      var k :| 0 <= k < |c.placed.keys| && c.placed.keys[k] == p;
    }
    forall p | PlacedOn(c, p).Some?
      ensures PlacedOn(t, p).Some? && PlacedOn(t, p).value.level >= PlacedOn(c, p).value.level
    {
      assert Steps(c.objs[c.placed.m[p]], t.objs[c.placed.m[p]], now, DueSweep);
    }
    forall j | 0 <= j < |c.placed.keys|
      ensures TimersAt(t, c.placed.keys[j], now) == TimersAt(c, c.placed.keys[j], now)
    {
      var p := c.placed.keys[j];
      if PlacedOn(c, p).Some? {
        assert Steps(c.objs[c.placed.m[p]], t.objs[c.placed.m[p]], now, DueSweep);
      }
    }
    CountEq(c, t, c.placed.keys, now);
  }

  /** Every plot that holds an instance is one of the keys the sweep visits. */
  lemma PlacedKey(c: City, p: PlotId)
    ensures PlacedOn(c, p).Some? && JsMap.Valid(c.placed) ==> p in c.placed.keys
  {
  }

  /** After `finishAllTimersNow(now)` no timer runs at `now`. */
  lemma FinishAllEmptiesQueue(c: City, now: int)
    requires JsMap.Valid(c.placed)
    ensures ActiveTimerCount(FinishAllTimersNow(c, now).city, now) == 0
  {
    var f := FinishAllTimersNow(c, now).city;
    forall j | 0 <= j < |c.placed.keys|
      ensures TimersAt(f, c.placed.keys[j], now) == 0
    {
    }
    CountZero(f, c.placed.keys, now);
  }

  // ---------------------------------------------------------------------
  // The store invariant

  /** The two maps agree with the heap: every plot and every building id
      points at a live object that names that plot or building, and the next
      reference is fresh. (Two plots never share an object, because the
      object names its plot.) */
  ghost predicate Structure(c: City) {
    && JsMap.Valid(c.placed)
    && (forall p :: p in c.placed.m ==> c.placed.m[p] in c.objs && c.objs[c.placed.m[p]].plotId == p)
    && (forall b :: b in c.byId ==> c.byId[b] in c.objs && c.objs[c.byId[b]].buildingId == b)
    && (forall q :: q in c.objs ==> q < c.nextRef)
  }

  /** The level is in 1..20, a pending upgrade targets the next level, and
      an upgrade timer always knows its target. */
  predicate Sane(i: Instance) {
    && 1 <= i.level <= MaxLevel
    && (i.upgradingToLevel == 0 || (i.upgradingToLevel == i.level + 1 && i.level < MaxLevel))
    && (i.upgradeEndAt != 0 ==> i.upgradingToLevel != 0)
  }

  /** Never constructing and upgrading at once. */
  predicate NotBoth(i: Instance, now: int) {
    !(Constructing(i, now) && Upgrading(i, now))
  }

  /** What every command keeps at a fixed `now`: a well-formed store, sane
      instances and at most `QueueLimit` running timers. */
  ghost predicate Inv(c: City, now: int) {
    && Structure(c)
    && (forall q :: q in c.objs ==> Sane(c.objs[q]) && NotBoth(c.objs[q], now))
    && ActiveTimerCount(c, now) <= QueueLimit
  }

  /** Installing a fresh object leaves every other plot as it was. */
  lemma InstallOthers(c: City, i: Instance, p: PlotId)
    requires Structure(c) && p != i.plotId
    ensures PlacedOn(Install(c, i), p) == PlacedOn(c, p)
  {
  }

  lemma InstallStructure(c: City, i: Instance)
    requires Structure(c)
    ensures Structure(Install(c, i))
  {
  }

  /** Installing an object adds at most its own timers to the count, whether
      or not it replaces the plot's former instance. */
  lemma InstallCount(c: City, i: Instance, now: int)
    requires Structure(c)
    ensures ActiveTimerCount(Install(c, i), now) <= ActiveTimerCount(c, now) + TimersOf(i, now)
  {
    var c', ks, p := Install(c, i), c.placed.keys, i.plotId;
    InstallReaches(c, i);
    if p in c.placed.m {
      forall j | 0 <= j < |ks|
        ensures TimersAt(c', ks[j], now) <= TimersAt(c, ks[j], now) + (if ks[j] == p then TimersOf(i, now) else 0)
      {
        if ks[j] != p {
          InstallOthers(c, i, ks[j]);
        }
      }
      CountLe(c, now, c', now, ks, p, TimersOf(i, now));
    } else {
      forall j | 0 <= j < |ks|
        ensures TimersAt(c', ks[j], now) == TimersAt(c, ks[j], now)
      {
        assert ks[j] in c.placed.m;
        InstallOthers(c, i, ks[j]);
      }
      CountEq(c, c', ks, now);
      CountAppend(c', ks, p, now);
    }
  }

  /** `placeBuildingOnPlot` keeps the invariant: a timed build starts only
      when fewer than two timers run. */
  lemma PlacePreserves(env: Env, c: City, plotId: PlotId, id: BuildingId, level: int,
                       opts: PlaceOpts, now: int)
    requires Inv(c, now)
    ensures Inv(PlaceBuildingOnPlot(env, c, plotId, id, level, opts, now).city, now)
  {
    var r := PlaceBuildingOnPlot(env, c, plotId, id, level, opts, now);
    if r.check.Ok? {
      var def := TimedCatalog.Lookup(id).value;
      var c1 := if opts.free then c else c.(resources := Spend(c.resources, def.cost));
      var timed := c1.timersEnabled && !opts.instant && !opts.free;
      var i := NewInstance(env, plotId, id, level, timed, now);
      assert r.city == Install(c1, i);
      CountSameStore(c, c1, c.placed.keys, now);
      InstallStructure(c1, i);
      InstallCount(c1, i, now);
      assert TimersOf(i, now) <= (if timed then 1 else 0);
    }
  }

  /** `upgradePlot` keeps the invariant: an upgrade timer starts only on a
      complete instance below level 20 and only when fewer than two timers
      run. */
  lemma UpgradePreserves(env: Env, c: City, plotId: PlotId, now: int)
    requires Inv(c, now)
    ensures Inv(UpgradePlot(env, c, plotId, now).city, now)
  {
    if UpgradePlot(env, c, plotId, now).check.Ok? {
      UpgradeObjects(env, c, plotId, now);
      UpgradeCount(env, c, plotId, now);
    }
  }

  lemma UpgradeObjects(env: Env, c: City, plotId: PlotId, now: int)
    requires Inv(c, now) && UpgradePlot(env, c, plotId, now).check.Ok?
    ensures var s := UpgradePlot(env, c, plotId, now).city;
      Structure(s) && forall q :: q in s.objs ==> Sane(s.objs[q]) && NotBoth(s.objs[q], now)
  {
    UpgradedInstance(env, c, plotId, now);
  }

  lemma UpgradeCount(env: Env, c: City, plotId: PlotId, now: int)
    requires Inv(c, now) && UpgradePlot(env, c, plotId, now).check.Ok?
    ensures ActiveTimerCount(UpgradePlot(env, c, plotId, now).city, now) <= QueueLimit
  {
    var r := UpgradePlot(env, c, plotId, now);
    var ref := c.placed.m[plotId];
    var d := if c.timersEnabled then 1 else 0;
    UpgradedInstance(env, c, plotId, now);
    var ks := c.placed.keys;
    forall k | 0 <= k < |ks|
      ensures TimersAt(r.city, ks[k], now) <= TimersAt(c, ks[k], now) + (if ks[k] == plotId then d else 0)
    {
      if ks[k] != plotId {
        assert c.placed.m[ks[k]] != ref;
      }
    }
    CountLe(c, now, r.city, now, ks, plotId, d);
  }

  /** The upgraded object is sane, complete as to construction, and holds
      at most one timer, none with timers off. */
  lemma UpgradedInstance(env: Env, c: City, plotId: PlotId, now: int)
    requires Inv(c, now) && UpgradePlot(env, c, plotId, now).check.Ok?
    ensures var j := UpgradePlot(env, c, plotId, now).city.objs[c.placed.m[plotId]];
      Sane(j) && NotBoth(j, now) && TimersOf(j, now) <= (if c.timersEnabled then 1 else 0)
  {
    var i := c.objs[c.placed.m[plotId]];
    assert Sane(i) && Lv(i) == i.level;
  }

  /** `ensureTownhall` keeps the invariant: the seeded town hall holds no
      timer. */
  lemma EnsureTownhallPreserves(env: Env, c: City, now: int)
    requires Inv(c, now)
    ensures Inv(EnsureTownhall(env, c).city, now)
  {
    if "townhall" !in c.byId {
      var i := SeededTownhall(PickTownhallPlotId(env.plots));
      assert EnsureTownhall(env, c).city == Install(c, i);
      assert TimersOf(i, now) == 0 && Sane(i);
      InstallPreserves(c, i, now);
    }
  }

  /** Installing a sane instance whose timers still fit keeps the
      invariant. */
  lemma InstallPreserves(c: City, i: Instance, now: int)
    requires Inv(c, now) && Sane(i) && NotBoth(i, now)
    requires ActiveTimerCount(c, now) + TimersOf(i, now) <= QueueLimit
    ensures Inv(Install(c, i), now)
  {
    var c' := Install(c, i);
    InstallStructure(c, i);
    InstallCount(c, i, now);
    forall q | q in c'.objs
      ensures Sane(c'.objs[q]) && NotBoth(c'.objs[q], now)
    {
      if q != c.nextRef {
        assert c'.objs[q] == c.objs[q];
      }
    }
  }

  /** A sweep keeps the structure and every instance sane. */
  lemma SweepPreserves(c: City, now: int, mode: Sweep)
    requires Inv(c, now)
    ensures var s := SweepFrom(c, c.placed.keys, now, mode).city;
      Structure(s) && forall q :: q in s.objs ==> Sane(s.objs[q]) && NotBoth(s.objs[q], now)
  {
    var s := SweepFrom(c, c.placed.keys, now, mode).city;
    SweepSteps(c, c.placed.keys, now, mode);
    forall q | q in s.objs
      ensures Sane(s.objs[q]) && NotBoth(s.objs[q], now)
      ensures s.objs[q].plotId == c.objs[q].plotId && s.objs[q].buildingId == c.objs[q].buildingId
    {
      StepKeeps(c.objs[q], s.objs[q], now, mode);
    }
  }

  lemma TickPreserves(c: City, now: int)
    requires Inv(c, now)
    ensures Inv(Tick(c, now).city, now)
  {
    SweepPreserves(c, now, DueSweep);
    TickEffect(c, now);
  }

  lemma FinishAllPreserves(c: City, now: int)
    requires Inv(c, now)
    ensures Inv(FinishAllTimersNow(c, now).city, now)
  {
    SweepPreserves(c, now, EarlySweep);
    FinishAllEmptiesQueue(c, now);
  }

  /** The invariant survives the passing of time. */
  lemma InvLater(c: City, now: int, now': int)
    requires Inv(c, now) && now <= now'
    ensures Inv(c, now')
  {
    CountLater(c, now, now');
    forall q | q in c.objs
      ensures NotBoth(c.objs[q], now')
    {
      assert NotBoth(c.objs[q], now);
    }
  }

  // ---------------------------------------------------------------------
  // Gates and commands

  /** Every building type is unique in this store: once placed, a second
      `canBuildBuilding` of the same id is refused as already built. */
  lemma PlaceMakesUnique(env: Env, c: City, plotId: PlotId, id: BuildingId, level: int,
                         opts: PlaceOpts, now: int, later: int)
    requires PlaceBuildingOnPlot(env, c, plotId, id, level, opts, now).check.Ok?
    ensures CanBuildBuilding(PlaceBuildingOnPlot(env, c, plotId, id, level, opts, now).city, id, later)
      == Fail(AlreadyBuilt)
  {
  }

  /** Outside the town hall, `canUpgradePlot` does not look at the town-hall
      level at all: this store has no town-hall cap on other buildings. */
  lemma NoTownhallCap(c: City, plotId: PlotId, now: int, levels: map<BuildingId, int>, th: int)
    requires PlacedOn(c, plotId).Some? && PlacedOn(c, plotId).value.buildingId != "townhall"
    ensures CanUpgradePlot(c.(levels := levels, townhallLevel := th), plotId, now) == CanUpgradePlot(c, plotId, now)
  {
    CountSameStore(c, c.(levels := levels, townhallLevel := th), c.placed.keys, now);
  }

  /** With timers on, an upgrade timer that expires makes `tick` raise the
      level by exactly one, the same as an upgrade with timers off. */
  lemma UpgradeThenTick(env: Env, c: City, plotId: PlotId, now: int, later: int)
    requires Inv(c, now) && c.timersEnabled && TimedDurations.Bracketed(env.interp) && now >= 0
    requires UpgradePlot(env, c, plotId, now).check.Ok?
    requires later >= UpgradePlot(env, c, plotId, now).city.objs[c.placed.m[plotId]].upgradeEndAt
    ensures PlacedOn(Tick(UpgradePlot(env, c, plotId, now).city, later).city, plotId)
      == Some(Advance(UpgradePlot(env, c, plotId, now).city.objs[c.placed.m[plotId]], later, DueSweep))
    ensures PlacedOn(Tick(UpgradePlot(env, c, plotId, now).city, later).city, plotId).value.level
      == Lv(PlacedOn(c, plotId).value) + 1
  {
    var u := UpgradePlot(env, c, plotId, now).city;
    var ref := c.placed.m[plotId];
    var i, j := c.objs[ref], u.objs[ref];
    assert Sane(i) && Lv(i) == i.level;
    TimedDurations.DurationBounds(env.interp, i.buildingId, Lv(i) + 1);
    assert j.upgradeEndAt > 0 && Fires(DueSweep, j.upgradeEndAt, later);
    UpgradeObjects(env, c, plotId, now);
    TickFires(u, plotId, later);
  }

  /** Right after a timed upgrade starts, the status of its plot shows it:
      upgrading to the next level, with the whole duration (at least five
      seconds) still to run. */
  lemma UpgradeShowsInStatus(env: Env, c: City, plotId: PlotId, now: int)
    requires c.timersEnabled && TimedDurations.Bracketed(env.interp) && now >= 0
    requires UpgradePlot(env, c, plotId, now).check.Ok?
    ensures var i := PlacedOn(c, plotId).value;
      var s := GetStatus(UpgradePlot(env, c, plotId, now).city, plotId, now);
      && s.Some? && s.value.upgrading && !s.value.constructing
      && s.value.upgradingToLevel == Lv(i) + 1
      && s.value.upgradeRemainingMs == DurationSeconds(env, i.buildingId, Lv(i) + 1) * 1000
      && s.value.upgradeRemainingMs >= 5000
  {
    var u := UpgradePlot(env, c, plotId, now).city;
    var ref := c.placed.m[plotId];
    var i, j := c.objs[ref], u.objs[ref];
    var d := DurationSeconds(env, i.buildingId, Lv(i) + 1);
    TimedDurations.DurationBounds(env.interp, i.buildingId, Lv(i) + 1);
    assert j.upgradeEndAt == now + d * 1000 && d >= 5;
    assert PlacedOn(u, plotId) == Some(j);
  }

  /** A timer that has expired on a placed object is handled by `tick`: the
      plot then holds the advanced object. */
  lemma TickFires(u: City, plotId: PlotId, later: int)
    requires Structure(u) && plotId in u.placed.m
    requires !Quiet(u.objs[u.placed.m[plotId]], later, DueSweep)
    ensures PlacedOn(Tick(u, later).city, plotId) == Some(Advance(u.objs[u.placed.m[plotId]], later, DueSweep))
  {
    var ref := u.placed.m[plotId];
    var j := u.objs[ref];
    var t := Tick(u, later).city;
    SweepSteps(u, u.placed.keys, later, DueSweep);
    assert Steps(j, t.objs[ref], later, DueSweep);
    var k :| 0 <= k < |u.placed.keys| && u.placed.keys[k] == plotId;
    assert Quiet(t.objs[ref], later, DueSweep);
  }

  /** A timed placement starts a build timer that runs at `now` and lasts
      between 5 seconds and the building's level-20 maximum. */
  lemma PlacedTimerRuns(env: Env, c: City, plotId: PlotId, id: BuildingId, level: int,
                        opts: PlaceOpts, now: int)
    requires TimedDurations.Bracketed(env.interp) && now >= 0
    requires PlaceBuildingOnPlot(env, c, plotId, id, level, opts, now).check.Ok?
    requires c.timersEnabled && !opts.instant && !opts.free
    ensures var i := PlacedOn(PlaceBuildingOnPlot(env, c, plotId, id, level, opts, now).city, plotId).value;
      && Constructing(i, now)
      && now + 5000 <= i.buildEndAt <= now + TimedDurations.MaxSecondsAt20(id) * 1000
  {
    var r := PlaceBuildingOnPlot(env, c, plotId, id, level, opts, now);
    var i := NewInstance(env, plotId, id, level, true, now);
    assert PlacedOn(r.city, plotId) == Some(i);
    TimedDurations.DurationBounds(env.interp, id, ClampLevel(level));
    assert i.buildEndAt >= now + 5000;
  }

  /** The plot ids of the city map, in order. */
  const CityPlots: seq<PlotId> :=
    ["townhall", "plot_a", "plot_b", "plot_c", "plot_d", "plot_e", "plot_f", "plot_h", "plot_i", "plot_j"]

  /** On the city map the town hall goes on the plot named "townhall". */
  lemma CityTownhallPlot()
    ensures PickTownhallPlotId(CityPlots) == "townhall"
  {
    assert ToLower("townhall") == "townhall";
    assert IsTownhallPlot(CityPlots[0]);
  }

  /** Without any town-hall plot, the town hall goes on the first plot. */
  lemma PickFallsBack(plots: seq<PlotId>)
    requires plots != [] && plots[0] != ""
    requires forall k :: 0 <= k < |plots| ==> !IsTownhallPlot(plots[k])
    ensures PickTownhallPlotId(plots) == plots[0]
  {
  }

  /** `ensureTownhall` twice is `ensureTownhall` once. */
  lemma EnsureTownhallIdempotent(env: Env, c: City)
    ensures EnsureTownhall(env, EnsureTownhall(env, c).city) == EnsureTownhall(env, c)
  {
  }

  // ---------------------------------------------------------------------
  // Hydrating from a save

  /** Every placed instance is at a level in 1..20. */
  ghost predicate PlacedLevelsInRange(c: City) {
    forall p :: p in c.placed.m ==> c.placed.m[p] in c.objs && 1 <= c.objs[c.placed.m[p]].level <= MaxLevel
  }

  lemma HydrateOneKeeps(env: Env, c: City, rec: SaveRecord)
    requires Structure(c) && PlacedLevelsInRange(c)
    ensures Structure(HydrateOne(env, c, rec)) && PlacedLevelsInRange(HydrateOne(env, c, rec))
  {
  }

  lemma {:induction false} HydrateAllKeeps(env: Env, c: City, recs: seq<SaveRecord>)
    requires Structure(c) && PlacedLevelsInRange(c)
    ensures Structure(HydrateAll(env, c, recs)) && PlacedLevelsInRange(HydrateAll(env, c, recs))
    decreases |recs|
  {
    if recs != [] {
      HydrateOneKeeps(env, c, recs[0]);
      HydrateAllKeeps(env, HydrateOne(env, c, recs[0]), recs[1..]);
    }
  }

  /** Whatever the save holds, the hydrated store is well formed and every
      placed level lies in 1..20. */
  lemma HydrateWellFormed(env: Env, c: City, recs: seq<SaveRecord>)
    requires forall q :: q in c.objs ==> q < c.nextRef
    ensures Structure(HydrateFromSave(env, c, recs)) && PlacedLevelsInRange(HydrateFromSave(env, c, recs))
  {
    HydrateAllKeeps(env, c.(placed := JsMap.Empty(), byId := map[]), recs);
  }

  /** Hydration copies the saved upgrade target without checking it, so a
      later `tick` can lift a level past 20: a level-20 farm saved with an
      expired upgrade towards 50 comes back at level 50. */
  lemma HydrateThenTickPastMax(env: Env)
    ensures var c := City(map[], JsMap.Empty(), map[], 0, map[], 0, Empty, true);
      var rec := SaveRecord("plot_a", "farm", Some(20), None, None, None, Some(1), Some(50));
      var h := HydrateFromSave(env, c, [rec]);
      PlacedOn(Tick(h, 1).city, "plot_a").Some?
      && PlacedOn(Tick(h, 1).city, "plot_a").value.level == 50
  {
    var c := City(map[], JsMap.Empty(), map[], 0, map[], 0, Empty, true);
    var rec := SaveRecord("plot_a", "farm", Some(20), None, None, None, Some(1), Some(50));
    var h := HydrateFromSave(env, c, [rec]);
    assert TimedCatalog.Lookup("farm").Some?;
    var one := HydrateOne(env, c.(placed := JsMap.Empty(), byId := map[]), rec);
    assert [rec][1..] == [];
    assert HydrateAll(env, one, []) == one;
    assert h == one;
    assert h.placed.keys == ["plot_a"];
    assert PlacedOn(h, "plot_a").value.upgradeEndAt == 1;
    assert PlacedOn(h, "plot_a").value.upgradingToLevel == 50;
    var t := Tick(h, 1).city;
    assert t == SweepPlot(h, "plot_a", 1, DueSweep).city;
  }
}

=== FILE: timed_catalog.dfy ===
/** The building table read by the timed building store
    (docs/js/data/buildingCatalog.js): placement cost, uniqueness flag,
    minimum town-hall level and the per-level upgrade cost. */
module TimedCatalog {
  import opened Common
  import opened Resources

  datatype BuildingDef = BuildingDef(
    id: string,
    name: string,
    unique: bool,
    minTownhallLevel: Option<int>,
    cost: Cost)

  const KnownIds: set<string> :=
    {"townhall", "farm", "lumber", "barracks", "quarry", "house", "mine", "academy", "commandcenter"}

  /** `BUILDINGS[id]`; `None` for an id the table does not list. */
  function Lookup(id: string): (d: Option<BuildingDef>)
    ensures d.Some? <==> id in KnownIds
    ensures d.Some? ==> d.value.id == id
  {
    match id
    case "townhall" => Some(BuildingDef("townhall", "Town Hall", false, None, map[Wood := 0, Gold := 0]))
    case "farm" => Some(BuildingDef("farm", "Farm", false, Some(1), map[Wood := 60, Gold := 10]))
    case "lumber" => Some(BuildingDef("lumber", "Lumber Yard", false, Some(1), map[Wood := 40, Gold := 10]))
    case "barracks" => Some(BuildingDef("barracks", "Barracks", true, Some(2), map[Wood := 120, Gold := 60]))
    case "quarry" => Some(BuildingDef("quarry", "Quarry", false, Some(5), map[Wood := 80, Gold := 25]))
    case "house" => Some(BuildingDef("house", "House", false, Some(1), map[Wood := 80, Gold := 20]))
    case "mine" => Some(BuildingDef("mine", "Mine", false, Some(6), map[Wood := 120, Gold := 40]))
    case "academy" => Some(BuildingDef("academy", "Academy", true, Some(8), map[Wood := 120, Stone := 80, Gold := 80]))
    case "commandcenter" => Some(BuildingDef("commandcenter", "Command Center", true, Some(5), map[Wood := 150, Stone := 120, Gold := 120]))
    case _ => None
  }

  /** `BUILDINGS[id].upgradeCost(level)`: the cost of going from `level` to
      `level + 1`; `None` for an unknown id. */
  function UpgradeCost(id: string, level: int): (c: Option<Cost>)
    ensures c.Some? <==> id in KnownIds
  {
    match id
    case "townhall" => Some(map[Wood := 100 * level, Gold := 60 * level, Stone := if level >= 5 then 80 * level else 0])
    case "farm" => Some(map[Wood := 40 * level, Gold := 10 * level])
    case "lumber" => Some(map[Wood := 30 * level, Gold := 10 * level])
    case "barracks" => Some(map[Wood := 60 * level, Gold := 30 * level])
    case "quarry" => Some(map[Wood := 30 * level, Stone := 20 * level, Gold := 10 * level])
    case "house" => Some(map[Wood := 50 * level, Stone := 20 * level, Gold := 20 * level])
    case "mine" => Some(map[Wood := 40 * level, Stone := 30 * level, Gold := 20 * level])
    case "academy" => Some(map[Wood := 70 * level, Stone := 60 * level, Gold := 40 * level])
    case "commandcenter" => Some(map[Wood := 90 * level, Stone := 80 * level, Gold := 60 * level])
    case _ => None
  }

  /** Every component of every upgrade cost is non-decreasing in the level. */
  lemma UpgradeCostMonotone(id: string, a: int, b: int, r: Resource)
    requires id in KnownIds && a <= b
    ensures Need(UpgradeCost(id, a).value, r) <= Need(UpgradeCost(id, b).value, r)
  {
  }

  /** Town-hall upgrades ask no stone below level 5 and `80 * level` from there on. */
  lemma TownhallStone(level: int)
    ensures Need(UpgradeCost("townhall", level).value, Stone) == (if level < 5 then 0 else 80 * level)
  {
  }

  /** Placing a town hall costs nothing. */
  lemma TownhallPlacementFree(r: Resource)
    ensures Need(Lookup("townhall").value.cost, r) == 0
  {
  }

  /** A farm costs 60 wood and 10 gold to place, and nothing else. */
  lemma FarmPlacementCost()
    ensures Lookup("farm").value.cost == map[Wood := 60, Gold := 10]
  {
  }

  /** Exactly barracks, academy and command center are flagged unique. */
  lemma UniqueFlags(id: string)
    requires id in KnownIds
    ensures Lookup(id).value.unique <==> id in {"barracks", "academy", "commandcenter"}
  {
  }

  /** The minimum town-hall levels, as the table's fields state them. */
  lemma MinTownhallLevels()
    ensures Lookup("townhall").value.minTownhallLevel == None
    ensures Lookup("farm").value.minTownhallLevel == Some(1)
    ensures Lookup("lumber").value.minTownhallLevel == Some(1)
    ensures Lookup("barracks").value.minTownhallLevel == Some(2)
    ensures Lookup("quarry").value.minTownhallLevel == Some(5)
    ensures Lookup("house").value.minTownhallLevel == Some(1)
    ensures Lookup("mine").value.minTownhallLevel == Some(6)
    ensures Lookup("academy").value.minTownhallLevel == Some(8)
    ensures Lookup("commandcenter").value.minTownhallLevel == Some(5)
  {
  }

  /** Every placement cost and every upgrade cost at a non-negative level asks
      for non-negative amounts. */
  lemma CostsNonNegative(id: string, level: int)
    requires id in KnownIds && level >= 0
    ensures NonNegativeCost(Lookup(id).value.cost)
    ensures NonNegativeCost(UpgradeCost(id, level).value)
  {
  }
}

=== FILE: timed_durations.dfy ===
/** Build and upgrade durations of the timed building store
    (`maxSecondsAt20` and `secondsForTargetLevel` in
    docs/js/systems/cityBuildings.js). The town hall follows a table of
    anchor points; every other building follows the same table rescaled so
    that level 20 takes its own cap. Between two anchors the source
    interpolates in log space (`Math.round(Math.exp(...))`); that float step
    is the parameter `interp`. */
module TimedDurations {
  import opened Common

  const MaxLevel: int := 20
  const Day: int := 24 * 3600

  /** Town-hall level-20 duration: 14 days. */
  const TH20: int := 14 * Day

  /** An anchor point: (level, seconds). */
  type Anchor = (int, int)

  /** `interp(l1, s1, l2, s2, level)`: the log-space value strictly between
      the anchors (l1, s1) and (l2, s2). */
  type Interp = (int, int, int, int, int) -> int

  /** `maxSecondsAt20(id)`: the level-20 duration of a building. */
  function MaxSecondsAt20(id: string): (s: int)
    ensures 4 * Day <= s <= TH20
    ensures id == "townhall" <==> s == TH20
  {
    if id == "townhall" then 14 * Day
    else if id == "barracks" || id == "academy" then 9 * Day
    else if id == "commandcenter" then 7 * Day
    else 4 * Day
  }

  const ThAnchors: seq<Anchor> :=
    [(1, 5), (2, 6 * 60), (3, 12 * 60), (4, 20 * 60), (5, 35 * 60),
     (10, 3 * 3600), (15, 24 * 3600), (20, TH20)]

  /** The seconds of the first anchor at exactly `level`, if any. */
  function ExactAnchor(level: int, anchors: seq<Anchor>): (r: Option<int>)
    ensures r.None? <==> forall i :: 0 <= i < |anchors| ==> anchors[i].0 != level
    ensures r.Some? ==> (level, r.value) in anchors
  {
    if anchors == [] then None
    else if anchors[0].0 == level then Some(anchors[0].1)
    else ExactAnchor(level, anchors[1..])
  }

  /** The first segment (l1, l2) with `l1 < level < l2`, interpolated. */
  function Segment(interp: Interp, level: int, anchors: seq<Anchor>): (r: Option<int>)
    decreases |anchors|
  {
    if |anchors| < 2 then None
    else if anchors[0].0 < level < anchors[1].0 then
      Some(interp(anchors[0].0, anchors[0].1, anchors[1].0, anchors[1].1, level))
    else Segment(interp, level, anchors[1..])
  }

  /** `interpLogSeconds(level, anchors)`: an exact anchor wins, levels
      outside the table take the end values, anything else is interpolated
      on its segment. */
  function InterpLogSeconds(interp: Interp, level: int, anchors: seq<Anchor>): int
    requires anchors != []
  {
    var exact := ExactAnchor(level, anchors);
    if exact.Some? then exact.value
    else if level <= anchors[0].0 then anchors[0].1
    else if level >= anchors[|anchors| - 1].0 then anchors[|anchors| - 1].1
    else Segment(interp, level, anchors).GetOr(anchors[0].1)
  }

  /** One town-hall anchor rescaled to a building whose level-20 duration is
      `maxS`: level 20 takes `maxS`, the rest keep their share of 14 days. */
  function ScaledSeconds(lv: int, thSec: int, maxS: int): int {
    if lv == 20 then maxS else Round((thSec as real / TH20 as real) * maxS as real)
  }

  /** The value one town-hall anchor takes in the rescaled table: at least
      5 and more than the value before it. */
  function NextSeconds(lv: int, thSec: int, maxS: int, prev: int): (sec: int)
    ensures sec >= 5 && sec > prev
  {
    var sec0 := Max(5, ScaledSeconds(lv, thSec, maxS));
    if sec0 <= prev then prev + 1 else sec0
  }

  /** The rescaling loop over the town-hall anchors from index `i` on,
      `prev` being the value given to the anchor before `i`. */
  function ScaleFrom(i: nat, maxS: int, prev: int): (r: seq<Anchor>)
    requires i <= |ThAnchors|
    ensures |r| == |ThAnchors| - i
    decreases |ThAnchors| - i
  {
    if i == |ThAnchors| then []
    else
      var sec := NextSeconds(ThAnchors[i].0, ThAnchors[i].1, maxS, prev);
      [(ThAnchors[i].0, sec)] + ScaleFrom(i + 1, maxS, sec)
  }

  function ScaledAnchors(maxS: int): seq<Anchor> {
    ScaleFrom(0, maxS, 0)
  }

  /** `secondsForTargetLevel(id, targetLevel)`. */
  function SecondsForTargetLevel(interp: Interp, id: string, targetLevel: int): int {
    var l := Clamp(if targetLevel == 0 then 1 else targetLevel, 1, MaxLevel);
    if id == "townhall" then Max(5, InterpLogSeconds(interp, l, ThAnchors))
    else InterpLogSeconds(interp, l, ScaledAnchors(MaxSecondsAt20(id)))
  }

  /** An interpolation that stays between the values it interpolates, as
      `exp` of a convex combination of two logarithms does. */
  ghost predicate Bracketed(interp: Interp) {
    forall l1, s1, l2, s2, x :: s1 <= s2 ==> s1 <= interp(l1, s1, l2, s2, x) <= s2
  }

  /** `Math.round(thSec / TH20 * maxS)` is `e` when the exact quotient lies
      in [e - 1/2, e + 1/2). */
  lemma RoundedShare(thSec: int, maxS: int, e: int)
    requires (2 * e - 1) * TH20 <= 2 * thSec * maxS < (2 * e + 1) * TH20
    ensures Round((thSec as real / TH20 as real) * maxS as real) == e
  {
    var x := (thSec as real / TH20 as real) * maxS as real;
    assert x == (thSec * maxS) as real / TH20 as real;
    assert (e as real - 0.5) * TH20 as real <= (thSec * maxS) as real;
    assert (thSec * maxS) as real < (e as real + 0.5) * TH20 as real;
  }

  /** The seven rounded values of the 4-day bucket. */
  lemma ScaledValues4()
    ensures var m := 4 * Day;
      && NextSeconds(1, 5, m, 0) == 5
      && NextSeconds(2, 360, m, 5) == 103
      && NextSeconds(3, 720, m, 103) == 206
      && NextSeconds(4, 1200, m, 206) == 343
      && NextSeconds(5, 2100, m, 343) == 600
      && NextSeconds(10, 10800, m, 600) == 3086
      && NextSeconds(15, 86400, m, 3086) == 24686
  {
    var m := 4 * Day;
    assert NextSeconds(1, 5, m, 0) == 5 by { RoundedShare(5, m, 1); }
    assert NextSeconds(2, 360, m, 5) == 103 by { RoundedShare(360, m, 103); }
    assert NextSeconds(3, 720, m, 103) == 206 by { RoundedShare(720, m, 206); }
    assert NextSeconds(4, 1200, m, 206) == 343 by { RoundedShare(1200, m, 343); }
    assert NextSeconds(5, 2100, m, 343) == 600 by { RoundedShare(2100, m, 600); }
    assert NextSeconds(10, 10800, m, 600) == 3086 by { RoundedShare(10800, m, 3086); }
    assert NextSeconds(15, 86400, m, 3086) == 24686 by { RoundedShare(86400, m, 24686); }
  }

  /** One round of the rescaling loop. */
  lemma ScaleFromStep(i: nat, maxS: int, prev: int, sec: int, rest: seq<Anchor>)
    requires i < |ThAnchors|
    requires NextSeconds(ThAnchors[i].0, ThAnchors[i].1, maxS, prev) == sec
    requires ScaleFrom(i + 1, maxS, sec) == rest
    ensures ScaleFrom(i, maxS, prev) == [(ThAnchors[i].0, sec)] + rest
  {
  }

  /** The rescaled table of the 4-day bucket, computed out. */
  lemma ScaledTable4()
    ensures ScaledAnchors(4 * Day) == [(1, 5), (2, 103), (3, 206), (4, 343), (5, 600), (10, 3086), (15, 24686), (20, 4 * Day)]
  {
    var m := 4 * Day;
    ScaledValues4();
    assert ScaleFrom(7, m, 24686) == [(20, m)];
    ScaleFromStep(6, m, 3086, 24686, [(20, m)]);
    ScaleFromStep(5, m, 600, 3086, [(15, 24686), (20, m)]);
    ScaleFromStep(4, m, 343, 600, [(10, 3086), (15, 24686), (20, m)]);
    ScaleFromStep(3, m, 206, 343, [(5, 600), (10, 3086), (15, 24686), (20, m)]);
    ScaleFromStep(2, m, 103, 206, [(4, 343), (5, 600), (10, 3086), (15, 24686), (20, m)]);
    ScaleFromStep(1, m, 5, 103, [(3, 206), (4, 343), (5, 600), (10, 3086), (15, 24686), (20, m)]);
    ScaleFromStep(0, m, 0, 5, [(2, 103), (3, 206), (4, 343), (5, 600), (10, 3086), (15, 24686), (20, m)]);
  }


  /** The seven rounded values of the 7-day bucket. */
  lemma ScaledValues7()
    ensures var m := 7 * Day;
      && NextSeconds(1, 5, m, 0) == 5
      && NextSeconds(2, 360, m, 5) == 180
      && NextSeconds(3, 720, m, 180) == 360
      && NextSeconds(4, 1200, m, 360) == 600
      && NextSeconds(5, 2100, m, 600) == 1050
      && NextSeconds(10, 10800, m, 1050) == 5400
      && NextSeconds(15, 86400, m, 5400) == 43200
  {
    var m := 7 * Day;
    assert NextSeconds(1, 5, m, 0) == 5 by { RoundedShare(5, m, 3); }
    assert NextSeconds(2, 360, m, 5) == 180 by { RoundedShare(360, m, 180); }
    assert NextSeconds(3, 720, m, 180) == 360 by { RoundedShare(720, m, 360); }
    assert NextSeconds(4, 1200, m, 360) == 600 by { RoundedShare(1200, m, 600); }
    assert NextSeconds(5, 2100, m, 600) == 1050 by { RoundedShare(2100, m, 1050); }
    assert NextSeconds(10, 10800, m, 1050) == 5400 by { RoundedShare(10800, m, 5400); }
    assert NextSeconds(15, 86400, m, 5400) == 43200 by { RoundedShare(86400, m, 43200); }
  }

  /** The rescaled table of the 7-day bucket, computed out. */
  lemma ScaledTable7()
    ensures ScaledAnchors(7 * Day) == [(1, 5), (2, 180), (3, 360), (4, 600), (5, 1050), (10, 5400), (15, 43200), (20, 7 * Day)]
  {
    var m := 7 * Day;
    ScaledValues7();
    assert ScaleFrom(7, m, 43200) == [(20, m)];
    ScaleFromStep(6, m, 5400, 43200, [(20, m)]);
    ScaleFromStep(5, m, 1050, 5400, [(15, 43200), (20, m)]);
    ScaleFromStep(4, m, 600, 1050, [(10, 5400), (15, 43200), (20, m)]);
    ScaleFromStep(3, m, 360, 600, [(5, 1050), (10, 5400), (15, 43200), (20, m)]);
    ScaleFromStep(2, m, 180, 360, [(4, 600), (5, 1050), (10, 5400), (15, 43200), (20, m)]);
    ScaleFromStep(1, m, 5, 180, [(3, 360), (4, 600), (5, 1050), (10, 5400), (15, 43200), (20, m)]);
    ScaleFromStep(0, m, 0, 5, [(2, 180), (3, 360), (4, 600), (5, 1050), (10, 5400), (15, 43200), (20, m)]);
  }


  /** The seven rounded values of the 9-day bucket. */
  lemma ScaledValues9()
    ensures var m := 9 * Day;
      && NextSeconds(1, 5, m, 0) == 5
      && NextSeconds(2, 360, m, 5) == 231
      && NextSeconds(3, 720, m, 231) == 463
      && NextSeconds(4, 1200, m, 463) == 771
      && NextSeconds(5, 2100, m, 771) == 1350
      && NextSeconds(10, 10800, m, 1350) == 6943
      && NextSeconds(15, 86400, m, 6943) == 55543
  {
    var m := 9 * Day;
    assert NextSeconds(1, 5, m, 0) == 5 by { RoundedShare(5, m, 3); }
    assert NextSeconds(2, 360, m, 5) == 231 by { RoundedShare(360, m, 231); }
    assert NextSeconds(3, 720, m, 231) == 463 by { RoundedShare(720, m, 463); }
    assert NextSeconds(4, 1200, m, 463) == 771 by { RoundedShare(1200, m, 771); }
    assert NextSeconds(5, 2100, m, 771) == 1350 by { RoundedShare(2100, m, 1350); }
    assert NextSeconds(10, 10800, m, 1350) == 6943 by { RoundedShare(10800, m, 6943); }
    assert NextSeconds(15, 86400, m, 6943) == 55543 by { RoundedShare(86400, m, 55543); }
  }

  /** The rescaled table of the 9-day bucket, computed out. */
  lemma ScaledTable9()
    ensures ScaledAnchors(9 * Day) == [(1, 5), (2, 231), (3, 463), (4, 771), (5, 1350), (10, 6943), (15, 55543), (20, 9 * Day)]
  {
    var m := 9 * Day;
    ScaledValues9();
    assert ScaleFrom(7, m, 55543) == [(20, m)];
    ScaleFromStep(6, m, 6943, 55543, [(20, m)]);
    ScaleFromStep(5, m, 1350, 6943, [(15, 55543), (20, m)]);
    ScaleFromStep(4, m, 771, 1350, [(10, 6943), (15, 55543), (20, m)]);
    ScaleFromStep(3, m, 463, 771, [(5, 1350), (10, 6943), (15, 55543), (20, m)]);
    ScaleFromStep(2, m, 231, 463, [(4, 771), (5, 1350), (10, 6943), (15, 55543), (20, m)]);
    ScaleFromStep(1, m, 5, 231, [(3, 463), (4, 771), (5, 1350), (10, 6943), (15, 55543), (20, m)]);
    ScaleFromStep(0, m, 0, 5, [(2, 231), (3, 463), (4, 771), (5, 1350), (10, 6943), (15, 55543), (20, m)]);
  }


  predicate Ascending(anchors: seq<Anchor>) {
    forall i :: 0 <= i < |anchors| - 1 ==> anchors[i].1 <= anchors[i + 1].1
  }

  predicate Within(anchors: seq<Anchor>, lo: int, hi: int) {
    forall i :: 0 <= i < |anchors| ==> lo <= anchors[i].1 <= hi
  }

  /** An interpolated segment value lies within the bounds of the table. */
  lemma {:induction false} SegmentWithin(interp: Interp, level: int, anchors: seq<Anchor>, lo: int, hi: int)
    requires Bracketed(interp) && Ascending(anchors) && Within(anchors, lo, hi)
    ensures Segment(interp, level, anchors).Some? ==> lo <= Segment(interp, level, anchors).value <= hi
    decreases |anchors|
  {
    if |anchors| >= 2 && !(anchors[0].0 < level < anchors[1].0) {
      SegmentWithin(interp, level, anchors[1..], lo, hi);
    }
  }

  /** `interpLogSeconds` never leaves the range of the table's values. */
  lemma InterpWithin(interp: Interp, level: int, anchors: seq<Anchor>, lo: int, hi: int)
    requires anchors != []
    requires Bracketed(interp) && Ascending(anchors) && Within(anchors, lo, hi)
    ensures lo <= InterpLogSeconds(interp, level, anchors) <= hi
  {
    SegmentWithin(interp, level, anchors, lo, hi);
  }

  /** The table the duration of `id` is read from. */
  function AnchorsFor(id: string): (a: seq<Anchor>)
    ensures |a| == 8
  {
    if id == "townhall" then ThAnchors else ScaledAnchors(MaxSecondsAt20(id))
  }

  /** Every table runs from 5 seconds up to the building's level-20 cap, in
      ascending order, and ends with that cap at level 20. */
  lemma AnchorsShape(id: string)
    ensures Ascending(AnchorsFor(id)) && Within(AnchorsFor(id), 5, MaxSecondsAt20(id))
    ensures AnchorsFor(id)[0] == (1, 5) && AnchorsFor(id)[7] == (20, MaxSecondsAt20(id))
  {
    var m := MaxSecondsAt20(id);
    if m == 4 * Day { ScaledTable4(); TableShape(AnchorsFor(id), m); }
    else if m == 7 * Day { ScaledTable7(); TableShape(AnchorsFor(id), m); }
    else if m == 9 * Day { ScaledTable9(); TableShape(AnchorsFor(id), m); }
    else { TableShape(ThAnchors, m); }
  }

  /** A table whose adjacent values ascend from 5 to `m` lies within [5, m]. */
  lemma TableShape(a: seq<Anchor>, m: int)
    requires |a| == 8 && a[0].1 == 5 && a[7].1 == m
    requires forall i :: 0 <= i < 7 ==> a[i].1 < a[i + 1].1
    ensures Ascending(a) && Within(a, 5, m)
  {
    assert a[0].1 < a[1].1 < a[2].1 < a[3].1 < a[4].1 < a[5].1 < a[6].1 < a[7].1 by {
      assert a[0].1 < a[1].1;
      assert a[1].1 < a[2].1;
      assert a[2].1 < a[3].1;
      assert a[3].1 < a[4].1;
      assert a[4].1 < a[5].1;
      assert a[5].1 < a[6].1;
      assert a[6].1 < a[7].1;
    }
  }

  /** Any target level of 20 or more takes exactly the building's level-20
      duration, whatever the interpolation. */
  lemma CapAtTwenty(interp: Interp, id: string, targetLevel: int)
    requires targetLevel >= 20
    ensures SecondsForTargetLevel(interp, id, targetLevel) == MaxSecondsAt20(id)
  {
    AnchorsShape(id);
    LevelsOf(id);
    var a := AnchorsFor(id);
    ExactAnchorFindsFirst(20, a, 7);
    assert InterpLogSeconds(interp, 20, a) == MaxSecondsAt20(id);
  }

  /** The first anchor at `level` decides `ExactAnchor`. */
  lemma {:induction false} ExactAnchorFindsFirst(level: int, anchors: seq<Anchor>, k: int)
    requires 0 <= k < |anchors| && anchors[k].0 == level
    requires forall i :: 0 <= i < k ==> anchors[i].0 != level
    ensures ExactAnchor(level, anchors) == Some(anchors[k].1)
  {
    if k > 0 {
      ExactAnchorFindsFirst(level, anchors[1..], k - 1);
    }
  }

  /** A target level of 1 or less (or 0, read as 1) takes 5 seconds. */
  lemma FloorAtOne(interp: Interp, id: string, targetLevel: int)
    requires targetLevel <= 1
    ensures SecondsForTargetLevel(interp, id, targetLevel) == 5
  {
    AnchorsShape(id);
  }

  /** The levels of every table are those of the town-hall anchors. */
  lemma LevelsOf(id: string)
    ensures forall i :: 0 <= i < 8 ==> AnchorsFor(id)[i].0 == ThAnchors[i].0
  {
    AnchorsShape(id);
    var m := MaxSecondsAt20(id);
    if m == 4 * Day { ScaledTable4(); }
    else if m == 7 * Day { ScaledTable7(); }
    else if m == 9 * Day { ScaledTable9(); }
  }

  /** With an interpolation that stays between its end points, every
      duration lies between 5 seconds and the building's level-20 cap. */
  lemma DurationBounds(interp: Interp, id: string, targetLevel: int)
    requires Bracketed(interp)
    ensures 5 <= SecondsForTargetLevel(interp, id, targetLevel) <= MaxSecondsAt20(id)
  {
    AnchorsShape(id);
    var l := Clamp(if targetLevel == 0 then 1 else targetLevel, 1, MaxLevel);
    InterpWithin(interp, l, AnchorsFor(id), 5, MaxSecondsAt20(id));
  }
}

=== FILE: training.dfy ===
/** The barracks training slots of docs/js/systems/trainingsystems.js: the
    slot count follows the barracks level, a start debits the whole cost up
    front or fails without spending, a cancel frees the slot and refunds a
    floored fraction, and a queue pass completes every job whose end time has
    come. `Date.now()` is the `now` parameter and the barracks level is a
    parameter (the source reads it from a placed-building array this model
    does not include). */
module Training {
  import opened Common
  import opened Resources
  import opened TroopsCatalog

  /** `slot.active`: a job in training. */
  datatype Job = Job(troopId: string, amount: int, startAt: int, endAt: int,
                     totalMs: Option<int>, cost: Cost)

  /** A slot holds a job or is idle (`{ active: null }`). */
  type Slot = Option<Job>

  /** The parts of `state` this system reads and writes. */
  datatype TrainingState = TrainingState(slots: seq<Slot>, troops: map<string, int>, resources: Ledger)

  /** `getBarracksTrainingSlots(barracksLevel)`. */
  function BarracksTrainingSlots(barracksLevel: int): (n: int)
    ensures 1 <= n <= 4
    ensures n == 4 <==> barracksLevel >= 15
    ensures n == 3 <==> 10 <= barracksLevel < 15
    ensures n == 2 <==> 5 <= barracksLevel < 10
    ensures n == 1 <==> barracksLevel < 5
  {
    if barracksLevel >= 15 then 4
    else if barracksLevel >= 10 then 3
    else if barracksLevel >= 5 then 2
    else 1
  }

  /** A higher barracks never has fewer slots. */
  lemma SlotsMonotone(a: int, b: int)
    requires a <= b
    ensures BarracksTrainingSlots(a) <= BarracksTrainingSlots(b)
  {
  }

  /** `canTrainTier(barracksLevel, tier)`. */
  predicate CanTrainTier(barracksLevel: int, tier: string) {
    barracksLevel >= TierUnlock(tier)
  }

  /** A tier is trainable exactly when the barracks reaches its unlock
      level; an unknown tier needs level 999. */
  lemma CanTrainTierLevels(barracksLevel: int, tier: Tier)
    ensures CanTrainTier(barracksLevel, TierName(tier)) <==>
      barracksLevel >= (match tier case T1 => 1 case T2 => 5 case T3 => 10 case T4 => 15)
    ensures !CanTrainTier(barracksLevel, "T5") || barracksLevel >= 999
  {
  }

  /** The second loop of `ensureSlotsCount`: drop trailing idle slots while
      there are more than `target`. */
  function ShrinkTrailing(slots: seq<Slot>, target: int): (r: seq<Slot>)
    ensures |r| <= |slots| && r == slots[..|r|]
    ensures |slots| <= target ==> r == slots
    ensures |slots| >= target ==> |r| >= target
    ensures |r| > target && |r| > 0 ==> r[|r| - 1].Some?
    ensures forall k :: |r| <= k < |slots| ==> slots[k].None?
    decreases |slots|
  {
    if |slots| > target && |slots| > 0 && slots[|slots| - 1].None? then
      var r := ShrinkTrailing(slots[..|slots| - 1], target);
      assert forall k :: 0 <= k < |slots| - 1 ==> slots[..|slots| - 1][k] == slots[k];
      r
    else slots
  }

  /** `ensureSlotsCount(targetCount)`: pad with idle slots up to the target,
      then drop trailing idle slots above it. */
  function SyncSlots(slots: seq<Slot>, target: int): (r: seq<Slot>)
    ensures |slots| < target ==> |r| == target
    ensures |slots| >= target ==> target <= |r| <= |slots|
    ensures forall k :: 0 <= k < |slots| && k < |r| ==> r[k] == slots[k]
    ensures forall k :: |slots| <= k < |r| ==> r[k].None?
    ensures forall k :: 0 <= k < |slots| && slots[k].Some? ==> k < |r|
    ensures |r| > target && |r| > 0 ==> r[|r| - 1].Some?
  {
    if |slots| < target then slots + seq(target - |slots|, _ => None)
    else ShrinkTrailing(slots, target)
  }

  /** Syncing twice is syncing once. */
  lemma SyncSlotsIdempotent(slots: seq<Slot>, target: int)
    ensures SyncSlots(SyncSlots(slots, target), target) == SyncSlots(slots, target)
  {
  }

  /** Every slot that held a job still holds it, at the same index. */
  lemma SyncKeepsJobs(slots: seq<Slot>, target: int, k: int)
    requires 0 <= k < |slots| && slots[k].Some?
    ensures k < |SyncSlots(slots, target)| && SyncSlots(slots, target)[k] == slots[k]
  {
  }

  /** `syncBarracksSlots(barracksLevel)`. */
  function Sync(st: TrainingState, barracksLevel: int): TrainingState {
    st.(slots := SyncSlots(st.slots, BarracksTrainingSlots(barracksLevel)))
  }

  /** The whole cost of `amount` units: `(cost.k || 0) * amount` for each of
      the five resources. */
  function TotalCost(unit: Cost, amount: int): (c: Cost)
    ensures forall r :: Need(c, r) == Need(unit, r) * amount
  {
    AllListed();
    map r | r in AllResources :: Need(unit, r) * amount
  }

  datatype StartFailure =
    | InvalidSlot
    | SlotBusy
    | UnknownTroop
    | InvalidAmount
    | TierLocked(tier: Tier)
    | NotEnoughResources

  datatype StartResult = Started | StartFailed(reason: StartFailure)

  datatype StartOutcome = StartOutcome(result: StartResult, state: TrainingState)

  /** `(troop.trainSeconds || 1) * 1000 * amount`. */
  function DurationMs(trainSeconds: int, amount: int): (d: int)
    ensures trainSeconds != 0 ==> d == trainSeconds * 1000 * amount
  {
    (if trainSeconds == 0 then 1 else trainSeconds) * 1000 * amount
  }

  /** All checks of `startTrainingInSlot` pass on the synced slots. */
  predicate StartAllowed(synced: seq<Slot>, res: Ledger, barracksLevel: int, slotIndex: int,
                         troopId: string, amount: int, table: CostTable)
  {
    StartFailureOf(synced, res, barracksLevel, slotIndex, troopId, amount, table).None?
  }

  /** The first check of `startTrainingInSlot` that fails, in the source's
      order: slot index, busy slot, troop, amount, tier, then cost. */
  function StartFailureOf(synced: seq<Slot>, res: Ledger, barracksLevel: int, slotIndex: int,
                          troopId: string, amount: int, table: CostTable): (f: Option<StartFailure>)
    ensures f == Some(InvalidSlot) <==> !(0 <= slotIndex < |synced|)
    ensures f == Some(SlotBusy) <==> 0 <= slotIndex < |synced| && synced[slotIndex].Some?
    ensures f == Some(UnknownTroop) <==>
      0 <= slotIndex < |synced| && synced[slotIndex].None? && GetTroop(troopId, table).None?
    ensures f == Some(InvalidAmount) <==>
      0 <= slotIndex < |synced| && synced[slotIndex].None? && GetTroop(troopId, table).Some? && amount <= 0
    ensures f.Some? && f.value.TierLocked? ==>
      GetTroop(troopId, table).Some? && f.value.tier == GetTroop(troopId, table).value.tier
      && !CanTrainTier(barracksLevel, TierName(f.value.tier))
    ensures f == Some(NotEnoughResources) ==>
      GetTroop(troopId, table).Some? && !CanAfford(res, TotalCost(GetTroop(troopId, table).value.cost, amount))
    ensures f.None? <==>
      && 0 <= slotIndex < |synced|
      && synced[slotIndex].None?
      && GetTroop(troopId, table).Some?
      && amount > 0
      && CanTrainTier(barracksLevel, TierName(GetTroop(troopId, table).value.tier))
      && CanAfford(res, TotalCost(GetTroop(troopId, table).value.cost, amount))
  {
    if slotIndex < 0 || slotIndex >= |synced| then Some(InvalidSlot)
    else if synced[slotIndex].Some? then Some(SlotBusy)
    else match GetTroop(troopId, table)
      case None => Some(UnknownTroop)
      case Some(troop) =>
        if amount <= 0 then Some(InvalidAmount)
        else if !CanTrainTier(barracksLevel, TierName(troop.tier)) then Some(TierLocked(troop.tier))
        else if !CanAfford(res, TotalCost(troop.cost, amount)) then Some(NotEnoughResources)
        else None
  }

  /** The job `startTrainingInSlot` stores, once every check has passed. */
  function NewJob(troopId: string, troop: Troop, amount: int, now: int): (j: Job)
    ensures troop.trainSeconds != 0 ==>
      && j.endAt == now + troop.trainSeconds * 1000 * amount
      && j.totalMs == Some(troop.trainSeconds * 1000 * amount)
    ensures j.troopId == troopId && j.amount == amount && j.startAt == now
    ensures j.cost == TotalCost(troop.cost, amount)
  {
    var duration := DurationMs(troop.trainSeconds, amount);
    Job(troopId, amount, now, now + duration, Some(duration), TotalCost(troop.cost, amount))
  }

  /** `startTrainingInSlot({ barracksLevel, slotIndex, troopId, amount })`.
      The slots are synced first, whether or not the start succeeds. */
  function StartTrainingInSlot(st: TrainingState, barracksLevel: int, slotIndex: int,
                               troopId: string, amount: int, now: int, table: CostTable): (r: StartOutcome)
    ensures var synced := Sync(st, barracksLevel);
      && (r.result.StartFailed? ==>
            && r.state == synced
            && Some(r.result.reason) == StartFailureOf(synced.slots, st.resources, barracksLevel, slotIndex, troopId, amount, table))
      && (r.result.Started? <==> StartAllowed(synced.slots, st.resources, barracksLevel, slotIndex, troopId, amount, table))
      && r.state.troops == st.troops
      && |r.state.slots| == |synced.slots|
      && (r.result.Started? ==>
            var troop := GetTroop(troopId, table).value;
            var total := TotalCost(troop.cost, amount);
            && r.state.resources == Spend(st.resources, total)
            && (forall k :: 0 <= k < |synced.slots| && k != slotIndex ==> r.state.slots[k] == synced.slots[k])
            && r.state.slots[slotIndex] == Some(NewJob(troopId, troop, amount, now)))
  {
    var synced := Sync(st, barracksLevel);
    match StartFailureOf(synced.slots, st.resources, barracksLevel, slotIndex, troopId, amount, table)
    case Some(reason) => StartOutcome(StartFailed(reason), synced)
    case None =>
      var troop := GetTroop(troopId, table).value;
      var total := TotalCost(troop.cost, amount);
      StartOutcome(Started, synced.(slots := synced.slots[slotIndex := Some(NewJob(troopId, troop, amount, now))],
                                    resources := Spend(st.resources, total)))
  }

  /** A started job ends `trainSeconds * 1000 * amount` milliseconds after
      it starts: every catalog troop trains for at least 8 seconds, so the
      `|| 1` fallback never applies and the job runs at least 8 seconds. */
  lemma StartedJobDuration(st: TrainingState, barracksLevel: int, slotIndex: int,
                           troopId: string, amount: int, now: int, table: CostTable)
    requires StartTrainingInSlot(st, barracksLevel, slotIndex, troopId, amount, now, table).result.Started?
    ensures var j := StartTrainingInSlot(st, barracksLevel, slotIndex, troopId, amount, now, table).state.slots[slotIndex];
      var troop := GetTroop(troopId, table).value;
      && j.Some?
      && j.value.endAt == now + troop.trainSeconds * 1000 * amount
      && j.value.endAt >= now + 8000 * amount
  {
    var troop := GetTroop(troopId, table).value;
    var r := StartTrainingInSlot(st, barracksLevel, slotIndex, troopId, amount, now, table);
    assert r.state.slots[slotIndex] == Some(NewJob(troopId, troop, amount, now));
    assert troop.trainSeconds == TrainSeconds(troop.troopType, troop.tier) >= 8;
    DurationAtLeast(troop.trainSeconds, amount);
  }

  lemma DurationAtLeast(seconds: int, amount: int)
    requires seconds >= 8 && amount > 0
    ensures seconds * 1000 * amount >= 8000 * amount
  {
    assert (seconds - 8) * (1000 * amount) >= 0;
  }

  /** A start never drives a balance below zero. */
  lemma StartKeepsNonNegative(st: TrainingState, barracksLevel: int, slotIndex: int,
                              troopId: string, amount: int, now: int, table: CostTable)
    requires NonNegative(st.resources)
    ensures NonNegative(StartTrainingInSlot(st, barracksLevel, slotIndex, troopId, amount, now, table).state.resources)
  {
    var r := StartTrainingInSlot(st, barracksLevel, slotIndex, troopId, amount, now, table);
    if r.result.Started? {
      SpendAffordableKeepsNonNegative(st.resources, TotalCost(GetTroop(troopId, table).value.cost, amount));
    }
  }

  /** With the corrected catalog a started job charges ore: every unit costs
      at least 5 ore. */
  lemma StartChargesOre(st: TrainingState, barracksLevel: int, slotIndex: int,
                        troopId: string, amount: int, now: int)
    requires StartTrainingInSlot(st, barracksLevel, slotIndex, troopId, amount, now, Corrected).result.Started?
    ensures StartTrainingInSlot(st, barracksLevel, slotIndex, troopId, amount, now, Corrected).state.resources.ore
         <= st.resources.ore - 5.0 * amount as real
  {
    var troop := GetTroop(troopId, Corrected).value;
    var total := TotalCost(troop.cost, amount);
    var r := StartTrainingInSlot(st, barracksLevel, slotIndex, troopId, amount, now, Corrected);
    assert r.state.resources.ore == st.resources.ore - Need(total, Ore) as real;
    assert amount > 0;
    MakeCostCorrectsIron(troop.troopType, troop.tier);
    ScaleAtLeast(Need(troop.cost, Ore), 5, amount);
    assert Need(total, Ore) >= 5 * amount;
  }

  lemma ScaleAtLeast(a: int, b: int, n: int)
    requires a >= b && n >= 0
    ensures a * n >= b * n
  {
  }

  /** As written, the catalog's cost record has no `ore` key, so
      `startTrainingInSlot` never touches the ore balance, and whether a start
      is affordable does not depend on it. */
  lemma StartAsWrittenKeepsOre(st: TrainingState, barracksLevel: int, slotIndex: int,
                               troopId: string, amount: int, now: int, ore: real)
    requires ore >= 0.0 && st.resources.ore >= 0.0
    ensures StartTrainingInSlot(st, barracksLevel, slotIndex, troopId, amount, now, AsWritten).state.resources.ore
         == st.resources.ore
    ensures StartTrainingInSlot(st.(resources := st.resources.(ore := ore)), barracksLevel, slotIndex, troopId, amount, now, AsWritten).result
         == StartTrainingInSlot(st, barracksLevel, slotIndex, troopId, amount, now, AsWritten).result
  {
    var st2 := st.(resources := st.resources.(ore := ore));
    var synced := Sync(st, barracksLevel);
    assert Sync(st2, barracksLevel).slots == synced.slots;
    match GetTroop(troopId, AsWritten)
    case None =>
    case Some(troop) =>
      var total := TotalCost(troop.cost, amount);
      assert Need(total, Ore) == 0;
      assert CanAfford(st2.resources, total) == CanAfford(st.resources, total);
  }

  /** The two tables disagree on a real ledger: with 1000 food, wood and
      stone and no ore, one T1 infantry starts as written but not with the
      corrected cost. */
  lemma TablesDisagreeWithoutOre()
    ensures var st := TrainingState([], map[], Ledger(1000.0, 1000.0, 1000.0, 0.0, 0.0));
      && StartTrainingInSlot(st, 1, 0, "infantry_T1", 1, 0, AsWritten).result.Started?
      && StartTrainingInSlot(st, 1, 0, "infantry_T1", 1, 0, Corrected).result == StartFailed(NotEnoughResources)
  {
    var st := TrainingState([], map[], Ledger(1000.0, 1000.0, 1000.0, 0.0, 0.0));
    assert Sync(st, 1).slots == [None];
    assert TroopId(Infantry, T1) == "infantry_T1";
    GetTroopFindsEvery(Infantry, T1, AsWritten);
    GetTroopFindsEvery(Infantry, T1, Corrected);
    assert CanTrainTier(1, TierName(T1));
    InfantryT1Affordability(st.resources);
  }

  lemma InfantryT1Affordability(l: Ledger)
    requires l == Ledger(1000.0, 1000.0, 1000.0, 0.0, 0.0)
    ensures CanAfford(l, TotalCost(TroopCost(Infantry, T1, AsWritten), 1))
    ensures !CanAfford(l, TotalCost(TroopCost(Infantry, T1, Corrected), 1))
  {
    var w := TroopCost(Infantry, T1, AsWritten);
    assert Need(w, Food) == 30 && Need(w, Wood) == 15 && Need(w, Stone) == 1;
    MakeCostCorrectsIron(Infantry, T1);
    assert Need(TotalCost(TroopCost(Infantry, T1, Corrected), 1), Ore) >= 5;
  }

  datatype CancelResult = NoActiveTraining | Cancelled(refund: Cost)

  datatype CancelOutcome = CancelOutcome(result: CancelResult, state: TrainingState)

  /** `refundPercent = 0.5`. */
  const DefaultRefundPercent: real := 0.5

  /** `Math.floor((job.cost.k || 0) * refundPercent)` for each resource. */
  function Refund(cost: Cost, pct: real): (refund: Cost)
    ensures forall r :: Need(refund, r) == RefundOf(cost, pct, r)
  {
    AllListed();
    map r | r in AllResources :: RefundOf(cost, pct, r)
  }

  function RefundOf(cost: Cost, pct: real, r: Resource): int {
    (Need(cost, r) as real * pct).Floor
  }

  /** `cancelTraining({ slotIndex, refundPercent })`. The slots are not synced
      here; an index outside the list reads an idle slot. */
  function CancelTraining(st: TrainingState, slotIndex: int, pct: real): (r: CancelOutcome)
    ensures r.result.NoActiveTraining? <==> !(0 <= slotIndex < |st.slots| && st.slots[slotIndex].Some?)
    ensures r.result.NoActiveTraining? ==> r.state == st
    ensures r.result.Cancelled? ==>
      && r.state.slots == st.slots[slotIndex := None]
      && r.state.troops == st.troops
      && r.result.refund == Refund(st.slots[slotIndex].value.cost, pct)
      && r.state.resources == Credit(st.resources, r.result.refund)
  {
    if slotIndex < 0 || slotIndex >= |st.slots| || st.slots[slotIndex].None? then
      CancelOutcome(NoActiveTraining, st)
    else
      var job := st.slots[slotIndex].value;
      var refund := Refund(job.cost, pct);
      CancelOutcome(Cancelled(refund), st.(slots := st.slots[slotIndex := None],
                                           resources := Credit(st.resources, refund)))
  }

  /** For a fraction in [0, 1] and a non-negative cost, the refund never
      exceeds what was paid, and is never negative. */
  lemma RefundBounded(cost: Cost, pct: real, k: Resource)
    requires 0.0 <= pct <= 1.0 && Need(cost, k) >= 0
    ensures 0 <= Need(Refund(cost, pct), k) <= Need(cost, k)
  {
    var n := Need(cost, k);
    var x := n as real * pct;
    ScaleBounded(n as real, pct);
    FloorMonotone(0.0, x);
    FloorMonotone(x, n as real);
    assert RefundOf(cost, pct, k) == x.Floor;
    assert Need(Refund(cost, pct), k) == RefundOf(cost, pct, k);
  }

  lemma ScaleBounded(x: real, p: real)
    requires x >= 0.0 && 0.0 <= p <= 1.0
    ensures 0.0 <= x * p <= x
  {
  }

  /** Starting a job and cancelling it with a full refund gives every
      resource back, and leaves the slot idle again. */
  lemma StartThenFullCancelRestores(st: TrainingState, barracksLevel: int, slotIndex: int,
                                    troopId: string, amount: int, now: int, table: CostTable)
    requires StartTrainingInSlot(st, barracksLevel, slotIndex, troopId, amount, now, table).result.Started?
    ensures var s1 := StartTrainingInSlot(st, barracksLevel, slotIndex, troopId, amount, now, table).state;
      && CancelTraining(s1, slotIndex, 1.0).state.resources == st.resources
      && CancelTraining(s1, slotIndex, 1.0).state.slots == Sync(st, barracksLevel).slots
  {
    var s1 := StartTrainingInSlot(st, barracksLevel, slotIndex, troopId, amount, now, table).state;
    var total := TotalCost(GetTroop(troopId, table).value.cost, amount);
    assert s1.resources == Spend(st.resources, total);
    assert s1.slots == Sync(st, barracksLevel).slots[slotIndex := s1.slots[slotIndex]];
    assert s1.slots[slotIndex].value.cost == total;
    assert Refund(total, 1.0) == total;
    CreditUndoesSpend(st.resources, total);
  }

  /** The default half refund is the paid amount halved and rounded down,
      for every resource: a job costing 75 food gives back 37. */
  lemma {:induction false} HalfRefundFloors(cost: Cost, r: Resource)
    ensures Need(Refund(cost, DefaultRefundPercent), r) == Need(cost, r) / 2
  {
    var n := Need(cost, r);
    var q := n / 2;
    assert n == 2 * q + n % 2;
    assert q as real <= n as real * 0.5 < q as real + 1.0;
    FloorIs(n as real * 0.5, q);
  }

  lemma FloorIs(x: real, q: int)
    requires q as real <= x < q as real + 1.0
    ensures x.Floor == q
  {
  }

  /** A job is done when the clock has reached its end time. */
  predicate Done(s: Slot, now: int) {
    s.Some? && now >= s.value.endAt
  }

  /** `(troops[id] || 0)`. */
  function Count(troops: map<string, int>, id: string): int {
    if id in troops then troops[id] else 0
  }

  /** The loop of `processTrainingQueues` over the slots, in order: credit
      every done job's troops and free its slot. */
  function Complete(slots: seq<Slot>, troops: map<string, int>, now: int): (r: (seq<Slot>, map<string, int>))
    ensures |r.0| == |slots|
    ensures forall k :: 0 <= k < |slots| ==> r.0[k] == (if Done(slots[k], now) then None else slots[k])
    ensures troops.Keys <= r.1.Keys
    decreases |slots|
  {
    if slots == [] then (slots, troops)
    else
      var init := slots[..|slots| - 1];
      var last := slots[|slots| - 1];
      var (s, t) := Complete(init, troops, now);
      assert forall k :: 0 <= k < |init| ==> init[k] == slots[k];
      if Done(last, now) then
        (s + [None], t[last.value.troopId := Count(t, last.value.troopId) + last.value.amount])
      else (s + [last], t)
  }

  /** The troops `Complete` credits to `id`: the amounts of the done jobs
      training it. */
  function Credited(slots: seq<Slot>, id: string, now: int): int {
    if slots == [] then 0
    else
      var last := slots[|slots| - 1];
      Credited(slots[..|slots| - 1], id, now)
        + (if Done(last, now) && last.value.troopId == id then last.value.amount else 0)
  }

  /** Each troop count grows by exactly the amounts of the done jobs. */
  lemma {:induction false} CompleteCredits(slots: seq<Slot>, troops: map<string, int>, now: int, id: string)
    ensures Count(Complete(slots, troops, now).1, id) == Count(troops, id) + Credited(slots, id, now)
  {
    if slots != [] {
      CompleteCredits(slots[..|slots| - 1], troops, now, id);
    }
  }

  /** Every job started by this system has a positive amount. */
  predicate AmountsPositive(slots: seq<Slot>) {
    forall k :: 0 <= k < |slots| && slots[k].Some? ==> slots[k].value.amount > 0
  }

  lemma {:induction false} CreditedNonNegative(slots: seq<Slot>, id: string, now: int)
    requires AmountsPositive(slots)
    ensures Credited(slots, id, now) >= 0
  {
    if slots != [] {
      var init := slots[..|slots| - 1];
      assert forall k :: 0 <= k < |init| ==> init[k] == slots[k];
      CreditedNonNegative(init, id, now);
    }
  }

  /** `processTrainingQueues()`: sync the slots to the barracks level, then
      complete every done job. */
  function ProcessTrainingQueues(st: TrainingState, barracksLevel: int, now: int): (r: TrainingState)
    ensures r.resources == st.resources
    ensures var synced := SyncSlots(st.slots, BarracksTrainingSlots(barracksLevel));
      && |r.slots| == |synced|
      && forall k :: 0 <= k < |synced| ==> r.slots[k] == (if Done(synced[k], now) then None else synced[k])
    ensures forall k :: 0 <= k < |r.slots| ==> !Done(r.slots[k], now)
  {
    var synced := SyncSlots(st.slots, BarracksTrainingSlots(barracksLevel));
    var (slots, troops) := Complete(synced, st.troops, now);
    st.(slots := slots, troops := troops)
  }

  /** Troop counts never fall: every count grows by the amounts of the jobs
      that finished. */
  lemma ProcessNeverLosesTroops(st: TrainingState, barracksLevel: int, now: int, id: string)
    requires AmountsPositive(st.slots)
    ensures Count(ProcessTrainingQueues(st, barracksLevel, now).troops, id) >= Count(st.troops, id)
  {
    var synced := SyncSlots(st.slots, BarracksTrainingSlots(barracksLevel));
    CompleteCredits(synced, st.troops, now, id);
    CreditedNonNegative(synced, id, now);
  }

  /** Nothing done is left after a pass, so a second pass at the same `now`
      credits nothing and keeps every job. */
  lemma {:induction false} NothingDoneCreditsNothing(slots: seq<Slot>, id: string, now: int)
    requires forall k :: 0 <= k < |slots| ==> !Done(slots[k], now)
    ensures Credited(slots, id, now) == 0
  {
    if slots != [] {
      var init := slots[..|slots| - 1];
      assert forall k :: 0 <= k < |init| ==> init[k] == slots[k];
      NothingDoneCreditsNothing(init, id, now);
    }
  }

  /** At a fixed `now` a second pass changes no troop count and keeps every
      job, in order. */
  lemma ProcessTwiceKeepsTroopsAndJobs(st: TrainingState, barracksLevel: int, now: int, id: string)
    ensures var s1 := ProcessTrainingQueues(st, barracksLevel, now);
      var s2 := ProcessTrainingQueues(s1, barracksLevel, now);
      && Count(s2.troops, id) == Count(s1.troops, id)
      && forall k :: 0 <= k < |s1.slots| && s1.slots[k].Some? ==> k < |s2.slots| && s2.slots[k] == s1.slots[k]
  {
    var s1 := ProcessTrainingQueues(st, barracksLevel, now);
    var synced := SyncSlots(s1.slots, BarracksTrainingSlots(barracksLevel));
    CompleteCredits(synced, s1.troops, now, id);
    NothingDoneCreditsNothing(synced, id, now);
  }

  /** The slot list itself is not idempotent: with one slot allowed, a done
      job in the second slot keeps that slot through the first pass's sync,
      and the second pass then drops the slot it freed. */
  lemma SecondPassCanShrinkSlots()
    ensures var job := Job("infantry_T1", 1, 0, 10, Some(10), map[]);
      var st := TrainingState([None, Some(job)], map[], Empty);
      var s1 := ProcessTrainingQueues(st, 1, 10);
      && s1.slots == [None, None]
      && ProcessTrainingQueues(s1, 1, 10).slots == [None]
  {
    var job := Job("infantry_T1", 1, 0, 10, Some(10), map[]);
    var st := TrainingState([None, Some(job)], map[], Empty);
    assert SyncSlots(st.slots, 1) == st.slots;
    var s1 := ProcessTrainingQueues(st, 1, 10);
    assert s1.slots == [None, None];
    assert ShrinkTrailing([None, None], 1) == [None];
  }

  /** One slot of `getTrainingSnapshot()`. */
  datatype SlotView =
    | Idle
    | Training(troopId: string, amount: int, startAt: int, endAt: int, remainingMs: int, totalMs: int)

  /** The view of one slot at `now`. */
  function View(s: Slot, now: int): (v: SlotView)
    ensures s.None? <==> v.Idle?
    ensures v.Training? ==> v.remainingMs >= 0 && v.totalMs >= 1
    ensures v.Training? ==> (v.remainingMs == 0 <==> Done(s, now))
    ensures v.Training? ==> v.remainingMs == Max(0, s.value.endAt - now)
  {
    match s
    case None => Idle
    case Some(job) =>
      Training(job.troopId, job.amount, job.startAt, job.endAt,
               Max(0, job.endAt - now), Max(1, job.totalMs.GetOr(job.endAt - job.startAt)))
  }

  /** `getTrainingSnapshot()`: one view per slot, in order, and the troop
      counts. */
  function Snapshot(st: TrainingState, now: int): (r: (seq<SlotView>, map<string, int>))
    ensures |r.0| == |st.slots| && r.1 == st.troops
    ensures forall k :: 0 <= k < |st.slots| ==> r.0[k] == View(st.slots[k], now)
  {
    (seq(|st.slots|, k requires 0 <= k < |st.slots| => View(st.slots[k], now)), st.troops)
  }

  /** A slot the snapshot shows with nothing remaining is exactly one the
      next queue pass completes (when the slot survives the sync). */
  lemma ZeroRemainingMeansCompleted(st: TrainingState, barracksLevel: int, now: int, k: int)
    requires 0 <= k < |st.slots| && st.slots[k].Some?
    requires Snapshot(st, now).0[k].remainingMs == 0
    ensures k < |ProcessTrainingQueues(st, barracksLevel, now).slots|
    ensures ProcessTrainingQueues(st, barracksLevel, now).slots[k].None?
    ensures Count(ProcessTrainingQueues(st, barracksLevel, now).troops, st.slots[k].value.troopId)
            >= Count(st.troops, st.slots[k].value.troopId) + st.slots[k].value.amount
            || !AmountsPositive(st.slots)
  {
    var synced := SyncSlots(st.slots, BarracksTrainingSlots(barracksLevel));
    SyncKeepsJobs(st.slots, BarracksTrainingSlots(barracksLevel), k);
    var id := st.slots[k].value.troopId;
    CompleteCredits(synced, st.troops, now, id);
    if AmountsPositive(st.slots) {
      assert AmountsPositive(synced);
      CreditedAtLeast(synced, id, now, k);
    }
  }

  /** A done job at index `k` contributes its amount to the credited sum. */
  lemma {:induction false} CreditedAtLeast(slots: seq<Slot>, id: string, now: int, k: int)
    requires AmountsPositive(slots)
    requires 0 <= k < |slots| && Done(slots[k], now) && slots[k].value.troopId == id
    ensures Credited(slots, id, now) >= slots[k].value.amount
  {
    var init := slots[..|slots| - 1];
    assert forall j :: 0 <= j < |init| ==> init[j] == slots[j];
    if k < |slots| - 1 {
      CreditedAtLeast(init, id, now, k);
      var last := slots[|slots| - 1];
      assert last.Some? ==> last.value.amount > 0;
    } else {
      CreditedNonNegative(init, id, now);
    }
  }
}

=== FILE: troops_catalog.dfy ===
/** The troop catalog of docs/js/data/troopsCatalog.js: four types times four
    tiers, with costs, training times and stats derived from per-type bases
    and per-tier multipliers.

    The source's cost record has the keys food, wood, stone and `iron`, where
    `iron` is computed from a base field that does not exist (the bases name
    it `ore`), so it is NaN, and no `ore` key is ever produced. `CostAsWritten`
    models that record; `MakeCost` is the evidently intended one (ore from
    the `ore` base). The catalog is built over either table (`CostTable`):
    `AsWritten` is the program, `Corrected` the intended design. */
module TroopsCatalog {
  import opened Common
  import opened Resources

  datatype Tier = T1 | T2 | T3 | T4

  /** `TIERS`, in order. */
  const Tiers: seq<Tier> := [T1, T2, T3, T4]

  function TierName(t: Tier): string {
    match t
    case T1 => "T1"
    case T2 => "T2"
    case T3 => "T3"
    case T4 => "T4"
  }

  /** The tier a tier key names, if any. */
  function ParseTier(s: string): (t: Option<Tier>)
    ensures t.Some? ==> TierName(t.value) == s
    ensures forall x :: s == TierName(x) ==> t == Some(x)
  {
    match s
    case "T1" => Some(T1)
    case "T2" => Some(T2)
    case "T3" => Some(T3)
    case "T4" => Some(T4)
    case _ => None
  }

  /** `TIER_MULT`. */
  function TierMult(t: Tier): (m: int)
    ensures m >= 1
  {
    match t
    case T1 => 1
    case T2 => 2
    case T3 => 4
    case T4 => 8
  }

  /** `BARRACKS_TIER_UNLOCK`, looked up by key; an unknown key needs 999. */
  function TierUnlock(tier: string): (l: int)
    ensures ParseTier(tier).None? ==> l == 999
    ensures 1 <= l
  {
    match ParseTier(tier)
    case None => 999
    case Some(T1) => 1
    case Some(T2) => 5
    case Some(T3) => 10
    case Some(T4) => 15
  }

  /** `COST_MULT`. */
  function CostMult(t: Tier): (m: real)
    ensures m >= 1.0
  {
    match t
    case T1 => 1.0
    case T2 => 2.5
    case T3 => 5.0
    case T4 => 10.0
  }

  /** `TIME_MULT`. */
  function TimeMult(t: Tier): (m: real)
    ensures m >= 1.0
  {
    match t
    case T1 => 1.0
    case T2 => 2.2
    case T3 => 4.5
    case T4 => 9.0
  }

  /** Tier rank, for ordering statements. */
  function Rank(t: Tier): nat {
    match t
    case T1 => 0
    case T2 => 1
    case T3 => 2
    case T4 => 3
  }

  /** Every per-tier table rises with the tier. */
  lemma TierTablesAscend(a: Tier, b: Tier)
    requires Rank(a) <= Rank(b)
    ensures TierMult(a) <= TierMult(b)
    ensures CostMult(a) <= CostMult(b)
    ensures TimeMult(a) <= TimeMult(b)
    ensures TierUnlock(TierName(a)) <= TierUnlock(TierName(b))
  {
  }

  datatype TroopType = Infantry | Archer | Cavalry | Siege

  /** The keys of `TROOP_TYPES`, in order. */
  const Types: seq<TroopType> := [Infantry, Archer, Cavalry, Siege]

  function TypeName(t: TroopType): string {
    match t
    case Infantry => "infantry"
    case Archer => "archer"
    case Cavalry => "cavalry"
    case Siege => "siege"
  }

  function TypeLabel(t: TroopType): string {
    match t
    case Infantry => "Infantry"
    case Archer => "Archers"
    case Cavalry => "Cavalry"
    case Siege => "Siege"
  }

  datatype Stats = Stats(hp: int, atk: int, def: int, speed: int, carry: int)

  /** The T1 stats of `TROOP_TYPES`. */
  function BaseStats(t: TroopType): Stats {
    match t
    case Infantry => Stats(100, 10, 12, 8, 8)
    case Archer => Stats(70, 16, 6, 9, 6)
    case Cavalry => Stats(85, 14, 8, 12, 10)
    case Siege => Stats(120, 22, 4, 6, 4)
  }

  /** `makeStats(type, tier)`: the integer tier multiplier makes the
      rounding exact. */
  function MakeStats(t: TroopType, tier: Tier): (s: Stats)
    ensures s.speed == BaseStats(t).speed
    ensures s.hp >= BaseStats(t).hp && s.atk >= BaseStats(t).atk
    ensures s.def >= BaseStats(t).def && s.carry >= BaseStats(t).carry
  {
    var b, m := BaseStats(t), TierMult(tier);
    Stats(Round((b.hp * m) as real), Round((b.atk * m) as real), Round((b.def * m) as real),
          b.speed, Round((b.carry * m) as real))
  }

  /** Rounding an integer changes nothing, so every scaled stat is exactly
      base times the tier multiplier. */
  lemma StatsScaleExactly(t: TroopType, tier: Tier)
    ensures MakeStats(t, tier).hp == BaseStats(t).hp * TierMult(tier)
    ensures MakeStats(t, tier).atk == BaseStats(t).atk * TierMult(tier)
    ensures MakeStats(t, tier).def == BaseStats(t).def * TierMult(tier)
    ensures MakeStats(t, tier).carry == BaseStats(t).carry * TierMult(tier)
  {
  }

  /** The T1 unit cost of the base table. */
  datatype BaseCost = BaseCost(food: int, wood: int, stone: int, ore: int)

  function BaseCostOf(t: TroopType): BaseCost {
    match t
    case Infantry => BaseCost(30, 15, 0, 5)
    case Archer => BaseCost(25, 25, 0, 5)
    case Cavalry => BaseCost(40, 10, 0, 15)
    case Siege => BaseCost(35, 15, 25, 25)
  }

  /** `roundCost(n)` on a number: `Math.max(1, Math.round(n))`. */
  function RoundCost(n: real): (c: int)
    ensures c >= 1
    ensures n >= 0.5 ==> n - 0.5 < c as real <= n + 0.5
  {
    Max(1, Round(n))
  }

  /** A JavaScript number that may be NaN. */
  datatype Num = NaN | Fin(value: real)

  /** `roundCost` on a possibly-NaN number: `Math.round(NaN)` and
      `Math.max(1, NaN)` are NaN. */
  function RoundCostNum(n: Num): (c: Num)
    ensures n.NaN? <==> c.NaN?
    ensures n.Fin? ==> c == Fin(RoundCost(n.value) as real)
  {
    match n
    case NaN => NaN
    case Fin(v) => Fin(RoundCost(v) as real)
  }

  /** The cost record `makeCost` builds: keys food, wood, stone and iron. */
  datatype CostRecord = CostRecord(food: int, wood: int, stone: int, iron: Num)

  /** `base.iron`: the bases have no such field, so it reads `undefined`,
      and `undefined * m` is NaN. */
  function BaseIron(b: BaseCost): Num {
    NaN
  }

  /** `makeCost(type, tier)` as the source writes it. */
  function CostAsWritten(t: TroopType, tier: Tier): (c: CostRecord)
    ensures c.food >= 1 && c.wood >= 1 && c.stone >= 1
  {
    var b, m := BaseCostOf(t), CostMult(tier);
    CostRecord(RoundCost(b.food as real * m), RoundCost(b.wood as real * m),
               RoundCost(b.stone as real * m), RoundCostNum(BaseIron(b)))
  }

  /** The part of a cost record that `startTrainingInSlot` can see: it reads
      `cost.food`, `cost.wood`, `cost.stone`, `cost.ore` and `cost.gold`, and
      only the first three exist. */
  function VisibleCost(c: CostRecord): (v: Cost)
    ensures v.Keys == {Food, Wood, Stone}
  {
    map[Food := c.food, Wood := c.wood, Stone := c.stone]
  }

  /** As written, every troop's iron cost is NaN and no troop has an ore
      cost that training could see. */
  lemma IronIsNaNAndOreIsMissing(t: TroopType, tier: Tier)
    ensures CostAsWritten(t, tier).iron.NaN?
    ensures Need(VisibleCost(CostAsWritten(t, tier)), Ore) == 0
  {
  }

  /** `makeCost(type, tier)` as intended: the fourth component is the ore
      base scaled like the others. */
  function MakeCost(t: TroopType, tier: Tier): (c: Cost)
    ensures c.Keys == {Food, Wood, Stone, Ore}
    ensures forall r :: r in c ==> c[r] >= 1
  {
    var b, m := BaseCostOf(t), CostMult(tier);
    map[Food := RoundCost(b.food as real * m), Wood := RoundCost(b.wood as real * m),
        Stone := RoundCost(b.stone as real * m), Ore := RoundCost(b.ore as real * m)]
  }

  /** The intended cost agrees with the written one on food, wood and stone,
      and charges at least the ore base where the written one charges 0. */
  lemma MakeCostCorrectsIron(t: TroopType, tier: Tier)
    ensures MakeCost(t, tier)[Food] == CostAsWritten(t, tier).food
    ensures MakeCost(t, tier)[Wood] == CostAsWritten(t, tier).wood
    ensures MakeCost(t, tier)[Stone] == CostAsWritten(t, tier).stone
    ensures MakeCost(t, tier)[Ore] >= BaseCostOf(t).ore >= 5
  {
    var b, m := BaseCostOf(t), CostMult(tier);
    assert b.ore as real * m >= b.ore as real;
  }

  /** A zero base still costs 1 at every tier: `roundCost` never returns
      less than 1, so infantry, archers and cavalry each need one stone per
      unit. */
  lemma ZeroBaseCostsOne(t: TroopType, tier: Tier)
    requires BaseCostOf(t).stone == 0
    ensures MakeCost(t, tier)[Stone] == 1
    ensures CostAsWritten(t, tier).stone == 1
  {
  }

  /** Base training seconds per unit. */
  function BaseSeconds(t: TroopType): int {
    match t
    case Infantry => 8
    case Archer => 10
    case Cavalry => 12
    case Siege => 18
  }

  /** `makeTrainSeconds(type, tier)`: `Math.round(base * TIME_MULT[tier])`. */
  function TrainSeconds(t: TroopType, tier: Tier): (s: int)
    ensures s >= BaseSeconds(t) >= 8
  {
    var x := BaseSeconds(t) as real * TimeMult(tier);
    assert x >= BaseSeconds(t) as real;
    Round(x)
  }

  /** Training takes longer at every higher tier. */
  lemma TrainSecondsAscend(t: TroopType, a: Tier, b: Tier)
    requires Rank(a) <= Rank(b)
    ensures TrainSeconds(t, a) <= TrainSeconds(t, b)
  {
    var base := BaseSeconds(t) as real;
    assert base * TimeMult(a) <= base * TimeMult(b);
  }

  /** `troopId(type, tier)`. */
  function TroopId(t: TroopType, tier: Tier): string {
    TypeName(t) + "_" + TierName(tier)
  }

  /** Which cost table the catalog carries: the record `makeCost` builds, or
      the corrected one with ore. */
  datatype CostTable = AsWritten | Corrected

  /** The per-unit cost of an entry, as the resources a caller can read from
      it. As written that is food, wood and stone only: the NaN `iron` field
      names no resource, and there is no `ore` key. */
  function TroopCost(t: TroopType, tier: Tier, table: CostTable): (c: Cost)
    ensures table == AsWritten ==> c.Keys == {Food, Wood, Stone} && Need(c, Ore) == 0
    ensures table == Corrected ==> c.Keys == {Food, Wood, Stone, Ore}
    ensures forall r :: r in c ==> c[r] >= 1
  {
    match table
    case AsWritten => VisibleCost(CostAsWritten(t, tier))
    case Corrected => MakeCost(t, tier)
  }

  /** The two tables agree on food, wood and stone; only the corrected one
      charges ore. */
  lemma TablesDifferOnlyInOre(t: TroopType, tier: Tier, r: Resource)
    ensures r != Ore ==> Need(TroopCost(t, tier, AsWritten), r) == Need(TroopCost(t, tier, Corrected), r)
    ensures Need(TroopCost(t, tier, AsWritten), Ore) == 0 < Need(TroopCost(t, tier, Corrected), Ore)
  {
    MakeCostCorrectsIron(t, tier);
  }

  /** One `TROOPS` entry. */
  datatype Troop = Troop(id: string, troopType: TroopType, tier: Tier, title: string,
                         stats: Stats, cost: Cost, trainSeconds: int)

  function MakeTroop(t: TroopType, tier: Tier, table: CostTable): (tr: Troop)
    ensures tr.id == TroopId(t, tier) && tr.troopType == t && tr.tier == tier
    ensures tr.cost == TroopCost(t, tier, table) && tr.trainSeconds == TrainSeconds(t, tier)
    ensures tr.stats == MakeStats(t, tier)
  {
    Troop(TroopId(t, tier), t, tier, TypeLabel(t) + " " + TierName(tier),
          MakeStats(t, tier), TroopCost(t, tier, table), TrainSeconds(t, tier))
  }

  /** The troop type a `TROOP_TYPES` key names, if any. */
  function ParseType(s: string): (t: Option<TroopType>)
    ensures t.Some? ==> TypeName(t.value) == s
    ensures forall x :: s == TypeName(x) ==> t == Some(x)
  {
    match s
    case "infantry" => Some(Infantry)
    case "archer" => Some(Archer)
    case "cavalry" => Some(Cavalry)
    case "siege" => Some(Siege)
    case _ => None
  }

  /** The (type, tier) pair whose `troopId` is `id`, if any. */
  function ParseTroopId(id: string): (r: Option<(TroopType, Tier)>)
    ensures r.Some? ==> TroopId(r.value.0, r.value.1) == id
  {
    if |id| < 4 || id[|id| - 3] != '_' then None
    else
      var prefix, tierKey := id[..|id| - 3], id[|id| - 2..];
      match (ParseType(prefix), ParseTier(tierKey))
      case (Some(t), Some(tier)) =>
        assert id == prefix + "_" + tierKey;
        Some((t, tier))
      case _ => None
  }

  /** Every troop id parses back to its own type and tier. */
  lemma ParseTroopIdRoundTrip(t: TroopType, tier: Tier)
    ensures ParseTroopId(TroopId(t, tier)) == Some((t, tier))
  {
    var id := TroopId(t, tier);
    assert id[..|id| - 3] == TypeName(t);
    assert id[|id| - 2..] == TierName(tier);
  }

  /** Distinct (type, tier) pairs get distinct ids, so the sixteen entries
      of `TROOPS` never overwrite each other. */
  lemma TroopIdInjective(t1: TroopType, a: Tier, t2: TroopType, b: Tier)
    requires TroopId(t1, a) == TroopId(t2, b)
    ensures t1 == t2 && a == b
  {
    ParseTroopIdRoundTrip(t1, a);
    ParseTroopIdRoundTrip(t2, b);
  }

  /** `TROOPS[id] ?? null`: exactly the sixteen ids `troopId` builds name an
      entry, each the one built from its own type and tier. */
  function GetTroop(id: string, table: CostTable): (r: Option<Troop>)
    ensures r.Some? ==> r.value.id == id && r.value == MakeTroop(r.value.troopType, r.value.tier, table)
  {
    match ParseTroopId(id)
    case None => None
    case Some((t, tier)) => Some(MakeTroop(t, tier, table))
  }

  /** Every (type, tier) pair has its entry. */
  lemma GetTroopFindsEvery(t: TroopType, tier: Tier, table: CostTable)
    ensures GetTroop(TroopId(t, tier), table) == Some(MakeTroop(t, tier, table))
  {
    ParseTroopIdRoundTrip(t, tier);
  }

  /** An id that no (type, tier) pair builds has no entry. */
  lemma GetTroopRejectsOthers(id: string, table: CostTable)
    requires forall t, tier :: TroopId(t, tier) != id
    ensures GetTroop(id, table).None?
  {
  }
}

=== FILE: upgrade_times.dfy ===
/** Base upgrade durations per level and per-building time multipliers
    (docs/js/data/upgradeTimes.js). */
module UpgradeTimes {
  import opened Common

  /** `UPGRADE_TIME_BY_LEVEL[level]`: seconds to go from `level` to `level + 1`. */
  function UpgradeTimeByLevel(level: int): (t: Option<int>)
    ensures t.Some? <==> 1 <= level <= 19
  {
    match level
    case 1 => Some(30)
    case 2 => Some(60)
    case 3 => Some(120)
    case 4 => Some(300)
    case 5 => Some(600)
    case 6 => Some(1200)
    case 7 => Some(1800)
    case 8 => Some(2700)
    case 9 => Some(3600)
    case 10 => Some(7200)
    case 11 => Some(10800)
    case 12 => Some(14400)
    case 13 => Some(21600)
    case 14 => Some(28800)
    case 15 => Some(43200)
    case 16 => Some(64800)
    case 17 => Some(86400)
    case 18 => Some(129600)
    case 19 => Some(172800)
    case _ => None
  }

  /** `BUILDING_TIME_MULT[id]`; `None` for a building the table does not list. */
  function BuildingTimeMult(id: string): Option<real> {
    match id
    case "townhall" => Some(1.0)
    case "barracks" => Some(0.8)
    case "farm" => Some(0.5)
    case "lumber" => Some(0.5)
    case "quarry" => Some(0.6)
    case "mine" => Some(0.6)
    case "house" => Some(0.4)
    case "academy" => Some(0.9)
    case "commandcenter" => Some(1.1)
    case _ => None
  }

  /** Each level takes strictly longer than the one before it. */
  lemma StepIncreasing(level: int)
    requires 1 <= level < 19
    ensures UpgradeTimeByLevel(level).value < UpgradeTimeByLevel(level + 1).value
  {
  }

  /** The table is strictly increasing over its whole domain. */
  lemma {:induction false} StrictlyIncreasing(a: int, b: int)
    requires 1 <= a < b <= 19
    ensures UpgradeTimeByLevel(a).value < UpgradeTimeByLevel(b).value
    decreases b - a
  {
    StepIncreasing(a);
    if a + 1 < b {
      StrictlyIncreasing(a + 1, b);
    }
  }

  /** The last step (19 -> 20) takes two days. */
  lemma LastStepTwoDays()
    ensures UpgradeTimeByLevel(19) == Some(2 * 24 * 3600)
  {
  }

  /** Exactly nine buildings have a multiplier; all are positive and the town
      hall's is 1. */
  lemma Multipliers(id: string)
    ensures BuildingTimeMult(id).Some? <==>
      id in {"townhall", "barracks", "farm", "lumber", "quarry", "mine", "house", "academy", "commandcenter"}
    ensures BuildingTimeMult(id).Some? ==> BuildingTimeMult(id).value > 0.0
    ensures BuildingTimeMult("townhall") == Some(1.0)
  {
  }
}
